=== FILE: README.md ===
# metatool-app gateway core, in Dafny

This project models the core of the metatool-app MCP gateway. Each project owns
workspaces, called *profiles*. A profile holds MCP servers, custom MCP servers
(which run uploaded *codes*), a catalog of tools discovered on those servers, and
a log of tool executions. API keys belong to a project.

- The **server actions** behind the web pages read and write this store.
- The **API routes** serve the local proxy. The proxy authenticates with a bearer
  API key and acts on the project's active profile.
- Two **React hooks** remember the chosen project and profile across reloads.

The Postgres store is an immutable value `Db`:

- Every table is a sequence of rows in insertion order.
- `clock` stands for `now()` and advances once per statement.
- `nextLogId` is the serial sequence of the log table.

Each SQL statement the actions issue is a function in `Database`. It performs
the checks Postgres makes for that statement:

- primary keys;
- the `(mcp_server_uuid, name)` unique index of `tools`;
- foreign keys, with cascade or no action as declared;
- the `mcp_servers_url_check` CHECK constraint, including its regular expression;
- the enum casts.

`Schema.Valid` is the whole-store invariant. Every operation is proved to
preserve it.

Actions return an `Outcome` (the new store and a `Result`), so an action that
fails part-way, such as the bulk import, keeps the writes it made. Routes return
a `Reply` (the new store and a response: a 200 body or a status with an error
message).

Values the source draws at run time are parameters of the operations:

- uuids from `defaultRandom`;
- the characters of a new API key;
- what an SSE server lists;
- the `localStorage` entry a hook reads.

Module layout, following the source:

| module | source |
|---|---|
| `Common`, `Seqs` | result and option types; filtering, sorting and lexicographic order |
| `Schema`, `UrlCheck`, `Database` | `db/schema.ts`: rows, enums, constraints and single statements |
| `Projects`, `Profiles`, `ApiKeys`, `McpServers`, `CustomMcpServers`, `Codes`, `Tools`, `RefreshSseTools`, `ToolCatalog`, `ToolExecutionLogs` | `app/actions/*.ts` |
| `Auth`, `McpServersRoute`, `CustomMcpServersRoute`, `ToolsRoute`, `ToolExecutionLogsRoute`, `ProfileCapabilitiesRoute` | `app/api/**` |
| `Selection` | `hooks/use-projects.ts`, `hooks/use-profiles.ts` |

## Model

| member | source | states |
|---|---|---|
| Schema.EnumLabelsRoundTrip | db/schema.ts:17-68 | Every label of the server-status, toggle-status and execution-status enums is accepted by the text cast and read back as the value it names |
| Schema.EmptyDbValid | db/schema.ts:70-255 | The empty database satisfies every key, reference and CHECK constraint of the schema |
| UrlCheck.UrlMatchesIsPattern | db/schema.ts:149-152 | The url scanner accepts a string exactly when it splits into an `http://` or `https://` scheme, dot-joined non-empty labels, an optional `:digits` port and an optional path of the bracket characters |
| UrlCheck.RejectsOtherScheme | db/schema.ts:150 | A url whose scheme is not http or https violates the pattern |
| UrlCheck.RejectsEmptyHost | db/schema.ts:150 | A url with no host label violates the pattern |
| UrlCheck.RejectsEmptyLabel | db/schema.ts:150 | Two dots in a row in the host violate the pattern |
| UrlCheck.RejectsEmptyPort | db/schema.ts:150 | A colon after the host that is not followed by digits violates the pattern |
| UrlCheck.AcceptsSseEndpoint | db/schema.ts:150 | A typical https SSE endpoint with a path satisfies the pattern |
| Database.LookupProject | db/schema.ts:70-80 | The lookup by primary key finds a stored row with that uuid, and finds none exactly when no row has it |
| Database.LookupServer | db/schema.ts:118-154 | The lookup by primary key finds a stored server with that uuid, and finds none exactly when no server has it |
| Database.InsertProject | db/schema.ts:70-80 | The insert succeeds exactly when the uuid is free and any active profile it names exists; it appends the row and keeps the store valid |
| Database.SetProjectActive | db/schema.ts:70-80 | Pointing an existing project at a profile fails exactly when the profile does not exist; only the matching project's reference changes |
| Database.InsertProfile | db/schema.ts:83-100 | The insert succeeds exactly when the uuid is free and the project exists; otherwise it gives the unique or foreign-key violation |
| Database.DeleteProjectRow | db/schema.ts:70-116 | Deleting a project cascades to its profiles and api keys, and is refused exactly when something else still references a removed profile |
| Database.ProjectDeleted | db/schema.ts:83-116 | After the cascade the remaining projects, profiles and keys are exactly those not belonging to the deleted project |
| Database.DeleteProfileRow | db/schema.ts:83-100 | Nothing cascades from a profile; the delete is refused with a foreign-key violation exactly when a reference to it remains |
| Database.DeleteProfileRowRefusedIffReferenced | db/schema.ts:70-196 | On a valid store, deleting a profile is refused exactly when a project's active reference, a server or a custom server points at it |
| Database.InsertApiKey | db/schema.ts:102-116 | The insert succeeds exactly when the uuid is free and the project exists |
| Database.DeleteApiKeyRow | db/schema.ts:102-116 | Exactly the key with that uuid in that project is removed |
| Database.InsertServer | db/schema.ts:118-154 | The insert succeeds exactly when the uuid is free, the profile exists and the row satisfies the url CHECK; the error names which constraint failed |
| Database.PatchServer | db/schema.ts:149-152 | An update of the matching server succeeds exactly when every patched row still satisfies the url CHECK; other rows are untouched |
| Database.SetServerStatus | db/schema.ts:118-154 | Only the server with that uuid and profile changes status; the store stays valid |
| Database.DeleteServerRow | db/schema.ts:198-234 | Deleting a server cascades to its tools and is refused exactly when a log still references it |
| Database.DeleteServerRowRefusedIffLogged | db/schema.ts:227-234 | On a valid store, a server delete is refused exactly when the targeted server exists and has a log row |
| Database.InsertCode | db/schema.ts:156-163 | The insert succeeds exactly when the uuid is free |
| Database.RewriteCode | db/schema.ts:156-163 | Only the code with that uuid gets the new file name and text |
| Database.DeleteCodeRow | db/schema.ts:156-196 | Deleting a code is refused with a foreign-key violation exactly when a custom server would be left pointing at a missing code |
| Database.DeleteCodeRowRefusedIffUsed | db/schema.ts:165-196 | On a valid store, a code delete is refused exactly when a custom server uses it |
| Database.InsertCustomServer | db/schema.ts:165-196 | The insert succeeds exactly when the uuid is free and the profile and code exist |
| Database.PatchedCustom | db/schema.ts:165-196 | A patched custom server keeps its uuid, profile, status and creation time; its code is the patch's code when given |
| Database.UpdateCustomServer | db/schema.ts:165-196 | Only the targeted custom servers are rewritten, and the store stays valid when the new code exists |
| Database.DeleteCustomServerRow | db/schema.ts:165-196 | Exactly the custom server with that uuid in that profile is removed |
| Database.SetToolStatus | db/schema.ts:198-225 | Only the tool with that uuid changes status, keeping both unique keys |
| Database.InsertLog | db/schema.ts:227-255 | A log is inserted exactly when its server is null or exists; it takes the next serial id |
| ApiKeys.KeyDrawsRoundTrip | app/actions/api-keys.ts:10-16 | A minted key is well formed, and reading the draws back out of it gives the draws it was minted from |
| ApiKeys.MintKeyOnto | app/actions/api-keys.ts:10-16 | Every well-formed key (the `sk_mt_` prefix and 64 alphabet characters) is the key minted from its own draws |
| ApiKeys.LetterInjective | app/actions/api-keys.ts:10-13 | Distinct draws give distinct alphabet letters |
| ApiKeys.CreateApiKey | app/actions/api-keys.ts:15-28 | The key is stored for the project with a minted key text; it fails, leaving the store, when the project is missing or the uuid is taken |
| ApiKeys.GetProjectApiKeys | app/actions/api-keys.ts:54-61 | The result holds each of the project's keys as often as the table does, and nothing else (the query has no ORDER BY) |
| ApiKeys.GetFirstApiKey | app/actions/api-keys.ts:30-52 | An empty project uuid gives nothing; an existing key of the project is returned without writing; otherwise one key is minted and returned |
| ApiKeys.DeleteApiKey | app/actions/api-keys.ts:63-72 | The key is removed only when it belongs to the given project |
| ApiKeys.DeleteApiKeyKeepsOtherProjects | app/actions/api-keys.ts:63-72 | A key of any other project survives the delete |
| Projects.CreateProject | app/actions/projects.ts:8-37 | The project and its "Default Workspace" profile are stored and the project points at that profile; it fails, leaving the store, when either uuid is taken |
| Projects.CreatedProjectResolvesToDefault | app/actions/projects.ts:8-37 | A new project's active profile resolves to its default workspace without further writes |
| Projects.GetProject | app/actions/projects.ts:39-51 | The stored project with the uuid is returned, else "Project not found" |
| Projects.GetProjects | app/actions/projects.ts:53-62 | A non-empty table is returned as is; an empty one first gets "Default Project" |
| Projects.GetProjectsNeverEmpty | app/actions/projects.ts:53-62 | On a valid store listing projects always succeeds with at least one |
| Projects.UpdateProjectName | app/actions/projects.ts:64-82 | Only the named project is renamed and returned; an unknown uuid gives "Project not found" |
| Projects.DeleteProject | app/actions/projects.ts:84-105 | An unknown uuid or the last project is refused; otherwise the project and its cascade are removed |
| Profiles.CreateProfile | app/actions/profiles.ts:9-19 | A profile with no capabilities is stored for an existing project; a taken uuid or missing project leaves the store unchanged |
| Profiles.GetProfile | app/actions/profiles.ts:21-33 | The stored profile with the uuid is returned, else "Profile not found" |
| Profiles.GetProfiles | app/actions/profiles.ts:35-42 | The result holds each of the project's profiles as often as the table does, and nothing else (the query has no ORDER BY) |
| Profiles.GetProjectActiveProfile | app/actions/profiles.ts:44-102 | An unknown project is refused; a success returns a stored profile that the project now points at (not necessarily one of its own, since `setProfileActive` does not check ownership); only projects and profiles are written |
| Profiles.ActivePointsAt | app/actions/profiles.ts:104-127 | After a successful active-reference update the project points at the profile |
| Profiles.GetProjectActiveProfileCases | app/actions/profiles.ts:44-102 | A success comes from one of three cases: the active profile exists, the first profile is adopted, or a default workspace is created |
| Profiles.GetProjectActiveProfileStable | app/actions/profiles.ts:44-102 | Once resolved, any store agreeing on projects and profiles resolves to the same profile with no write |
| Profiles.GetProjectActiveProfileIdempotent | app/actions/profiles.ts:44-102 | Resolving a second time returns the same profile and writes nothing |
| Profiles.SetProfileActive | app/actions/profiles.ts:104-127 | The project's active reference becomes the profile when both exist; an unknown project gives "Project not found" |
| Profiles.UpdateProfileName | app/actions/profiles.ts:129-147 | Only the named profile is renamed and returned |
| Profiles.DeleteProfile | app/actions/profiles.ts:149-170 | Unknown profiles and the last profile of the whole table are refused; otherwise only that profile is removed |
| Profiles.DeleteActiveProfileRefused | app/actions/profiles.ts:149-170 | Deleting a project's active profile never succeeds, because the active reference blocks it |
| McpServers.GetMcpServers | app/actions/mcp-servers.ts:9-25 | Each of the profile's ACTIVE and INACTIVE servers as often as the table holds it and no other row (a permutation of the selection), newest first |
| McpServers.GetMcpServerByUuid | app/actions/mcp-servers.ts:27-47 | A stored server with that uuid in that profile, or none exactly when no such row exists |
| McpServers.GetMcpServerByUuidUnique | app/actions/mcp-servers.ts:27-47 | On a valid store the lookup returns the one row with the key |
| McpServers.DeleteMcpServerByUuid | app/actions/mcp-servers.ts:49-61 | The profile's server is removed and, by the cascade, exactly the tools attached to it; no other table changes, and with no matching row nothing changes; on a valid store it is refused exactly when logs reference the server |
| McpServers.ToggleMcpServerStatus | app/actions/mcp-servers.ts:63-77 | Only the targeted server's status changes |
| McpServers.ToggleRoundTrip | app/actions/mcp-servers.ts:63-77 | Toggling back to the previous status restores the store exactly |
| McpServers.UpdateMcpServer | app/actions/mcp-servers.ts:79-101 | Succeeds exactly when the patched row still passes the CHECK; then only the fields the patch supplies change, on the profile's row with the uuid only, and every other row and table stays; a refused patch leaves the store unchanged |
| McpServers.UpdateThenGet | app/actions/mcp-servers.ts:79-101 | After an update the lookup returns the patched row |
| McpServers.UpdateSseCommandRefused | app/actions/mcp-servers.ts:79-101 | Giving an SSE server a command is refused by the CHECK constraint |
| McpServers.CreateMcpServer | app/actions/mcp-servers.ts:103-117 | The draft is stored in the profile exactly when the insert's constraints hold |
| McpServers.CreateThenGet | app/actions/mcp-servers.ts:103-117 | A created server is found under its uuid, and listed when its status is shown |
| McpServers.CreateThenListed | app/actions/mcp-servers.ts:103-117 | After a create, the profile's listing is the old listing plus the new row when its status is shown, and that row appears exactly once |
| McpServers.ImportAll | app/actions/mcp-servers.ts:132-155 | The import stops after some prefix of the entries: those entries are stored in order, and a failure is the refusal of the next one |
| McpServers.BulkImportMcpServers | app/actions/mcp-servers.ts:119-156 | A missing workspace is refused; a success stores one row per entry and returns their count |
| McpServers.BulkImportListsEveryEntry | app/actions/mcp-servers.ts:119-156 | After a successful import every entry is stored for the workspace as an ACTIVE row |
| McpServers.BulkImportStopsAtMissingCommand | app/actions/mcp-servers.ts:138-155 | An entry without a command makes the import fail, since its STDIO row violates the CHECK |
| CustomMcpServers.Joined | app/actions/custom-mcp-servers.ts:17-46 | The left join attaches the code text and file name exactly when the server's code exists |
| CustomMcpServers.JoinFindsCode | app/actions/custom-mcp-servers.ts:17-46 | On a valid store every custom server's code is found |
| CustomMcpServers.GetCustomMcpServers | app/actions/custom-mcp-servers.ts:17-46 | Each of the profile's ACTIVE and INACTIVE custom servers as often as the table holds it and no other row, each joined with its code, newest first |
| CustomMcpServers.GetCustomMcpServerByUuid | app/actions/custom-mcp-servers.ts:48-81 | The joined row with that uuid in that profile, or none exactly when there is no such row |
| CustomMcpServers.GetCustomMcpServerByUuidUnique | app/actions/custom-mcp-servers.ts:48-81 | On a valid store the lookup returns the one joined row with the key |
| CustomMcpServers.DeleteCustomMcpServerByUuid | app/actions/custom-mcp-servers.ts:83-110 | Exactly the targeted custom server is removed; nothing happens when there is none |
| CustomMcpServers.DeleteThenGetCustom | app/actions/custom-mcp-servers.ts:83-110 | After a delete the row is no longer found, and its code still is |
| CustomMcpServers.ToggleCustomMcpServerStatus | app/actions/custom-mcp-servers.ts:112-126 | Only the targeted custom server's status changes |
| CustomMcpServers.ToggleCustomRoundTrip | app/actions/custom-mcp-servers.ts:112-126 | Toggling back restores the store exactly |
| CustomMcpServers.CreateCustomMcpServer | app/actions/custom-mcp-servers.ts:128-146 | A missing name or code is a not-null violation; a success stores an ACTIVE row with the given fields and "" for a missing description |
| CustomMcpServers.CreateThenGetCustom | app/actions/custom-mcp-servers.ts:128-146 | A created custom server is found by its uuid and listed for its profile |
| CustomMcpServers.CreateCustomThenListed | app/actions/custom-mcp-servers.ts:128-146 | After a create, the profile's custom listing is the old listing plus the new (active) row, which appears exactly once |
| CustomMcpServers.UpdateCustomMcpServer | app/actions/custom-mcp-servers.ts:148-164 | The update fails exactly when it names a missing code for an existing row; otherwise the targeted row takes the patch |
| CustomMcpServers.UpdateThenGetCustom | app/actions/custom-mcp-servers.ts:148-164 | After an update the row is found with the patch applied |
| Codes.GetCodes | app/actions/code.ts:8-13 | The same rows as the table, newest first |
| Codes.GetCode | app/actions/code.ts:15-21 | A stored code with the uuid, or none exactly when no row has it |
| Codes.GetCodeUnique | app/actions/code.ts:15-21 | On a valid store the lookup finds the one row with the uuid |
| Codes.CreateCode | app/actions/code.ts:23-32 | The row with the given name and text is appended and returned; a taken uuid is a unique violation |
| Codes.CreateThenGetCode | app/actions/code.ts:23-32 | A created code is found by its uuid |
| Codes.UpdateCode | app/actions/code.ts:34-44 | Only the code with the uuid gets the new name and text; it is returned exactly when it exists |
| Codes.UpdateThenGetCode | app/actions/code.ts:34-44 | After an update the code reads back with the new name and text, and keeps its creation time |
| Codes.DeleteCode | app/actions/code.ts:46-52 | The code is removed and returned; on a valid store the delete is refused exactly when a custom server uses it |
| Codes.DeleteThenGetCode | app/actions/code.ts:46-52 | After a delete the code is gone |
| Tools.ByName | app/actions/tools.ts:9-19 | Ordering by name is a total preorder, the code-point order of names |
| Tools.GetToolsByMcpServerUuid | app/actions/tools.ts:9-19 | Exactly the server's tools, each once, sorted by name |
| Tools.ToolNamesStrictlyAscend | app/actions/tools.ts:9-19 | On a valid store the listing has strictly ascending names, because of the per-server unique index |
| Tools.ToggleToolStatus | app/actions/tools.ts:21-29 | Only the tool with the uuid changes status |
| Tools.ToggleToolRoundTrip | app/actions/tools.ts:21-29 | Switching a tool and switching it back restores the store |
| ToolCatalog.DraftFor | app/api/tools/route.ts:54-64 | The draft the conflict clause matches for a key, or none exactly when no draft has that key |
| ToolCatalog.DraftForUnique | app/api/tools/route.ts:54-64 | With distinct keys, the draft found for a key is the one holding it |
| ToolCatalog.Refreshed | app/api/tools/route.ts:57-63 | A conflicting row takes only the new description and schema; a row without a draft is untouched |
| ToolCatalog.FreshMember | app/api/tools/route.ts:54-64 | Every inserted row is the new row of a draft whose key was not in the catalog |
| ToolCatalog.FreshComplete | app/api/tools/route.ts:54-64 | Every draft whose key was not in the catalog is inserted |
| ToolCatalog.FreshNamesDistinct | db/schema.ts:218-224 | Inserted rows have distinct (server, name) keys when the batch does |
| ToolCatalog.FreshIdsDistinct | db/schema.ts:198-225 | Inserted rows have distinct uuids when the drawn ids are fresh |
| ToolCatalog.UpsertedTools | app/api/tools/route.ts:54-64 | Existing rows are refreshed in place and the new rows are appended |
| ToolCatalog.UpsertTools | app/api/tools/route.ts:54-78 | The upsert succeeds exactly when the batch has distinct keys, fresh ids and existing servers, naming the violated constraint otherwise; it returns one stored row per draft |
| ToolCatalog.UpsertedValid | db/schema.ts:198-225 | A successful upsert keeps the store valid |
| ToolCatalog.UpsertKeepsOperatorStatus | app/api/tools/route.ts:57-63 | An operator's status choice survives re-discovery |
| ToolCatalog.UpsertStoresEveryDraft | app/api/tools/route.ts:54-64 | After an upsert every draft is in the catalog under its key with its description and schema |
| ToolCatalog.UpsertReturnsStoredRows | app/api/tools/route.ts:64 | RETURNING yields, for each draft in batch order, the catalog row now holding its key |
| ToolCatalog.UpsertIdempotent | app/actions/refresh-sse-tools.ts:55-67 | Upserting the same listing twice leaves the catalog as after once |
| ToolCatalog.RefreshedTwice | app/actions/refresh-sse-tools.ts:55-67 | A row of the refreshed catalog is a fixed point of refreshing with the same listing |
| RefreshSseTools.DraftsFor | app/actions/refresh-sse-tools.ts:48-53 | Every listed tool becomes one draft attached to the server, in order |
| RefreshSseTools.RefreshSse | app/actions/refresh-sse-tools.ts:12-73 | Unknown and non-SSE servers, and an SSE server without a url, are refused without writes; a discovery error or an upsert error is passed on unchanged; it succeeds exactly when the server is an SSE server with a url, discovery succeeds, and the listing is empty or its upsert succeeds; a success upserts the listing and reports the returned rows and their count, and an empty listing reports zero without writes |
| RefreshSseTools.RefreshSucceeds | app/actions/refresh-sse-tools.ts:12-73 | On a valid store, refreshing a stored SSE server with a listing of distinct tool names and fresh ids succeeds and reports one row per listed tool |
| RefreshSseTools.UrlAlwaysSet | app/actions/refresh-sse-tools.ts:25-27 | On a valid store the url check always passes: a "URL is not set" failure can only be a session error carrying that message |
| RefreshSseTools.RefreshStoresListing | app/actions/refresh-sse-tools.ts:48-69 | After a refresh every listed tool is in the catalog under the server |
| RefreshSseTools.RefreshIdempotent | app/actions/refresh-sse-tools.ts:55-69 | Refreshing twice against an unchanged listing leaves the catalog as after once |
| ToolExecutionLogs.AllowedServers | app/actions/tool-execution-logs.ts:47-56 | Exactly the uuids of the profile's servers, and none when it has no servers |
| ToolExecutionLogs.NewestIdFirst | app/actions/tool-execution-logs.ts:112 | Ordering by id descending is a total preorder |
| ToolExecutionLogs.ServerName | app/actions/tool-execution-logs.ts:99-121 | The shown name is never empty; unless it is "Unknown Server" it is the name of the log's server |
| ToolExecutionLogs.RankedRows | app/actions/tool-execution-logs.ts:112 | The ranked rows are the selected rows, each as often (a permutation), in id-descending order |
| ToolExecutionLogs.Query | app/actions/tool-execution-logs.ts:86-121 | The total counts every selected row; the page holds at most `limit` rows, each a selected log with its server's name, newest id first |
| ToolExecutionLogs.QueryAnswers | app/actions/tool-execution-logs.ts:93-121 | The page is the OFFSET/LIMIT window of the ranked rows: its length is the rows left after `offset`, capped at `limit`, and row i is ranked row `offset + i` with its server's name |
| ToolExecutionLogs.WindowsTile | app/actions/tool-execution-logs.ts:112-114 | Consecutive windows tile the ranked rows: `a` rows at `o` then `b` rows at `o + a` are exactly the `a + b` rows at `o`, none skipped or repeated |
| ToolExecutionLogs.GetToolExecutionLogs | app/actions/tool-execution-logs.ts:34-123 | An empty profile gives nothing; otherwise the total counts the as-written selection and the page is its OFFSET/LIMIT window, newest id first, each row with its server's name |
| ToolExecutionLogs.AsWrittenLeaksWithoutServers | app/actions/tool-execution-logs.ts:61-65 | As written, a profile without servers and without filters counts every log in the database |
| ToolExecutionLogs.AsWrittenLeakExample | app/actions/tool-execution-logs.ts:61-65 | A concrete store in which a second profile is shown the first profile's log |
| ToolExecutionLogs.GetToolExecutionLogsScoped | app/actions/tool-execution-logs.ts:61-65 | The corrected listing counts only logs of the profile's servers that pass the filters, and pages them by the same OFFSET/LIMIT window |
| ToolExecutionLogs.ScopedLogsIsolated | app/actions/tool-execution-logs.ts:61-65 | Every scoped log was written by a server of the profile, and a profile without servers sees none |
| ToolExecutionLogs.ScopedAgreesWhenServersExist | app/actions/tool-execution-logs.ts:61-65 | A profile that owns a server sees the same page either way |
| ToolExecutionLogs.GetToolNames | app/actions/tool-execution-logs.ts:125-155 | Exactly the tool names logged by the profile's servers, each once, in ascending order |
| Auth.Trim | app/api/auth.ts:20 | The trimmed text is the input with the whitespace run removed at each end |
| Auth.TrimIdempotent | app/api/auth.ts:20 | Trimming twice trims nothing more |
| Auth.BearerToken | app/api/auth.ts:10-20 | A token exists exactly when the header starts with "Bearer ", and it is the rest of the header trimmed |
| Auth.BearerTokenRoundTrip | app/api/auth.ts:10-20 | A header built from a token without surrounding whitespace yields that token |
| Auth.MintedKeyReadBack | app/api/auth.ts:10-20 | A minted API key sent as a bearer token is read back exactly |
| Auth.Authenticate | app/api/auth.ts:9-50 | A missing bearer or an unknown key is a 401 with the source's message and no write; a success carries the key and the resolved active profile |
| Auth.AuthenticateStoredKey | app/api/auth.ts:21-49 | On a valid store a stored key authenticates |
| Auth.AuthenticateAgain | app/api/auth.ts:9-50 | Authentication leaves the keys untouched and, once it succeeded, succeeds again the same way on any store agreeing on projects, profiles and keys |
| Auth.Refusal | app/api/auth.ts:12-42 | A denial is passed on with its 401; a thrown resolver gives the route's own 500 message |
| McpServersRoute.GetActiveServers | app/api/mcp-servers/route.ts:9-31 | An authenticated call gets each of the active profile's ACTIVE servers as often as the table holds it, and nothing else (the query has no ORDER BY) |
| McpServersRoute.ActiveServersAreListed | app/api/mcp-servers/route.ts:9-31 | What the proxy sees is part of what the management page lists |
| McpServersRoute.BodyRow | app/api/mcp-servers/route.ts:33-63 | The row exists exactly when the body has a name and any status is an enum label; it takes the body's fields and the column defaults for absent ones |
| McpServersRoute.PostServer | app/api/mcp-servers/route.ts:33-63 | An authenticated POST stores the body's STDIO server in the active profile exactly when name, command, status and uuid pass the constraints, else 500; the stored and returned row is the body's row with the column defaults, and only the server table and clock change; a denial is a 401 |
| CustomMcpServersRoute.GetCustomServers | app/api/custom-mcp-servers/route.ts:13-56 | An authenticated call's response equals the management page's listing for the active profile (`GetCustomMcpServers`), so it is newest first and holds each listed row as often as the table does |
| CustomMcpServersRoute.CustomBodyRow | app/api/custom-mcp-servers/route.ts:58-87 | A body without a name or code is a not-null violation; otherwise the row takes the body and the column defaults |
| CustomMcpServersRoute.PostCustomServer | app/api/custom-mcp-servers/route.ts:58-87 | An authenticated POST stores an ACTIVE custom server in the active profile exactly when the insert's constraints hold, else 500; the stored and returned row is the body's row with the column defaults, and only the custom server table and clock change |
| CustomMcpServersRoute.PostedCustomServerIsListed | app/api/custom-mcp-servers/route.ts:13-87 | A posted custom server is listed for the profile by the next GET |
| ToolsRoute.Drafts | app/api/tools/route.ts:26-48 | Draft i is the i-th posted item with name, schema and server uuid, so the drafts are exactly those items in posted order |
| ToolsRoute.DraftsPostedOrder | app/api/tools/route.ts:29-48 | A complete item gives one draft and an incomplete one none, and concatenated postings give concatenated drafts, which fixes the drafts of any posting |
| ToolsRoute.Rejections | app/api/tools/route.ts:29-40 | Entry i is the i-th posted item lacking a required field, paired with the missing-fields message, so the entries are exactly those items in posted order |
| ToolsRoute.RejectionsPostedOrder | app/api/tools/route.ts:29-40 | An incomplete item gives one entry and a complete one none, and concatenated postings give concatenated entries, which fixes the entries of any posting |
| ToolsRoute.ProcessTools | app/api/tools/route.ts:14-87 | An absent or empty array is a 400; a body's results are exactly the upsert's RETURNING rows (none when no item passes), its errors the rejected items, `successCount` = number of results, `failureCount` = number of errors, `success` = some result; a refused upsert is a 500 with no write |
| ToolsRoute.PostTools | app/api/tools/route.ts:9-95 | Authenticated calls are processed for the active profile; others get the refusal |
| ToolsRoute.ProcessToolsWritesForeignServer | app/api/tools/route.ts:52-64 | As written, a POST naming another profile's server stores a tool on that server |
| ToolsRoute.ProcessToolsScoped | app/api/tools/route.ts:52-78 | The corrected POST refuses any draft whose server is outside the active profile, and otherwise behaves as written |
| ToolsRoute.UpsertStaysInProfile | app/api/tools/route.ts:52-64 | An upsert whose drafts all name the profile's servers changes no tool outside it |
| ToolsRoute.ScopedPostIsolated | app/api/tools/route.ts:52-64 | The corrected POST leaves every tool of other profiles unchanged |
| ToolsRoute.ListTools | app/api/tools/route.ts:97-125 | A bad status label is refused; otherwise exactly the tools of the profile's servers, filtered by the status when given, one summary per stored tool shown |
| ToolsRoute.GetTools | app/api/tools/route.ts:97-133 | An authenticated GET lists the active profile's tools, a refused status gives 500 |
| ToolsRoute.PostedToolsAreListed | app/api/tools/route.ts:9-133 | After a scoped POST succeeds, GET lists every tool it reported |
| ToolExecutionLogsRoute.OrNull | app/api/tool-execution-logs/route.ts:59-70 | An empty or absent text field is stored as NULL, anything else as given |
| ToolExecutionLogsRoute.LogRow | app/api/tool-execution-logs/route.ts:59-70 | The row applies the payload and status defaults; a status the enum refuses is an error |
| ToolExecutionLogsRoute.StoreLog | app/api/tool-execution-logs/route.ts:28-79 | No tool name is a 400; a server outside the profile is a 404; a refused status is a 500; otherwise the stored and returned row is `LogRow` of the body with the next id, so it carries every `||` default (an empty payload object, PENDING, NULL error and time) |
| ToolExecutionLogsRoute.PostLog | app/api/tool-execution-logs/route.ts:13-80 | Authenticated calls store the log for the active profile; others get the refusal |
| ToolExecutionLogsRoute.StoredLogIsCounted | app/api/tool-execution-logs/route.ts:28-79 | A log stored for a server the profile owns is counted by the profile's unfiltered log query: the total grows by exactly one |
| ToolExecutionLogsRoute.PostedLogIsCounted | app/api/tool-execution-logs/route.ts:13-80 | A call reported for a server of the profile raises the profile's unfiltered log count by one |
| ProfileCapabilitiesRoute.GetCapabilities | app/api/profile-capabilities/route.ts:9-36 | An authenticated call gets the enabled capabilities of the stored active profile, and 404 exactly when it is missing |
| ProfileCapabilitiesRoute.CapabilitiesOfActiveProfile | app/api/profile-capabilities/route.ts:9-36 | On a valid store the reply is exactly the active profile's capabilities |
| Selection.FindSaved | hooks/use-projects.ts:18 | The first row with the saved uuid, or none exactly when no row has it |
| Selection.SelectProject | hooks/use-projects.ts:14-27 | With projects loaded, the saved project when it is listed and otherwise the first; before loading, the current choice stays |
| Selection.SelectProfile | hooks/use-profiles.ts:36-49 | With profiles loaded, the saved profile when listed, otherwise the active profile or the first |
| Selection.Choose | hooks/use-projects.ts:30-40 | Choosing a project (and, in `useProfiles` at hooks/use-profiles.ts:52-60, a profile) stores its uuid; clearing removes the stored entry |
| Selection.ChosenProjectSurvivesReload | hooks/use-projects.ts:14-40 | A chosen, stored project is selected again after a reload |
| Selection.ChosenProfileSurvivesReload | hooks/use-profiles.ts:36-60 | A chosen, stored profile is selected again after a reload, whatever the active profile |
| Selection.ClearedProjectFallsBack | hooks/use-projects.ts:14-40 | Clearing the choice falls back to the first project |
| Selection.ProfilesView | hooks/use-profiles.ts:62-71 | The list is empty until loaded; loading when either query loads; the error is the profiles error first |
| Selection.ProjectsView | hooks/use-projects.ts:42-48 | The loaded projects, or none until they load |
| Selection.SelectedProjectIsListed | hooks/use-projects.ts:14-48 | Once projects have loaded, the selected project is one the hook lists |

## Left out

- Network and framework I/O is not modelled: `NextResponse`, JSON parsing and the HTTP status plumbing. A response is `Body` or `ErrorBody(status, message, details)`.
- JSON `null` and an absent field are the same `None`. JSON values are opaque text, and the log's text fields are strings, so truthiness covers only an absent value and the empty string. Other falsy JSON values (`false`, `0`) are not told apart, so a `payload` or `result` given as one of them is kept rather than defaulted.
- ToolsRoute.Complete: accepts any present `toolSchema`, while the source's `!toolSchema` also refuses a schema given as `false`, `0` or `""`, because JSON values are opaque text here.
- The log body takes `tool_name` and `execution_time_ms` as text (the columns are `text`). A numeric `0` in the body is therefore not represented: `!tool_name` would refuse it, and `execution_time_ms || null` would store it as NULL.
- Uuid syntax is not checked. A malformed uuid, which Postgres refuses with a cast error, is treated as one that matches nothing.
- `Object.entries` order in the bulk import is taken to be the order of the given entry list.
- `ORDER BY name` compares code points, not the database collation. Rows that tie under an `ORDER BY` keep table order, while Postgres leaves them unspecified.
- The serial sequence of the log table does not advance on a failed insert.
- An update whose patch sets no column, which the query builder rejects, is modelled as an update that changes nothing. Patch keys that are not columns are dropped.
- `createCustomMcpServer` reads `code_uuid` from its data; the model takes it as an optional field, and a missing one is a not-null violation.
- `updateCustomMcpServer` spreads its data into the SET clause. Its declared data type carries `code`, which is not a column and is dropped; the model's patch carries `codeUuid` for a caller that passes `code_uuid`, which the spread forwards to the column.
- Concurrent requests are not modelled. Two requests resolving a project's active profile at once could both create a default workspace.
- The MCP client session in `refreshSseTools` (connect, `listTools`) is a parameter holding the listing or the error it raised.
- The hooks' `localStorage`, `window.location.reload` and SWR fetching are parameters: the saved uuid and the loaded lists.
- `hooks/use-codes.ts`, the pages, and the proxy that invokes tools are not part of this model.

## Findings

| source | as written | input that shows it | evidently intended | confidence | as-written member | corrected member |
|---|---|---|---|---|---|---|
| app/actions/tool-execution-logs.ts:61-65 | The profile restriction is added only when the profile owns at least one server | Profile "p2" with no servers, while server "s1" of profile "p1" has a log: p2's listing shows that log with total 1 | Only logs of the profile's own servers are listed, so a profile without servers sees none | not executed | ToolExecutionLogs.AsWrittenLeakExample | ToolExecutionLogs.ScopedLogsIsolated |
| app/api/tools/route.ts:52-64 | The upsert takes each item's `mcp_server_uuid` without checking that the server belongs to the key's active profile | A key of profile A posts a tool with the uuid of profile B's server: the tool is stored on B's server with a 200 reply | Drafts naming a server outside the active profile are refused, as the 500 detail text "not associated with the active profile" describes | not executed | ToolsRoute.ProcessToolsWritesForeignServer | ToolsRoute.ScopedPostIsolated |

=== FILE: api_keys.dfy ===
/** The api-key actions. A key is the prefix `sk_mt_` followed by 64
    characters drawn from a 62-letter alphabet; the random draws are
    parameters (one alphabet index each), so minting is a pure function and
    the key can be decoded back into its draws. */
module ApiKeys {
  import opened Common
  import opened Seqs
  import opened Schema
  import opened Database

  const KeyPrefix: string := "sk_mt_"
  const Digits: string := "0123456789"
  const Upper: string := "ABCDEFGHIJKLMNOPQRSTUVWXYZ"
  const Lower: string := "abcdefghijklmnopqrstuvwxyz"
  /** The `customAlphabet` of the key generator. */
  const Alphabet: string := Digits + Upper + Lower
  const BodyLength: nat := 64
  const DefaultKeyName: string := "API Key"

  /** One draw of the random generator: an index into `Alphabet`. */
  type Draw = i: nat | i < 62

  predicate IsAlphabetChar(c: char) {
    ('0' <= c <= '9') || ('A' <= c <= 'Z') || ('a' <= c <= 'z')
  }

  /** The alphabet letter at index `i`, by code point. */
  function Letter(i: Draw): (c: char)
    ensures IsAlphabetChar(c)
  {
    if i < 10 then ('0' as int + i) as char
    else if i < 36 then ('A' as int + (i - 10)) as char
    else ('a' as int + (i - 36)) as char
  }

  lemma AlphabetLetters()
    ensures |Alphabet| == 62
    ensures forall i :: 0 <= i < 62 ==> Alphabet[i] == Letter(i)
  {
    assert forall i :: 0 <= i < 10 ==> Digits[i] == ('0' as int + i) as char;
    assert forall i :: 0 <= i < 26 ==> Upper[i] == ('A' as int + i) as char;
    assert forall i :: 0 <= i < 26 ==> Lower[i] == ('a' as int + i) as char;
  }

  /** The index of an alphabet character. */
  function IndexOf(c: char): (i: Draw)
    requires IsAlphabetChar(c)
    ensures Letter(i) == c
  {
    if '0' <= c <= '9' then (c as int - '0' as int)
    else if 'A' <= c <= 'Z' then 10 + (c as int - 'A' as int)
    else 36 + (c as int - 'a' as int)
  }

  /** Distinct draws give distinct letters. */
  lemma LetterInjective(i: Draw, j: Draw)
    requires Letter(i) == Letter(j)
    ensures i == j
  {
  }

  /** The key text for 64 draws. */
  function MintKey(draws: seq<Draw>): (key: string)
    requires |draws| == BodyLength
    ensures |key| == |KeyPrefix| + BodyLength == 70
    ensures key[..|KeyPrefix|] == KeyPrefix
    ensures forall i :: |KeyPrefix| <= i < |key| ==> key[i] == Alphabet[draws[i - |KeyPrefix|]]
  {
    AlphabetLetters();
    KeyPrefix + seq(|draws|, i requires 0 <= i < |draws| => Alphabet[draws[i]])
  }

  /** The shape every minted key has. */
  predicate WellFormedKey(key: string) {
    && |key| == |KeyPrefix| + BodyLength
    && key[..|KeyPrefix|] == KeyPrefix
    && forall i :: |KeyPrefix| <= i < |key| ==> IsAlphabetChar(key[i])
  }

  /** Reads the draws back out of a well-formed key. */
  function KeyDraws(key: string): (draws: seq<Draw>)
    requires WellFormedKey(key)
    ensures |draws| == BodyLength
  {
    seq<Draw>(BodyLength, i requires 0 <= i < BodyLength => IndexOf(key[|KeyPrefix| + i]))
  }

  /** A minted key is well formed and gives back the draws it was minted from. */
  lemma KeyDrawsRoundTrip(draws: seq<Draw>)
    requires |draws| == BodyLength
    ensures WellFormedKey(MintKey(draws))
    ensures KeyDraws(MintKey(draws)) == draws
  {
    AlphabetLetters();
    var key := MintKey(draws);
    forall i | 0 <= i < BodyLength ensures KeyDraws(key)[i] == draws[i] {
      LetterInjective(IndexOf(key[|KeyPrefix| + i]), draws[i]);
    }
  }

  /** Every well-formed key is minted from its own draws. */
  lemma MintKeyOnto(key: string)
    requires WellFormedKey(key)
    ensures MintKey(KeyDraws(key)) == key
  {
    AlphabetLetters();
    var key' := MintKey(KeyDraws(key));
    forall i | 0 <= i < |key| ensures key'[i] == key[i] {
      if i < |KeyPrefix| {
        assert key'[i] == key'[..|KeyPrefix|][i] && key[i] == key[..|KeyPrefix|][i];
      } else {
        assert KeyDraws(key)[i - |KeyPrefix|] == IndexOf(key[i]);
      }
    }
  }

  /** `createApiKey`: one key for the project; an absent name takes the column default. */
  function CreateApiKey(db: Db, projectUuid: Uuid, name: Option<string>, id: Uuid, draws: seq<Draw>)
    : (r: Outcome<ApiKey>)
    requires |draws| == BodyLength
    ensures r.result.Ok? <==> !HasApiKey(db, id) && HasProject(db, projectUuid)
    ensures r.result.Err? ==> r.db == db
    ensures r.result.Ok? ==>
      && r.result.value == ApiKey(id, projectUuid, MintKey(draws), name.GetOr(DefaultKeyName), db.clock)
      && r.db == db.(apiKeys := db.apiKeys + [r.result.value], clock := db.clock + 1)
    ensures Valid(db) ==> Valid(r.db)
  {
    var row := ApiKey(id, projectUuid, MintKey(draws), name.GetOr(DefaultKeyName), db.clock);
    match InsertApiKey(db, row)
    case Ok(db') => Outcome(db', Ok(row))
    case Err(f) => Outcome(db, Err(f))
  }

  function KeyOf(projectUuid: Uuid): ApiKey -> bool {
    (k: ApiKey) => k.projectUuid == projectUuid
  }

  /** `getProjectApiKeys`: the project's keys, each as often as the table
      holds it (the query has no ORDER BY). */
  function GetProjectApiKeys(db: Db, projectUuid: Uuid): (r: seq<ApiKey>)
    ensures forall k :: k in r <==> k in db.apiKeys && k.projectUuid == projectUuid
    ensures forall k :: multiset(r)[k] == if k.projectUuid == projectUuid then multiset(db.apiKeys)[k] else 0
  {
    FilterMultiset(db.apiKeys, KeyOf(projectUuid));
    Filter(db.apiKeys, KeyOf(projectUuid))
  }

  /** `getFirstApiKey`: the project's first key, minting one when it has none.
      An empty project id yields null without touching the store. */
  function GetFirstApiKey(db: Db, projectUuid: Uuid, id: Uuid, draws: seq<Draw>): (r: Outcome<Option<ApiKey>>)
    requires |draws| == BodyLength
    ensures projectUuid == "" ==> r == Outcome(db, Ok(None))
    ensures projectUuid != "" && (exists k :: k in db.apiKeys && k.projectUuid == projectUuid) ==>
      r.db == db && r.result.Ok? && r.result.value.Some?
      && r.result.value.value in db.apiKeys && r.result.value.value.projectUuid == projectUuid
    ensures projectUuid != "" && (forall k :: k in db.apiKeys ==> k.projectUuid != projectUuid) ==>
      (r.result.Ok? <==> !HasApiKey(db, id) && HasProject(db, projectUuid))
      && (r.result.Ok? ==>
            r.result.value == Some(ApiKey(id, projectUuid, MintKey(draws), DefaultKeyName, db.clock))
            && r.db.apiKeys == db.apiKeys + [r.result.value.value])
    ensures r.result.Ok? && projectUuid != "" ==>
      r.result.value.Some? && r.result.value.value in r.db.apiKeys
      && r.result.value.value.projectUuid == projectUuid
    ensures Valid(db) ==> Valid(r.db)
  {
    if projectUuid == "" then Outcome(db, Ok(None))
    else
      var i := FindFirst(db.apiKeys, KeyOf(projectUuid));
      if i.Some? then Outcome(db, Ok(Some(db.apiKeys[i.value])))
      else
        var created := CreateApiKey(db, projectUuid, None, id, draws);
        match created.result
        case Err(f) => Outcome(created.db, Err(f))
        case Ok(key) =>
          var j := FindFirst(created.db.apiKeys, KeyOf(projectUuid));
          assert key in created.db.apiKeys;
          assert created.db.apiKeys[|db.apiKeys|] == key;
          assert j == Some(|db.apiKeys|) by {
            assert forall x :: 0 <= x < |db.apiKeys| ==> created.db.apiKeys[x] == db.apiKeys[x];
          }
          Outcome(created.db, Ok(Some(created.db.apiKeys[j.value])))
  }

  /** `deleteApiKey`: removes the key only when it belongs to the project. */
  function DeleteApiKey(db: Db, projectUuid: Uuid, apiKeyUuid: Uuid): (db': Db)
    ensures forall k :: k in db'.apiKeys <==>
      k in db.apiKeys && !(k.uuid == apiKeyUuid && k.projectUuid == projectUuid)
    ensures db' == db.(apiKeys := db'.apiKeys)
    ensures Valid(db) ==> Valid(db')
  {
    DeleteApiKeyRow(db, projectUuid, apiKeyUuid)
  }

  /** A key of another project survives `deleteApiKey`. */
  lemma DeleteApiKeyKeepsOtherProjects(db: Db, projectUuid: Uuid, apiKeyUuid: Uuid, k: ApiKey)
    requires k in db.apiKeys && k.projectUuid != projectUuid
    ensures k in DeleteApiKey(db, projectUuid, apiKeyUuid).apiKeys
  {
  }
}

=== FILE: auth.dfy ===
/** `authenticateApiKey`: reads the Bearer token from the Authorization
    header, finds the api key row holding it, and resolves the key's project
    to its active profile. Every API route starts here. */
module Auth {
  import opened Common
  import opened Seqs
  import opened Schema
  import opened Database
  import Profiles
  import ApiKeys

  const BearerPrefix: string := "Bearer "
  const MissingBearer: string := "Authorization header with Bearer token is required"
  const InvalidKey: string := "Invalid API key"

  /* ------------------------------------------------------------- trimming */

  /** The characters `String.prototype.trim` removes: ECMAScript WhiteSpace
      and LineTerminator code points. */
  predicate IsJsSpace(c: char) {
    var n := c as int;
    || n == 0x09 || n == 0x0A || n == 0x0B || n == 0x0C || n == 0x0D || n == 0x20
    || n == 0xA0 || n == 0x1680 || (0x2000 <= n <= 0x200A) || n == 0x2028 || n == 0x2029
    || n == 0x202F || n == 0x205F || n == 0x3000 || n == 0xFEFF
  }

  function LeadingSpaces(s: string): (n: nat)
    ensures n <= |s|
    ensures forall i :: 0 <= i < n ==> IsJsSpace(s[i])
    ensures n < |s| ==> !IsJsSpace(s[n])
  {
    if |s| == 0 || !IsJsSpace(s[0]) then 0 else 1 + LeadingSpaces(s[1..])
  }

  function TrailingSpaces(s: string): (n: nat)
    ensures n <= |s|
    ensures forall i :: |s| - n <= i < |s| ==> IsJsSpace(s[i])
    ensures n < |s| ==> !IsJsSpace(s[|s| - n - 1])
  {
    if |s| == 0 || !IsJsSpace(s[|s| - 1]) then 0 else 1 + TrailingSpaces(s[..|s| - 1])
  }

  /** The text is `s` with the whitespace run at each end removed. */
  ghost predicate IsTrimOf(s: string, a: int, b: int) {
    && 0 <= a <= b <= |s|
    && (forall i :: 0 <= i < a ==> IsJsSpace(s[i]))
    && (forall i :: b <= i < |s| ==> IsJsSpace(s[i]))
    && (a < b ==> !IsJsSpace(s[a]) && !IsJsSpace(s[b - 1]))
  }

  /** The leading run and, after it, the trailing run describe the trim. */
  lemma TrimBounds(s: string, a: nat, n: nat)
    requires a == LeadingSpaces(s) && n == TrailingSpaces(s[a..])
    ensures IsTrimOf(s, a, |s| - n)
  {
    var t := s[a..];
    forall i | |s| - n <= i < |s| ensures IsJsSpace(s[i]) {
      assert s[i] == t[i - a];
    }
    if a < |s| - n {
      assert s[|s| - n - 1] == t[|t| - n - 1];
      assert s[a] == t[0];
    }
  }

  /** `String.prototype.trim`. */
  function Trim(s: string): (r: string)
    ensures exists a, b :: IsTrimOf(s, a, b) && r == s[a..b]
  {
    var a := LeadingSpaces(s);
    var n := TrailingSpaces(s[a..]);
    TrimBounds(s, a, n);
    s[a..|s| - n]
  }

  lemma {:induction false} LeadingSpacesExact(s: string, n: nat)
    requires n <= |s|
    requires forall i :: 0 <= i < n ==> IsJsSpace(s[i])
    requires n < |s| ==> !IsJsSpace(s[n])
    ensures LeadingSpaces(s) == n
  {
    if n > 0 {
      LeadingSpacesExact(s[1..], n - 1);
    }
  }

  lemma {:induction false} TrailingSpacesExact(s: string, n: nat)
    requires n <= |s|
    requires forall i :: |s| - n <= i < |s| ==> IsJsSpace(s[i])
    requires n < |s| ==> !IsJsSpace(s[|s| - n - 1])
    ensures TrailingSpaces(s) == n
  {
    if n > 0 {
      var t := s[..|s| - 1];
      assert forall i :: |t| - (n - 1) <= i < |t| ==> t[i] == s[i];
      assert n - 1 < |t| ==> t[|t| - (n - 1) - 1] == s[|s| - n - 1];
      TrailingSpacesExact(t, n - 1);
    }
  }

  /** The trim of a string is determined by the string: any description of it
      as `s[a..b]` with whitespace outside and none at its ends gives the same text. */
  lemma TrimUnique(s: string, a: int, b: int)
    requires IsTrimOf(s, a, b)
    ensures Trim(s) == s[a..b]
  {
    if a < b {
      LeadingSpacesExact(s, a);
      var t := s[a..];
      assert forall i :: |t| - (|s| - b) <= i < |t| ==> t[i] == s[a + i];
      assert t[|t| - (|s| - b) - 1] == s[b - 1];
      TrailingSpacesExact(t, |s| - b);
    } else {
      LeadingSpacesExact(s, |s|);
      TrailingSpacesExact(s[|s|..], 0);
    }
  }

  /** Trimming twice trims nothing more. */
  lemma TrimIdempotent(s: string)
    ensures Trim(Trim(s)) == Trim(s)
  {
    var t := Trim(s);
    var a, b :| IsTrimOf(s, a, b) && t == s[a..b];
    assert IsTrimOf(t, 0, |t|) by {
      if 0 < |t| {
        assert t[0] == s[a] && t[|t| - 1] == s[b - 1];
      }
    }
    TrimUnique(t, 0, |t|);
  }

  /* --------------------------------------------------------------- header */

  /** The token of an Authorization header, or None when the header is
      missing, empty, or does not start with the case-sensitive "Bearer ". */
  function BearerToken(header: Option<string>): (r: Option<string>)
    ensures r.Some? <==> header.Some? && |header.value| >= 7 && header.value[..7] == BearerPrefix
    ensures r.Some? ==> r.value == Trim(header.value[7..])
  {
    if !Truthy(header) then None
    else if |header.value| < 7 || header.value[..7] != BearerPrefix then None
    else Some(Trim(header.value[7..]))
  }

  /** A header built from a token without surrounding whitespace yields that token. */
  lemma BearerTokenRoundTrip(token: string)
    requires token == [] || (!IsJsSpace(token[0]) && !IsJsSpace(token[|token| - 1]))
    ensures BearerToken(Some(BearerPrefix + token)) == Some(token)
  {
    var h := BearerPrefix + token;
    assert |BearerPrefix| == 7;
    assert h[..7] == BearerPrefix && h[7..] == token;
    assert IsTrimOf(token, 0, |token|);
    TrimUnique(token, 0, |token|);
    assert Truthy(Some(h));
    assert BearerToken(Some(h)) == Some(Trim(h[7..]));
    assert Trim(h[7..]) == token;
  }

  /** A minted api key, sent as `Bearer <key>`, is read back exactly. */
  lemma MintedKeyReadBack(draws: seq<ApiKeys.Draw>)
    requires |draws| == ApiKeys.BodyLength
    ensures BearerToken(Some(BearerPrefix + ApiKeys.MintKey(draws))) == Some(ApiKeys.MintKey(draws))
  {
    var key := ApiKeys.MintKey(draws);
    assert key[0] == 's' by { assert key[0] == key[..6][0]; }
    ApiKeys.KeyDrawsRoundTrip(draws);
    assert ApiKeys.IsAlphabetChar(key[|key| - 1]);
    BearerTokenRoundTrip(key);
  }

  /* -------------------------------------------------------------- outcome */

  /** What `authenticateApiKey` hands the route: the key and the active
      profile, a ready 401 reply, or the error thrown while resolving the
      profile (the route's own catch turns it into a 500). The source's
      third 401, for a falsy active profile, has no counterpart: the
      resolver returns a profile row or throws. */
  datatype AuthOutcome =
    | Authenticated(apiKey: ApiKey, activeProfile: Profile)
    | Denied(status: nat, message: string)
    | AuthThrew(fault: Fault)

  datatype Auth = Auth(db: Db, outcome: AuthOutcome)

  function Holds(token: string): ApiKey -> bool {
    (k: ApiKey) => k.apiKey == token
  }

  /** `authenticateApiKey`. `id` is the uuid the resolver would give a default profile. */
  function Authenticate(db: Db, header: Option<string>, id: Uuid): (r: Auth)
    ensures BearerToken(header).None? ==> r == Auth(db, Denied(401, MissingBearer))
    ensures BearerToken(header).Some? && (forall k :: k in db.apiKeys ==> k.apiKey != BearerToken(header).value) ==>
      r == Auth(db, Denied(401, InvalidKey))
    ensures r.outcome.Authenticated? ==>
      && BearerToken(header).Some?
      && r.outcome.apiKey in db.apiKeys
      && r.outcome.apiKey.apiKey == BearerToken(header).value
      && var resolved := Profiles.GetProjectActiveProfile(db, r.outcome.apiKey.projectUuid, id);
         resolved == Outcome(r.db, Ok(r.outcome.activeProfile))
    ensures r.outcome.Denied? ==> r.db == db && r.outcome.status == 401
    ensures Valid(db) ==> Valid(r.db)
  {
    match BearerToken(header)
    case None => Auth(db, Denied(401, MissingBearer))
    case Some(token) =>
      match FindFirst(db.apiKeys, Holds(token))
      case None => Auth(db, Denied(401, InvalidKey))
      case Some(i) =>
        var key := db.apiKeys[i];
        var resolved := Profiles.GetProjectActiveProfile(db, key.projectUuid, id);
        match resolved.result
        case Ok(profile) => Auth(resolved.db, Authenticated(key, profile))
        case Err(f) => Auth(resolved.db, AuthThrew(f))
  }

  /** On a valid store a header carrying a stored key authenticates, unless
      the uuid drawn for a default profile is already taken. */
  lemma AuthenticateStoredKey(db: Db, k: ApiKey, id: Uuid)
    requires Valid(db)
    requires k in db.apiKeys
    requires !HasProfile(db, id)
    requires k.apiKey == [] || (!IsJsSpace(k.apiKey[0]) && !IsJsSpace(k.apiKey[|k.apiKey| - 1]))
    ensures Authenticate(db, Some(BearerPrefix + k.apiKey), id).outcome.Authenticated?
  {
    BearerTokenRoundTrip(k.apiKey);
    var i := FindFirst(db.apiKeys, Holds(k.apiKey));
    var key := db.apiKeys[i.value];
    assert key in db.apiKeys;
    Profiles.GetProjectActiveProfileCases(db, key.projectUuid, id);
  }

  /** Authentication writes only projects, profiles and the clock, and once
      it has succeeded it is stable: against a later store that agrees on
      those tables it yields the same key and profile and writes nothing. */
  lemma AuthenticateAgain(db: Db, header: Option<string>, id: Uuid, later: Db)
    requires Valid(db)
    requires Authenticate(db, header, id).outcome.Authenticated?
    requires var a := Authenticate(db, header, id).db;
      later.projects == a.projects && later.profiles == a.profiles && later.apiKeys == a.apiKeys
    ensures Authenticate(db, header, id).db.apiKeys == db.apiKeys
    ensures Authenticate(later, header, id) == Auth(later, Authenticate(db, header, id).outcome)
  {
    var a := Authenticate(db, header, id);
    var token := BearerToken(header).value;
    var i := FindFirst(db.apiKeys, Holds(token)).value;
    var key := db.apiKeys[i];
    var resolved := Profiles.GetProjectActiveProfile(db, key.projectUuid, id);
    assert a == Auth(resolved.db, Authenticated(key, resolved.result.value));
    assert later.apiKeys == db.apiKeys;
    Profiles.GetProjectActiveProfileStable(db, key.projectUuid, id, id, later);
  }

  /* ---------------------------------------------------------------- routes */

  /** What an API route leaves behind: the store (the resolver may have
      written to it) and the HTTP reply. */
  datatype Reply<+T> = Reply(db: Db, response: Response<T>)

  /** The reply of a route whose authentication did not succeed: the 401 the
      check produced, or the route's own 500 for an error thrown inside it. */
  function Refusal<T>(outcome: AuthOutcome, failure: string): (r: Response<T>)
    requires !outcome.Authenticated?
    ensures outcome.Denied? ==> r == ErrorBody(outcome.status, outcome.message, None)
    ensures outcome.AuthThrew? ==> r == ErrorBody(500, failure, None)
  {
    match outcome
    case Denied(status, message) => ErrorBody(status, message, None)
    case AuthThrew(_) => ErrorBody(500, failure, None)
  }
}

=== FILE: codes.dfy ===
/** The code file actions: the programs custom MCP servers run. Codes are
    not scoped by profile. */
module Codes {
  import opened Common
  import opened Seqs
  import opened Schema
  import opened Database

  /** `ORDER BY created_at DESC`. */
  function CodeNewestFirst(): (le: (Code, Code) -> bool)
    ensures TotalPreorder(le)
    ensures forall a, b :: le(a, b) == (a.createdAt >= b.createdAt)
  {
    (a: Code, b: Code) => a.createdAt >= b.createdAt
  }

  /** `getCodes`: every code, newest first. */
  function GetCodes(db: Db): (r: seq<Code>)
    ensures multiset(r) == multiset(db.codes)
    ensures forall c :: c in r <==> c in db.codes
    ensures forall i, j :: 0 <= i < j < |r| ==> r[i].createdAt >= r[j].createdAt
  {
    SortSameElements(db.codes, CodeNewestFirst());
    Sort(db.codes, CodeNewestFirst())
  }

  function WithUuid(uuid: Uuid): Code -> bool {
    (c: Code) => c.uuid == uuid
  }

  /** `getCode`: the row with this uuid, or undefined. */
  function GetCode(db: Db, uuid: Uuid): (r: Option<Code>)
    ensures r.Some? ==> r.value in db.codes && r.value.uuid == uuid
    ensures r.None? <==> !HasCode(db, uuid)
  {
    match FindFirst(db.codes, WithUuid(uuid))
    case Some(i) => Some(db.codes[i])
    case None => None
  }

  /** On a valid store the lookup finds the one row with the uuid. */
  lemma GetCodeUnique(db: Db, c: Code)
    requires Valid(db)
    requires c in db.codes
    ensures GetCode(db, c.uuid) == Some(c)
  {
    DistinctKeyUnique(db.codes, CodeKey, GetCode(db, c.uuid).value, c);
  }

  /** `createCode`: adds one row and returns it. `id` is the uuid the column
      default draws; the primary key refuses one already taken. */
  function CreateCode(db: Db, fileName: string, code: string, id: Uuid): (r: Outcome<Code>)
    ensures r.result.Ok? <==> !HasCode(db, id)
    ensures r.result.Err? ==> r == Outcome(db, Err(Rejected(UniqueViolation)))
    ensures r.result.Ok? ==>
      && r.result.value == Code(id, fileName, code, db.clock)
      && r.db == db.(codes := db.codes + [r.result.value], clock := db.clock + 1)
    ensures Valid(db) ==> Valid(r.db)
  {
    var row := Code(id, fileName, code, db.clock);
    match InsertCode(db, row)
    case Ok(db') => Outcome(db', Ok(row))
    case Err(f) => Outcome(db, Err(f))
  }

  /** A created code is found by its uuid. */
  lemma CreateThenGetCode(db: Db, fileName: string, code: string, id: Uuid)
    requires Valid(db)
    requires CreateCode(db, fileName, code, id).result.Ok?
    ensures var r := CreateCode(db, fileName, code, id);
      GetCode(r.db, id) == Some(Code(id, fileName, code, db.clock))
  {
    var r := CreateCode(db, fileName, code, id);
    GetCodeUnique(r.db, r.result.value);
  }

  /** `updateCode`: replaces the file name and text of the row with this
      uuid and returns the updated row, or undefined when there is none. */
  function UpdateCode(db: Db, uuid: Uuid, fileName: string, code: string): (r: Outcome<Option<Code>>)
    ensures r.result.Ok?
    ensures r.result.value.Some? <==> HasCode(db, uuid)
    ensures r.result.value.Some? ==>
      r.result.value.value.uuid == uuid && r.result.value.value.fileName == fileName
      && r.result.value.value.code == code && r.result.value.value in r.db.codes
    ensures |r.db.codes| == |db.codes|
    ensures forall i :: 0 <= i < |db.codes| ==>
      && (db.codes[i].uuid == uuid ==> r.db.codes[i] == db.codes[i].(fileName := fileName, code := code))
      && (db.codes[i].uuid != uuid ==> r.db.codes[i] == db.codes[i])
    ensures r.db == db.(codes := r.db.codes)
    ensures Valid(db) ==> Valid(r.db)
  {
    var db' := RewriteCode(db, uuid, fileName, code);
    match FindFirst(db.codes, WithUuid(uuid))
    case Some(i) =>
      assert db'.codes[i] in db'.codes;
      Outcome(db', Ok(Some(db'.codes[i])))
    case None => Outcome(db', Ok(None))
  }

  /** After an update the code reads back with the new name and text, and
      its creation time is kept. */
  lemma UpdateThenGetCode(db: Db, c: Code, fileName: string, code: string)
    requires Valid(db)
    requires c in db.codes
    ensures var db' := UpdateCode(db, c.uuid, fileName, code).db;
      GetCode(db', c.uuid) == Some(c.(fileName := fileName, code := code))
  {
    var db' := UpdateCode(db, c.uuid, fileName, code).db;
    var i :| 0 <= i < |db.codes| && db.codes[i] == c;
    assert db'.codes[i] in db'.codes;
    GetCodeUnique(db', db'.codes[i]);
  }

  /** `deleteCode`: removes the row with this uuid and returns it, or
      undefined when there is none; refused while a custom server runs it. */
  function DeleteCode(db: Db, uuid: Uuid): (r: Outcome<Option<Code>>)
    ensures r.result.Err? ==> r == Outcome(db, Err(Rejected(ForeignKeyViolation)))
    ensures r.result.Ok? ==>
      && (forall c :: c in r.db.codes <==> c in db.codes && c.uuid != uuid)
      && r.db == db.(codes := r.db.codes)
      && (r.result.value.Some? <==> HasCode(db, uuid))
      && (r.result.value.Some? ==> r.result.value.value in db.codes && r.result.value.value.uuid == uuid)
    ensures Valid(db) ==>
      (r.result.Err? <==> exists c :: c in db.customMcpServers && c.codeUuid == uuid)
    ensures Valid(db) ==> Valid(r.db)
  {
    assert Valid(db) ==>
      (DeleteCodeRow(db, uuid).Err? <==> exists c :: c in db.customMcpServers && c.codeUuid == uuid) by {
      if Valid(db) {
        DeleteCodeRowRefusedIffUsed(db, uuid);
      }
    }
    match DeleteCodeRow(db, uuid)
    case Err(f) => Outcome(db, Err(f))
    case Ok(db') => Outcome(db', Ok(GetCode(db, uuid)))
  }

  /** After a delete the code is gone. */
  lemma DeleteThenGetCode(db: Db, uuid: Uuid)
    requires DeleteCode(db, uuid).result.Ok?
    ensures GetCode(DeleteCode(db, uuid).db, uuid).None?
  {
  }
}

=== FILE: common.dfy ===
/** Shared vocabulary of the model: optional values, the outcome of an
    action (a value or the error it throws), the HTTP replies of the API
    routes, and opaque JSON documents. */
module Common {

  /** Row identifiers (Postgres `uuid` columns) are compared as text. */
  type Uuid = string

  datatype Option<+T> = None | Some(value: T) {
    function GetOr(default: T): T {
      match this
      case Some(v) => v
      case None => default
    }
  }

  /** A JavaScript string used in a boolean position: absent and "" are falsy. */
  predicate Truthy(s: Option<string>) {
    s.Some? && s.value != ""
  }

  /** The integrity constraints Postgres enforces, with their SQLSTATE codes. */
  datatype Violation =
    | UniqueViolation        // 23505: primary key or unique index
    | ForeignKeyViolation    // 23503: dangling or still-referenced key
    | NotNullViolation       // 23502: a NOT NULL column left empty
    | CheckViolation         // 23514: a CHECK constraint is false
    | CardinalityViolation   // 21000: ON CONFLICT DO UPDATE hits one row twice
    | InvalidEnumValue       // 22P02: text that is not a label of the enum
  {
    function Code(): string {
      match this
      case UniqueViolation => "23505"
      case ForeignKeyViolation => "23503"
      case NotNullViolation => "23502"
      case CheckViolation => "23514"
      case CardinalityViolation => "21000"
      case InvalidEnumValue => "22P02"
    }
  }

  /** What a server action throws: its own `Error(message)` or the database's refusal. */
  datatype Fault = Thrown(message: string) | Rejected(violation: Violation)

  datatype Result<+T> = Ok(value: T) | Err(fault: Fault)

  /** A reply of an API route: a JSON body with status 200, or an error body. */
  datatype Response<+T> =
    | Body(value: T)
    | ErrorBody(status: nat, error: string, details: Option<string>)
  {
    function Status(): nat {
      match this
      case Body(_) => 200
      case ErrorBody(status, _, _) => status
    }
  }

  /** An opaque JSON document (payloads, results, tool input schemas, env maps). */
  datatype Json = Json(text: string)

  const EmptyObject: Json := Json("{}")
}

=== FILE: custom_mcp_servers.dfy ===
/** The custom MCP server actions: servers whose program is a stored code
    file. As for ordinary servers, every query and update is scoped by the
    profile the caller names. */
module CustomMcpServers {
  import opened Common
  import opened Seqs
  import opened Schema
  import opened Database

  /** A custom server with the text and file name of its code, from the left
      join on `codes`; None where no code row matches. */
  datatype CustomServerView = CustomServerView(
    server: CustomMcpServer, code: Option<string>, codeFileName: Option<string>)

  /** The left join of one row. */
  function Joined(db: Db, c: CustomMcpServer): (r: CustomServerView)
    ensures r.server == c
    ensures r.code.Some? <==> HasCode(db, c.codeUuid)
    ensures r.codeFileName.Some? <==> HasCode(db, c.codeUuid)
    ensures r.code.Some? ==>
      exists k :: k in db.codes && k.uuid == c.codeUuid && r.code.value == k.code && r.codeFileName.value == k.fileName
  {
    match LookupCode(db, c.codeUuid)
    case Some(k) => CustomServerView(c, Some(k.code), Some(k.fileName))
    case None => CustomServerView(c, None, None)
  }

  /** On a valid store every custom server's code is found. */
  lemma JoinFindsCode(db: Db, c: CustomMcpServer)
    requires Valid(db)
    requires c in db.customMcpServers
    ensures Joined(db, c).code.Some? && Joined(db, c).codeFileName.Some?
  {
    assert CodeRefsResolve(db);
  }

  predicate CustomListed(c: CustomMcpServer, profileUuid: Uuid) {
    c.profileUuid == profileUuid && (c.status == Active || c.status == Inactive)
  }

  function CustomListedIn(profileUuid: Uuid): CustomMcpServer -> bool {
    (c: CustomMcpServer) => CustomListed(c, profileUuid)
  }

  /** `ORDER BY created_at DESC`. */
  function CustomNewestFirst(): (le: (CustomMcpServer, CustomMcpServer) -> bool)
    ensures TotalPreorder(le)
    ensures forall a, b :: le(a, b) == (a.createdAt >= b.createdAt)
  {
    (a: CustomMcpServer, b: CustomMcpServer) => a.createdAt >= b.createdAt
  }

  function JoinAll(db: Db, cs: seq<CustomMcpServer>): (r: seq<CustomServerView>)
    ensures |r| == |cs|
    ensures forall i :: 0 <= i < |r| ==> r[i] == Joined(db, cs[i])
  {
    seq(|cs|, i requires 0 <= i < |cs| => Joined(db, cs[i]))
  }

  /** The servers behind a listing of views. */
  function ServersOf(vs: seq<CustomServerView>): (r: seq<CustomMcpServer>)
    ensures |r| == |vs|
    ensures forall i :: 0 <= i < |r| ==> r[i] == vs[i].server
  {
    seq(|vs|, i requires 0 <= i < |vs| => vs[i].server)
  }

  /** Joining the listed servers, in any newest-first arrangement, shows each
      of them once with its code. */
  lemma JoinedListing(db: Db, profileUuid: Uuid, sorted: seq<CustomMcpServer>)
    requires forall c :: multiset(sorted)[c] == (if CustomListed(c, profileUuid) then multiset(db.customMcpServers)[c] else 0)
    ensures var r := JoinAll(db, sorted);
      && ServersOf(r) == sorted
      && (forall v :: v in r ==>
            v.server in db.customMcpServers && CustomListed(v.server, profileUuid) && v == Joined(db, v.server))
      && (forall c :: c in db.customMcpServers && CustomListed(c, profileUuid) ==> Joined(db, c) in r)
  {
    var r := JoinAll(db, sorted);
    assert ServersOf(r) == sorted;
    forall v | v in r
      ensures v.server in db.customMcpServers && CustomListed(v.server, profileUuid) && v == Joined(db, v.server)
    {
      var i :| 0 <= i < |r| && r[i] == v;
      assert sorted[i] in multiset(sorted);
    }
    forall c | c in db.customMcpServers && CustomListed(c, profileUuid) ensures Joined(db, c) in r {
      assert c in multiset(db.customMcpServers);
      assert c in multiset(sorted);
      var i :| 0 <= i < |sorted| && sorted[i] == c;
      assert r[i] == Joined(db, c);
    }
  }

  /** `getCustomMcpServers`: the profile's active and inactive custom
      servers with their code, newest first. */
  function GetCustomMcpServers(db: Db, profileUuid: Uuid): (r: seq<CustomServerView>)
    ensures forall v :: v in r ==>
      v.server in db.customMcpServers && CustomListed(v.server, profileUuid) && v == Joined(db, v.server)
    ensures forall c :: c in db.customMcpServers && CustomListed(c, profileUuid) ==> Joined(db, c) in r
    ensures forall c :: multiset(ServersOf(r))[c] == (if CustomListed(c, profileUuid) then multiset(db.customMcpServers)[c] else 0)
    ensures forall i, j :: 0 <= i < j < |r| ==> r[i].server.createdAt >= r[j].server.createdAt
  {
    var listed := Filter(db.customMcpServers, CustomListedIn(profileUuid));
    FilterMultiset(db.customMcpServers, CustomListedIn(profileUuid));
    var sorted := Sort(listed, CustomNewestFirst());
    JoinedListing(db, profileUuid, sorted);
    JoinAll(db, sorted)
  }

  function CustomTargetedBy(profileUuid: Uuid, uuid: Uuid): CustomMcpServer -> bool {
    (c: CustomMcpServer) => TargetsCustom(c, profileUuid, uuid)
  }

  /** `getCustomMcpServerByUuid`: the row with this uuid in this profile,
      joined with its code, or null. */
  function GetCustomMcpServerByUuid(db: Db, profileUuid: Uuid, uuid: Uuid): (r: Option<CustomServerView>)
    ensures r.Some? ==>
      && r.value.server in db.customMcpServers
      && r.value.server.uuid == uuid && r.value.server.profileUuid == profileUuid
      && r.value == Joined(db, r.value.server)
    ensures r.None? <==> forall c :: c in db.customMcpServers ==> !TargetsCustom(c, profileUuid, uuid)
  {
    match FindFirst(db.customMcpServers, CustomTargetedBy(profileUuid, uuid))
    case Some(i) => Some(Joined(db, db.customMcpServers[i]))
    case None => None
  }

  /** On a valid store the lookup finds the one row with the uuid. */
  lemma GetCustomMcpServerByUuidUnique(db: Db, c: CustomMcpServer)
    requires Valid(db)
    requires c in db.customMcpServers
    ensures GetCustomMcpServerByUuid(db, c.profileUuid, c.uuid) == Some(Joined(db, c))
  {
    var found := GetCustomMcpServerByUuid(db, c.profileUuid, c.uuid).value.server;
    DistinctKeyUnique(db.customMcpServers, CustomServerKey, found, c);
  }

  /** `deleteCustomMcpServerByUuid`: removes the profile's row when there is
      one; the code it runs stays stored, and nothing else changes. */
  function DeleteCustomMcpServerByUuid(db: Db, profileUuid: Uuid, uuid: Uuid): (r: Outcome<()>)
    ensures r.result.Ok?
    ensures forall c :: c in r.db.customMcpServers <==>
      c in db.customMcpServers && !TargetsCustom(c, profileUuid, uuid)
    ensures r.db == db.(customMcpServers := r.db.customMcpServers)
    ensures (forall c :: c in db.customMcpServers ==> !TargetsCustom(c, profileUuid, uuid)) ==> r.db == db
    ensures Valid(db) ==> Valid(r.db)
  {
    if FindFirst(db.customMcpServers, CustomTargetedBy(profileUuid, uuid)).Some? then
      Outcome(DeleteCustomServerRow(db, profileUuid, uuid), Ok(()))
    else
      Outcome(db, Ok(()))
  }

  /** After a delete the row is no longer found, and its code still is. */
  lemma DeleteThenGetCustom(db: Db, c: CustomMcpServer)
    requires c in db.customMcpServers
    ensures var db' := DeleteCustomMcpServerByUuid(db, c.profileUuid, c.uuid).db;
      GetCustomMcpServerByUuid(db', c.profileUuid, c.uuid).None? && db'.codes == db.codes
  {
  }

  /** `toggleCustomMcpServerStatus`: sets the status of the profile's row, if any. */
  function ToggleCustomMcpServerStatus(db: Db, profileUuid: Uuid, uuid: Uuid, newStatus: ServerStatus): (r: Outcome<()>)
    ensures r.result.Ok?
    ensures |r.db.customMcpServers| == |db.customMcpServers|
    ensures forall i :: 0 <= i < |db.customMcpServers| ==>
      && r.db.customMcpServers[i] == db.customMcpServers[i].(status := r.db.customMcpServers[i].status)
      && (TargetsCustom(db.customMcpServers[i], profileUuid, uuid) ==> r.db.customMcpServers[i].status == newStatus)
      && (!TargetsCustom(db.customMcpServers[i], profileUuid, uuid) ==> r.db.customMcpServers[i] == db.customMcpServers[i])
    ensures r.db == db.(customMcpServers := r.db.customMcpServers)
    ensures Valid(db) ==> Valid(r.db)
  {
    Outcome(UpdateCustomServer(db, profileUuid, uuid, (c: CustomMcpServer) => c.(status := newStatus)), Ok(()))
  }

  /** Toggling back to the previous status restores the store exactly. */
  lemma ToggleCustomRoundTrip(db: Db, c: CustomMcpServer, newStatus: ServerStatus)
    requires Valid(db)
    requires c in db.customMcpServers
    ensures var once := ToggleCustomMcpServerStatus(db, c.profileUuid, c.uuid, newStatus).db;
      ToggleCustomMcpServerStatus(once, c.profileUuid, c.uuid, c.status).db == db
  {
    var once := ToggleCustomMcpServerStatus(db, c.profileUuid, c.uuid, newStatus).db;
    var twice := ToggleCustomMcpServerStatus(once, c.profileUuid, c.uuid, c.status).db;
    forall i | 0 <= i < |db.customMcpServers| ensures twice.customMcpServers[i] == db.customMcpServers[i] {
      if TargetsCustom(db.customMcpServers[i], c.profileUuid, c.uuid) {
        DistinctKeyUnique(db.customMcpServers, CustomServerKey, db.customMcpServers[i], c);
      }
    }
  }

  /** The data `createCustomMcpServer` receives; None is a field left out. */
  datatype CustomDraft = CustomDraft(
    name: Option<string>, description: Option<string>, codeUuid: Option<Uuid>,
    additionalArgs: Option<seq<string>>, env: Option<map<string, string>>)

  /** `createCustomMcpServer`: inserts an ACTIVE row into the profile with
      the given defaults and returns it. A missing name or code reference is
      refused by NOT NULL, then the key and the foreign keys are checked.
      `id` is the uuid the column default draws. */
  function CreateCustomMcpServer(db: Db, profileUuid: Uuid, data: CustomDraft, id: Uuid): (r: Outcome<CustomMcpServer>)
    ensures r.result.Ok? <==>
      && data.name.Some? && data.codeUuid.Some?
      && !HasCustomServer(db, id) && HasProfile(db, profileUuid) && HasCode(db, data.codeUuid.value)
    ensures data.name.None? || data.codeUuid.None? ==> r == Outcome(db, Err(Rejected(NotNullViolation)))
    ensures r.result.Err? ==> r.db == db && r.result.fault.Rejected?
    ensures r.result.Ok? ==>
      var c := r.result.value;
      && c.uuid == id && c.profileUuid == profileUuid && c.status == Active
      && c.name == data.name.value && c.codeUuid == data.codeUuid.value
      && c.description == Some(data.description.GetOr(""))
      && c.additionalArgs == data.additionalArgs.GetOr([]) && c.env == data.env.GetOr(map[])
      && r.db == db.(customMcpServers := db.customMcpServers + [c], clock := db.clock + 1)
    ensures Valid(db) ==> Valid(r.db)
  {
    if data.name.None? || data.codeUuid.None? then Outcome(db, Err(Rejected(NotNullViolation)))
    else
      var row := CustomMcpServer(id, data.name.value, Some(data.description.GetOr("")), data.codeUuid.value,
                                 data.additionalArgs.GetOr([]), data.env.GetOr(map[]), db.clock,
                                 profileUuid, Active);
      match InsertCustomServer(db, row)
      case Ok(db') => Outcome(db', Ok(row))
      case Err(f) => Outcome(db, Err(f))
  }

  /** A created custom server is found by its uuid and listed for its profile. */
  lemma CreateThenGetCustom(db: Db, profileUuid: Uuid, data: CustomDraft, id: Uuid)
    requires Valid(db)
    requires CreateCustomMcpServer(db, profileUuid, data, id).result.Ok?
    ensures var r := CreateCustomMcpServer(db, profileUuid, data, id);
      && GetCustomMcpServerByUuid(r.db, profileUuid, id) == Some(Joined(r.db, r.result.value))
      && Joined(r.db, r.result.value) in GetCustomMcpServers(r.db, profileUuid)
      && Joined(r.db, r.result.value).code.Some?
  {
    var r := CreateCustomMcpServer(db, profileUuid, data, id);
    GetCustomMcpServerByUuidUnique(r.db, r.result.value);
    JoinFindsCode(r.db, r.result.value);
  }

  /** Creating a custom server adds exactly its row, once, to the profile's
      listing (it is created active) and leaves the listing's other rows as they were. */
  lemma {:induction false} CreateCustomThenListed(db: Db, profileUuid: Uuid, data: CustomDraft, id: Uuid)
    requires CreateCustomMcpServer(db, profileUuid, data, id).result.Ok?
    ensures var r := CreateCustomMcpServer(db, profileUuid, data, id);
      && multiset(ServersOf(GetCustomMcpServers(r.db, profileUuid)))
         == multiset(ServersOf(GetCustomMcpServers(db, profileUuid))) + multiset{r.result.value}
      && multiset(ServersOf(GetCustomMcpServers(r.db, profileUuid)))[r.result.value] == 1
  {
    var r := CreateCustomMcpServer(db, profileUuid, data, id);
    var row := r.result.value;
    assert row !in db.customMcpServers;
    SelectionGains(db.customMcpServers, row, CustomListedIn(profileUuid),
                   ServersOf(GetCustomMcpServers(db, profileUuid)), ServersOf(GetCustomMcpServers(r.db, profileUuid)));
  }

  /** `updateCustomMcpServer`: the fields present in the data replace the
      profile's row's. A new code reference must name a stored code; the
      foreign key refuses it otherwise, but only when a row is updated. */
  function UpdateCustomMcpServer(db: Db, profileUuid: Uuid, uuid: Uuid, patch: CustomServerPatch): (r: Outcome<()>)
    ensures r.result.Err? <==>
      && patch.codeUuid.Some? && !HasCode(db, patch.codeUuid.value)
      && exists c :: c in db.customMcpServers && TargetsCustom(c, profileUuid, uuid)
    ensures r.result.Err? ==> r == Outcome(db, Err(Rejected(ForeignKeyViolation)))
    ensures r.result.Ok? ==>
      && |r.db.customMcpServers| == |db.customMcpServers|
      && r.db == db.(customMcpServers := r.db.customMcpServers)
      && forall i :: 0 <= i < |db.customMcpServers| ==>
           r.db.customMcpServers[i] ==
             if TargetsCustom(db.customMcpServers[i], profileUuid, uuid)
             then PatchedCustom(db.customMcpServers[i], patch) else db.customMcpServers[i]
    ensures Valid(db) ==> Valid(r.db)
  {
    var found := FindFirst(db.customMcpServers, CustomTargetedBy(profileUuid, uuid));
    if patch.codeUuid.Some? && !HasCode(db, patch.codeUuid.value) && found.Some? then
      assert db.customMcpServers[found.value] in db.customMcpServers;
      Outcome(db, Err(Rejected(ForeignKeyViolation)))
    else
      var applied := if patch.codeUuid.Some? && !HasCode(db, patch.codeUuid.value)
                     then patch.(codeUuid := None) else patch;
      Outcome(UpdateCustomServer(db, profileUuid, uuid, (c: CustomMcpServer) => PatchedCustom(c, applied)), Ok(()))
  }

  /** After an update the row is found with the patch applied; its
      uuid, profile, status and creation time are kept. */
  lemma UpdateThenGetCustom(db: Db, c: CustomMcpServer, patch: CustomServerPatch)
    requires Valid(db)
    requires c in db.customMcpServers
    requires UpdateCustomMcpServer(db, c.profileUuid, c.uuid, patch).result.Ok?
    ensures var db' := UpdateCustomMcpServer(db, c.profileUuid, c.uuid, patch).db;
      var found := GetCustomMcpServerByUuid(db', c.profileUuid, c.uuid);
      && found.Some? && found.value.server == PatchedCustom(c, patch)
      && found.value.server.status == c.status && found.value.server.createdAt == c.createdAt
  {
    var db' := UpdateCustomMcpServer(db, c.profileUuid, c.uuid, patch).db;
    var i :| 0 <= i < |db.customMcpServers| && db.customMcpServers[i] == c;
    assert db'.customMcpServers[i] == PatchedCustom(c, patch);
    assert db'.customMcpServers[i] in db'.customMcpServers;
    GetCustomMcpServerByUuidUnique(db', PatchedCustom(c, patch));
  }
}

=== FILE: custom_mcp_servers_route.dfy ===
/** `/api/custom-mcp-servers`: the proxy's view of the custom servers of the
    active profile, and their creation from a request body. */
module CustomMcpServersRoute {
  import opened Common
  import opened Schema
  import opened Database
  import opened Auth
  import opened CustomMcpServers

  const FetchFailed: string := "Failed to fetch custom MCP servers"
  const CreateFailed: string := "Failed to create custom MCP server"

  /** GET: the same listing the management page shows for the active profile. */
  function GetCustomServers(db: Db, header: Option<string>, profileId: Uuid): (r: Reply<seq<CustomServerView>>)
    ensures var a := Authenticate(db, header, profileId);
      && r.db == a.db
      && (!a.outcome.Authenticated? ==> r.response == Refusal(a.outcome, FetchFailed))
      && (a.outcome.Authenticated? ==>
            && r.response == Body(GetCustomMcpServers(a.db, a.outcome.activeProfile.uuid))
            && (forall v :: v in r.response.value ==>
                  v.server in a.db.customMcpServers && v.server.profileUuid == a.outcome.activeProfile.uuid
                  && (v.server.status == Active || v.server.status == Inactive))
            && (forall c :: c in a.db.customMcpServers && CustomListed(c, a.outcome.activeProfile.uuid) ==>
                  Joined(a.db, c) in r.response.value)
            && (forall i, j :: 0 <= i < j < |r.response.value| ==>
                  r.response.value[i].server.createdAt >= r.response.value[j].server.createdAt))
    ensures Valid(db) ==> Valid(r.db)
  {
    var a := Authenticate(db, header, profileId);
    match a.outcome
    case Authenticated(_, profile) => Reply(a.db, Body(GetCustomMcpServers(a.db, profile.uuid)))
    case _ => Reply(a.db, Refusal(a.outcome, FetchFailed))
  }

  /** The JSON body of a POST; None is a field the body leaves out. */
  datatype CustomBody = CustomBody(
    name: Option<string>, description: Option<string>, codeUuid: Option<Uuid>,
    additionalArgs: Option<seq<string>>, env: Option<map<string, string>>)

  /** The row the INSERT builds: fields left out take the column defaults
      (no description, no arguments, an empty environment), the status is
      ACTIVE and the profile is the caller's. */
  function CustomBodyRow(body: CustomBody, profileUuid: Uuid, id: Uuid, clock: nat): (r: Result<CustomMcpServer>)
    ensures r.Ok? <==> body.name.Some? && body.codeUuid.Some?
    ensures r.Err? ==> r.fault == Rejected(NotNullViolation)
    ensures r.Ok? ==>
      && r.value.uuid == id && r.value.name == body.name.value && r.value.codeUuid == body.codeUuid.value
      && r.value.description == body.description
      && r.value.additionalArgs == body.additionalArgs.GetOr([]) && r.value.env == body.env.GetOr(map[])
      && r.value.status == Active && r.value.profileUuid == profileUuid && r.value.createdAt == clock
  {
    if body.name.None? || body.codeUuid.None? then Err(Rejected(NotNullViolation))
    else
      Ok(CustomMcpServer(id, body.name.value, body.description, body.codeUuid.value,
                         body.additionalArgs.GetOr([]), body.env.GetOr(map[]), clock, profileUuid, Active))
  }

  /** POST: inserts the body's custom server, ACTIVE, into the active profile
      and returns it; any refusal is a 500 that leaves the store alone. */
  function PostCustomServer(db: Db, header: Option<string>, profileId: Uuid, serverId: Uuid, body: CustomBody): (r: Reply<CustomMcpServer>)
    ensures var a := Authenticate(db, header, profileId);
      && (!a.outcome.Authenticated? ==> r == Reply(a.db, Refusal(a.outcome, CreateFailed)))
      && (a.outcome.Authenticated? ==>
            && (r.response.Body? <==>
                  && body.name.Some? && body.codeUuid.Some?
                  && !HasCustomServer(a.db, serverId) && HasProfile(a.db, a.outcome.activeProfile.uuid)
                  && HasCode(a.db, body.codeUuid.value))
            && (r.response.Body? ==>
                  && CustomBodyRow(body, a.outcome.activeProfile.uuid, serverId, a.db.clock).Ok?
                  && r.response.value == CustomBodyRow(body, a.outcome.activeProfile.uuid, serverId, a.db.clock).value
                  && r.db.customMcpServers == a.db.customMcpServers + [r.response.value]
                  && r.db == a.db.(customMcpServers := r.db.customMcpServers, clock := a.db.clock + 1))
            && (r.response.ErrorBody? ==> r == Reply(a.db, ErrorBody(500, CreateFailed, None))))
    ensures Valid(db) ==> Valid(r.db)
  {
    var a := Authenticate(db, header, profileId);
    match a.outcome
    case Authenticated(_, profile) =>
      (match CustomBodyRow(body, profile.uuid, serverId, a.db.clock)
       case Err(_) => Reply(a.db, ErrorBody(500, CreateFailed, None))
       case Ok(row) =>
         match InsertCustomServer(a.db, row)
         case Ok(db') => Reply(db', Body(row))
         case Err(_) => Reply(a.db, ErrorBody(500, CreateFailed, None)))
    case _ => Reply(a.db, Refusal(a.outcome, CreateFailed))
  }

  /** A custom server the proxy posts is listed for the profile on the next GET. */
  lemma PostedCustomServerIsListed(db: Db, header: Option<string>, profileId: Uuid, serverId: Uuid, body: CustomBody)
    requires Valid(db)
    requires PostCustomServer(db, header, profileId, serverId, body).response.Body?
    ensures var r := PostCustomServer(db, header, profileId, serverId, body);
      var listing := GetCustomServers(r.db, header, profileId);
      listing.response.Body? && Joined(r.db, r.response.value) in listing.response.value
  {
    var a := Authenticate(db, header, profileId);
    var r := PostCustomServer(db, header, profileId, serverId, body);
    assert r.response.value in r.db.customMcpServers;
    AuthenticateAgain(db, header, profileId, r.db);
  }
}

=== FILE: database.dfy ===
/** The SQL statements the actions issue, one function each. Every statement
    performs the checks Postgres makes for the rows it touches (primary key,
    foreign keys, the CHECK constraint, cascades and no-action references on
    delete) and either yields the new store or the violation that aborts it,
    leaving the store as it was. Each statement preserves `Valid`. */
module Database {
  import opened Common
  import opened Seqs
  import opened Schema

  /** What a server action leaves behind: the store after the statements it
      ran, and the value it returned or the error it threw. A failed action
      keeps the writes of the statements that succeeded before the failure. */
  datatype Outcome<+T> = Outcome(db: Db, result: Result<T>)

  /* -------------------------------------------------------------- lookups */

  /** `SELECT ... WHERE uuid = id LIMIT 1` on each table. */
  function LookupProject(db: Db, id: Uuid): (r: Option<Project>)
    ensures r.Some? ==> r.value in db.projects && r.value.uuid == id
    ensures r.None? <==> !HasProject(db, id)
  {
    var i := FindFirst(db.projects, (p: Project) => p.uuid == id);
    if i.Some? then Some(db.projects[i.value]) else None
  }

  function LookupProfile(db: Db, id: Uuid): (r: Option<Profile>)
    ensures r.Some? ==> r.value in db.profiles && r.value.uuid == id
    ensures r.None? <==> !HasProfile(db, id)
  {
    var i := FindFirst(db.profiles, (p: Profile) => p.uuid == id);
    if i.Some? then Some(db.profiles[i.value]) else None
  }

  function LookupServer(db: Db, id: Uuid): (r: Option<McpServer>)
    ensures r.Some? ==> r.value in db.mcpServers && r.value.uuid == id
    ensures r.None? <==> !HasServer(db, id)
  {
    var i := FindFirst(db.mcpServers, (s: McpServer) => s.uuid == id);
    if i.Some? then Some(db.mcpServers[i.value]) else None
  }

  function LookupCode(db: Db, id: Uuid): (r: Option<Code>)
    ensures r.Some? ==> r.value in db.codes && r.value.uuid == id
    ensures r.None? <==> !HasCode(db, id)
  {
    var i := FindFirst(db.codes, (c: Code) => c.uuid == id);
    if i.Some? then Some(db.codes[i.value]) else None
  }

  /* ------------------------------------------------------------ projects */

  function InsertProject(db: Db, row: Project): (r: Result<Db>)
    ensures r.Ok? <==>
      !HasProject(db, row.uuid)
      && (row.activeProfileUuid.Some? ==> HasProfile(db, row.activeProfileUuid.value))
    ensures r.Ok? ==> r.value == db.(projects := db.projects + [row], clock := db.clock + 1)
    ensures Valid(db) && r.Ok? ==> Valid(r.value)
  {
    if HasProject(db, row.uuid) then Err(Rejected(UniqueViolation))
    else if row.activeProfileUuid.Some? && !HasProfile(db, row.activeProfileUuid.value) then
      Err(Rejected(ForeignKeyViolation))
    else
      var db' := db.(projects := db.projects + [row], clock := db.clock + 1);
      assert Valid(db) ==> Valid(db') by {
        if Valid(db) {
          forall p | p in db'.profiles ensures HasProject(db', p.projectUuid) {
            var q :| q in db.projects && q.uuid == p.projectUuid;
            assert q in db'.projects;
          }
          forall k | k in db'.apiKeys ensures HasProject(db', k.projectUuid) {
            var q :| q in db.projects && q.uuid == k.projectUuid;
            assert q in db'.projects;
          }
          forall i, j | 0 <= i < j < |db'.projects|
            ensures ProjectKey(db'.projects[i]) != ProjectKey(db'.projects[j])
          {
            if j < |db.projects| {
              assert db'.projects[i] == db.projects[i] && db'.projects[j] == db.projects[j];
            } else {
              assert db'.projects[i] in db.projects;
            }
          }
        }
      }
      Ok(db')
  }

  /** Replacing project rows in place, keeping each row's uuid and pointing
      only at existing profiles, keeps the store valid. */
  lemma ProjectsReplacedValid(db: Db, projects: seq<Project>)
    requires Valid(db)
    requires |projects| == |db.projects|
    requires forall i :: 0 <= i < |projects| ==> projects[i].uuid == db.projects[i].uuid
    requires forall i :: 0 <= i < |projects| && projects[i].activeProfileUuid.Some? ==>
      HasProfile(db, projects[i].activeProfileUuid.value)
    ensures Valid(db.(projects := projects))
  {
    var db' := db.(projects := projects);
    forall u | HasProject(db, u) ensures HasProject(db', u) {
      var q :| q in db.projects && q.uuid == u;
      var i :| 0 <= i < |db.projects| && db.projects[i] == q;
      assert projects[i] in projects;
    }
    forall i, j | 0 <= i < j < |projects|
      ensures ProjectKey(projects[i]) != ProjectKey(projects[j])
    {
      assert ProjectKey(db.projects[i]) != ProjectKey(db.projects[j]);
    }
    forall p | p in projects && p.activeProfileUuid.Some?
      ensures HasProfile(db', p.activeProfileUuid.value)
    {
      var i :| 0 <= i < |projects| && projects[i] == p;
    }
  }

  /** `UPDATE projects SET active_profile_uuid = profileUuid WHERE uuid = projectUuid`. */
  function SetProjectActive(db: Db, projectUuid: Uuid, profileUuid: Uuid): (r: Result<Db>)
    ensures r.Ok? <==> HasProfile(db, profileUuid) || !HasProject(db, projectUuid)
    ensures r.Ok? ==> |r.value.projects| == |db.projects|
    ensures r.Ok? ==> forall i :: 0 <= i < |db.projects| ==>
      r.value.projects[i] ==
        if db.projects[i].uuid == projectUuid
        then db.projects[i].(activeProfileUuid := Some(profileUuid))
        else db.projects[i]
    ensures r.Ok? ==> r.value == db.(projects := r.value.projects)
    ensures Valid(db) && r.Ok? ==> Valid(r.value)
  {
    var projects := seq(|db.projects|, i requires 0 <= i < |db.projects| =>
      if db.projects[i].uuid == projectUuid
      then db.projects[i].(activeProfileUuid := Some(profileUuid))
      else db.projects[i]);
    if !HasProject(db, projectUuid) then
      assert projects == db.projects;
      Ok(db)
    else if !HasProfile(db, profileUuid) then Err(Rejected(ForeignKeyViolation))
    else
      assert Valid(db) ==> Valid(db.(projects := projects)) by {
        if Valid(db) {
          forall i | 0 <= i < |projects| && projects[i].activeProfileUuid.Some?
            ensures HasProfile(db, projects[i].activeProfileUuid.value)
          {
            assert db.projects[i] in db.projects;
          }
          ProjectsReplacedValid(db, projects);
        }
      }
      Ok(db.(projects := projects))
  }

  /** `UPDATE projects SET name = name WHERE uuid = projectUuid`. */
  function RenameProject(db: Db, projectUuid: Uuid, name: string): (db': Db)
    ensures |db'.projects| == |db.projects|
    ensures forall i :: 0 <= i < |db.projects| ==>
      db'.projects[i] ==
        if db.projects[i].uuid == projectUuid then db.projects[i].(name := name) else db.projects[i]
    ensures db' == db.(projects := db'.projects)
    ensures Valid(db) ==> Valid(db')
  {
    var projects := seq(|db.projects|, i requires 0 <= i < |db.projects| =>
      if db.projects[i].uuid == projectUuid then db.projects[i].(name := name) else db.projects[i]);
    assert Valid(db) ==> Valid(db.(projects := projects)) by {
      if Valid(db) {
        forall i | 0 <= i < |projects| && projects[i].activeProfileUuid.Some?
          ensures HasProfile(db, projects[i].activeProfileUuid.value)
        {
          assert db.projects[i] in db.projects;
        }
        ProjectsReplacedValid(db, projects);
      }
    }
    db.(projects := projects)
  }

  /** `DELETE FROM projects WHERE uuid = projectUuid`: its profiles and api keys
      go with it (ON DELETE CASCADE); the statement fails if a server, a custom
      server or another project still refers to one of those profiles. */
  function DeleteProjectRow(db: Db, projectUuid: Uuid): (r: Result<Db>)
    ensures r.Ok? ==> r.value == ProjectDeleted(db, projectUuid)
    ensures r.Ok? <==> ProfileRefsResolve(ProjectDeleted(db, projectUuid))
    ensures r.Err? ==> r.fault == Rejected(ForeignKeyViolation)
    ensures Valid(db) && r.Ok? ==> Valid(r.value)
  {
    var db' := ProjectDeleted(db, projectUuid);
    if !ProfileRefsResolve(db') then Err(Rejected(ForeignKeyViolation))
    else
      assert Valid(db) ==> Valid(db') by {
        if Valid(db) {
          FilterDistinct(db.projects, (p: Project) => p.uuid != projectUuid, ProjectKey);
          FilterDistinct(db.profiles, (p: Profile) => p.projectUuid != projectUuid, ProfileKey);
          FilterDistinct(db.apiKeys, (k: ApiKey) => k.projectUuid != projectUuid, ApiKeyKey);
          forall p | p in db'.profiles ensures HasProject(db', p.projectUuid) {
            var q :| q in db.projects && q.uuid == p.projectUuid;
            assert q in db'.projects;
          }
          forall k | k in db'.apiKeys ensures HasProject(db', k.projectUuid) {
            var q :| q in db.projects && q.uuid == k.projectUuid;
            assert q in db'.projects;
          }
        }
      }
      Ok(db')
  }

  /** The candidate state of a project delete, after the cascades. */
  function ProjectDeleted(db: Db, projectUuid: Uuid): (db': Db)
    ensures forall p :: p in db'.projects <==> p in db.projects && p.uuid != projectUuid
    ensures forall p :: p in db'.profiles <==> p in db.profiles && p.projectUuid != projectUuid
    ensures forall k :: k in db'.apiKeys <==> k in db.apiKeys && k.projectUuid != projectUuid
    ensures db' == db.(projects := db'.projects, profiles := db'.profiles, apiKeys := db'.apiKeys)
  {
    db.(projects := Filter(db.projects, (p: Project) => p.uuid != projectUuid),
        profiles := Filter(db.profiles, (p: Profile) => p.projectUuid != projectUuid),
        apiKeys := Filter(db.apiKeys, (k: ApiKey) => k.projectUuid != projectUuid))
  }

  /* ------------------------------------------------------------ profiles */

  function InsertProfile(db: Db, row: Profile): (r: Result<Db>)
    ensures r.Ok? <==> !HasProfile(db, row.uuid) && HasProject(db, row.projectUuid)
    ensures r.Err? ==> r.fault == Rejected(
      if HasProfile(db, row.uuid) then UniqueViolation else ForeignKeyViolation)
    ensures r.Ok? ==> r.value == db.(profiles := db.profiles + [row], clock := db.clock + 1)
    ensures Valid(db) && r.Ok? ==> Valid(r.value)
  {
    if HasProfile(db, row.uuid) then Err(Rejected(UniqueViolation))
    else if !HasProject(db, row.projectUuid) then Err(Rejected(ForeignKeyViolation))
    else
      var db' := db.(profiles := db.profiles + [row], clock := db.clock + 1);
      assert Valid(db) ==> Valid(db') by {
        if Valid(db) {
          forall p | p in db'.projects && p.activeProfileUuid.Some?
            ensures HasProfile(db', p.activeProfileUuid.value)
          {
            var q :| q in db.profiles && q.uuid == p.activeProfileUuid.value;
            assert q in db'.profiles;
          }
          forall s | s in db'.mcpServers ensures HasProfile(db', s.profileUuid) {
            var q :| q in db.profiles && q.uuid == s.profileUuid;
            assert q in db'.profiles;
          }
          forall c | c in db'.customMcpServers ensures HasProfile(db', c.profileUuid) {
            var q :| q in db.profiles && q.uuid == c.profileUuid;
            assert q in db'.profiles;
          }
          forall i, j | 0 <= i < j < |db'.profiles|
            ensures ProfileKey(db'.profiles[i]) != ProfileKey(db'.profiles[j])
          {
            if j < |db.profiles| {
              assert db'.profiles[i] == db.profiles[i] && db'.profiles[j] == db.profiles[j];
            } else {
              assert db'.profiles[i] in db.profiles;
            }
          }
        }
      }
      Ok(db')
  }

  /** Replacing profile rows in place, keeping each row's uuid and project,
      keeps the store valid. */
  lemma ProfilesReplacedValid(db: Db, profiles: seq<Profile>)
    requires Valid(db)
    requires |profiles| == |db.profiles|
    requires forall i :: 0 <= i < |profiles| ==>
      profiles[i].uuid == db.profiles[i].uuid && profiles[i].projectUuid == db.profiles[i].projectUuid
    ensures Valid(db.(profiles := profiles))
  {
    var db' := db.(profiles := profiles);
    forall u | HasProfile(db, u) ensures HasProfile(db', u) {
      var q :| q in db.profiles && q.uuid == u;
      var i :| 0 <= i < |db.profiles| && db.profiles[i] == q;
      assert profiles[i] in profiles;
    }
    forall i, j | 0 <= i < j < |profiles|
      ensures ProfileKey(profiles[i]) != ProfileKey(profiles[j])
    {
      assert ProfileKey(db.profiles[i]) != ProfileKey(db.profiles[j]);
    }
    forall p | p in profiles ensures HasProject(db', p.projectUuid) {
      var i :| 0 <= i < |profiles| && profiles[i] == p;
      assert db.profiles[i] in db.profiles;
    }
  }

  /** `UPDATE profiles SET name = name WHERE uuid = profileUuid`. */
  function RenameProfile(db: Db, profileUuid: Uuid, name: string): (db': Db)
    ensures |db'.profiles| == |db.profiles|
    ensures forall i :: 0 <= i < |db.profiles| ==>
      db'.profiles[i] ==
        if db.profiles[i].uuid == profileUuid then db.profiles[i].(name := name) else db.profiles[i]
    ensures db' == db.(profiles := db'.profiles)
    ensures Valid(db) ==> Valid(db')
  {
    var profiles := seq(|db.profiles|, i requires 0 <= i < |db.profiles| =>
      if db.profiles[i].uuid == profileUuid then db.profiles[i].(name := name) else db.profiles[i]);
    assert Valid(db) ==> Valid(db.(profiles := profiles)) by {
      if Valid(db) {
        ProfilesReplacedValid(db, profiles);
      }
    }
    db.(profiles := profiles)
  }

  /** `DELETE FROM profiles WHERE uuid = profileUuid`: nothing cascades, and
      the statement fails while a project, server or custom server refers to it. */
  function DeleteProfileRow(db: Db, profileUuid: Uuid): (r: Result<Db>)
    ensures r.Ok? ==> r.value == ProfileDeleted(db, profileUuid)
    ensures r.Ok? <==> ProfileRefsResolve(ProfileDeleted(db, profileUuid))
    ensures r.Err? ==> r.fault == Rejected(ForeignKeyViolation)
    ensures Valid(db) && r.Ok? ==> Valid(r.value)
  {
    var db' := ProfileDeleted(db, profileUuid);
    if !ProfileRefsResolve(db') then Err(Rejected(ForeignKeyViolation))
    else
      assert Valid(db) ==> Valid(db') by {
        if Valid(db) {
          FilterDistinct(db.profiles, (p: Profile) => p.uuid != profileUuid, ProfileKey);
        }
      }
      Ok(db')
  }

  function ProfileDeleted(db: Db, profileUuid: Uuid): (db': Db)
    ensures forall p :: p in db'.profiles <==> p in db.profiles && p.uuid != profileUuid
    ensures db' == db.(profiles := db'.profiles)
  {
    db.(profiles := Filter(db.profiles, (p: Profile) => p.uuid != profileUuid))
  }

  /* ------------------------------------------------------------ api keys */

  function InsertApiKey(db: Db, row: ApiKey): (r: Result<Db>)
    ensures r.Ok? <==> !HasApiKey(db, row.uuid) && HasProject(db, row.projectUuid)
    ensures r.Ok? ==> r.value == db.(apiKeys := db.apiKeys + [row], clock := db.clock + 1)
    ensures Valid(db) && r.Ok? ==> Valid(r.value)
  {
    if HasApiKey(db, row.uuid) then Err(Rejected(UniqueViolation))
    else if !HasProject(db, row.projectUuid) then Err(Rejected(ForeignKeyViolation))
    else
      var db' := db.(apiKeys := db.apiKeys + [row], clock := db.clock + 1);
      assert Valid(db) ==> Valid(db') by {
        if Valid(db) {
          forall i, j | 0 <= i < j < |db'.apiKeys|
            ensures ApiKeyKey(db'.apiKeys[i]) != ApiKeyKey(db'.apiKeys[j])
          {
            if j < |db.apiKeys| {
              assert db'.apiKeys[i] == db.apiKeys[i] && db'.apiKeys[j] == db.apiKeys[j];
            } else {
              assert db'.apiKeys[i] in db.apiKeys;
            }
          }
        }
      }
      Ok(db')
  }

  /** `DELETE FROM api_keys WHERE uuid = apiKeyUuid AND project_uuid = projectUuid`. */
  function DeleteApiKeyRow(db: Db, projectUuid: Uuid, apiKeyUuid: Uuid): (db': Db)
    ensures forall k :: k in db'.apiKeys <==>
      k in db.apiKeys && !(k.uuid == apiKeyUuid && k.projectUuid == projectUuid)
    ensures db' == db.(apiKeys := db'.apiKeys)
    ensures Valid(db) ==> Valid(db')
  {
    var p := (k: ApiKey) => !(k.uuid == apiKeyUuid && k.projectUuid == projectUuid);
    var db' := db.(apiKeys := Filter(db.apiKeys, p));
    assert Valid(db) ==> Valid(db') by {
      if Valid(db) {
        FilterDistinct(db.apiKeys, p, ApiKeyKey);
      }
    }
    db'
  }

  /* --------------------------------------------------------- mcp servers */

  function InsertServer(db: Db, row: McpServer): (r: Result<Db>)
    ensures r.Ok? <==>
      ServerShapeOk(row) && !HasServer(db, row.uuid) && HasProfile(db, row.profileUuid)
    ensures r.Err? ==> r.fault == Rejected(
      if !ServerShapeOk(row) then CheckViolation
      else if HasServer(db, row.uuid) then UniqueViolation
      else ForeignKeyViolation)
    ensures r.Ok? ==> r.value == db.(mcpServers := db.mcpServers + [row], clock := db.clock + 1)
    ensures Valid(db) && r.Ok? ==> Valid(r.value)
  {
    if !ServerShapeOk(row) then Err(Rejected(CheckViolation))
    else if HasServer(db, row.uuid) then Err(Rejected(UniqueViolation))
    else if !HasProfile(db, row.profileUuid) then Err(Rejected(ForeignKeyViolation))
    else
      var db' := db.(mcpServers := db.mcpServers + [row], clock := db.clock + 1);
      assert Valid(db) ==> Valid(db') by {
        if Valid(db) {
          forall t | t in db'.tools ensures HasServer(db', t.mcpServerUuid) {
            var q :| q in db.mcpServers && q.uuid == t.mcpServerUuid;
            assert q in db'.mcpServers;
          }
          forall l | l in db'.logs && l.mcpServerUuid.Some?
            ensures HasServer(db', l.mcpServerUuid.value)
          {
            var q :| q in db.mcpServers && q.uuid == l.mcpServerUuid.value;
            assert q in db'.mcpServers;
          }
          forall i, j | 0 <= i < j < |db'.mcpServers|
            ensures ServerKey(db'.mcpServers[i]) != ServerKey(db'.mcpServers[j])
          {
            if j < |db.mcpServers| {
              assert db'.mcpServers[i] == db.mcpServers[i] && db'.mcpServers[j] == db.mcpServers[j];
            } else {
              assert db'.mcpServers[i] in db.mcpServers;
            }
          }
        }
      }
      Ok(db')
  }

  /** Replacing server rows in place, keeping each row's uuid and profile and
      the CHECK constraint, keeps the store valid. */
  lemma ServersReplacedValid(db: Db, servers: seq<McpServer>)
    requires Valid(db)
    requires |servers| == |db.mcpServers|
    requires forall i :: 0 <= i < |servers| ==>
      servers[i].uuid == db.mcpServers[i].uuid
      && servers[i].profileUuid == db.mcpServers[i].profileUuid
      && ServerShapeOk(servers[i])
    ensures Valid(db.(mcpServers := servers))
  {
    var db' := db.(mcpServers := servers);
    forall t | t in db'.tools ensures HasServer(db', t.mcpServerUuid) {
      var q :| q in db.mcpServers && q.uuid == t.mcpServerUuid;
      var i :| 0 <= i < |db.mcpServers| && db.mcpServers[i] == q;
      assert servers[i].uuid == q.uuid;
    }
    forall l | l in db'.logs && l.mcpServerUuid.Some?
      ensures HasServer(db', l.mcpServerUuid.value)
    {
      var q :| q in db.mcpServers && q.uuid == l.mcpServerUuid.value;
      var i :| 0 <= i < |db.mcpServers| && db.mcpServers[i] == q;
      assert servers[i].uuid == q.uuid;
    }
    forall i, j | 0 <= i < j < |servers|
      ensures ServerKey(servers[i]) != ServerKey(servers[j])
    {
      assert ServerKey(db.mcpServers[i]) != ServerKey(db.mcpServers[j]);
    }
    forall s | s in servers ensures HasProfile(db', s.profileUuid) && ServerShapeOk(s) {
      var i :| 0 <= i < |servers| && servers[i] == s;
      assert db.mcpServers[i] in db.mcpServers;
    }
  }

  /** The columns `updateMcpServer` may set; None leaves a column alone. */
  datatype ServerPatch = ServerPatch(
    name: Option<string>, description: Option<string>, command: Option<string>,
    args: Option<seq<string>>, env: Option<map<string, string>>)

  function Patched(s: McpServer, patch: ServerPatch): (s': McpServer)
    ensures s'.uuid == s.uuid && s'.profileUuid == s.profileUuid
    ensures s'.kind == s.kind && s'.url == s.url && s'.status == s.status && s'.createdAt == s.createdAt
  {
    s.(name := patch.name.GetOr(s.name),
       description := if patch.description.Some? then patch.description else s.description,
       command := if patch.command.Some? then patch.command else s.command,
       args := patch.args.GetOr(s.args),
       env := patch.env.GetOr(s.env))
  }

  predicate Targets(s: McpServer, profileUuid: Uuid, uuid: Uuid) {
    s.uuid == uuid && s.profileUuid == profileUuid
  }

  /** `UPDATE mcp_servers SET ...patch WHERE uuid = uuid AND profile_uuid = profileUuid`;
      the CHECK constraint is re-evaluated on the updated row. */
  function PatchServer(db: Db, profileUuid: Uuid, uuid: Uuid, patch: ServerPatch): (r: Result<Db>)
    ensures r.Ok? <==>
      forall s :: s in db.mcpServers && Targets(s, profileUuid, uuid) ==> ServerShapeOk(Patched(s, patch))
    ensures r.Err? ==> r.fault == Rejected(CheckViolation)
    ensures r.Ok? ==> |r.value.mcpServers| == |db.mcpServers|
    ensures r.Ok? ==> forall i :: 0 <= i < |db.mcpServers| ==>
      r.value.mcpServers[i] ==
        if Targets(db.mcpServers[i], profileUuid, uuid) then Patched(db.mcpServers[i], patch)
        else db.mcpServers[i]
    ensures r.Ok? ==> r.value == db.(mcpServers := r.value.mcpServers)
    ensures Valid(db) && r.Ok? ==> Valid(r.value)
  {
    var servers := seq(|db.mcpServers|, i requires 0 <= i < |db.mcpServers| =>
      if Targets(db.mcpServers[i], profileUuid, uuid) then Patched(db.mcpServers[i], patch)
      else db.mcpServers[i]);
    if exists s :: s in db.mcpServers && Targets(s, profileUuid, uuid) && !ServerShapeOk(Patched(s, patch)) then
      Err(Rejected(CheckViolation))
    else
      var db' := db.(mcpServers := servers);
      assert Valid(db) ==> Valid(db') by {
        if Valid(db) {
          forall i | 0 <= i < |servers| ensures ServerShapeOk(servers[i]) {
            assert db.mcpServers[i] in db.mcpServers;
          }
          ServersReplacedValid(db, servers);
        }
      }
      Ok(db')
  }

  /** `UPDATE mcp_servers SET status = status WHERE uuid = uuid AND profile_uuid = profileUuid`. */
  function SetServerStatus(db: Db, profileUuid: Uuid, uuid: Uuid, status: ServerStatus): (db': Db)
    ensures |db'.mcpServers| == |db.mcpServers|
    ensures forall i :: 0 <= i < |db.mcpServers| ==>
      db'.mcpServers[i] ==
        if Targets(db.mcpServers[i], profileUuid, uuid) then db.mcpServers[i].(status := status)
        else db.mcpServers[i]
    ensures db' == db.(mcpServers := db'.mcpServers)
    ensures Valid(db) ==> Valid(db')
  {
    var servers := seq(|db.mcpServers|, i requires 0 <= i < |db.mcpServers| =>
      if Targets(db.mcpServers[i], profileUuid, uuid) then db.mcpServers[i].(status := status)
      else db.mcpServers[i]);
    var db' := db.(mcpServers := servers);
    assert Valid(db) ==> Valid(db') by {
      if Valid(db) {
        forall i | 0 <= i < |servers| ensures ServerShapeOk(servers[i]) {
          assert db.mcpServers[i] in db.mcpServers;
        }
        ServersReplacedValid(db, servers);
      }
    }
    db'
  }

  /** `DELETE FROM mcp_servers WHERE uuid = uuid AND profile_uuid = profileUuid`:
      the server's tools go with it (ON DELETE CASCADE); the statement fails
      while an execution log still refers to the server. */
  function DeleteServerRow(db: Db, profileUuid: Uuid, uuid: Uuid): (r: Result<Db>)
    ensures r.Ok? <==> ServerRefsResolve(ServerDeleted(db, profileUuid, uuid))
    ensures r.Err? ==> r.fault == Rejected(ForeignKeyViolation)
    ensures r.Ok? ==> r.value == ServerDeleted(db, profileUuid, uuid)
    ensures Valid(db) && r.Ok? ==> Valid(r.value)
  {
    var db' := ServerDeleted(db, profileUuid, uuid);
    if !ServerRefsResolve(db') then Err(Rejected(ForeignKeyViolation))
    else
      assert Valid(db) ==> Valid(db') by {
        if Valid(db) && db' != db {
          FilterDistinct(db.mcpServers, (s: McpServer) => !Targets(s, profileUuid, uuid), ServerKey);
          FilterDistinct(db.tools, (t: Tool) => t.mcpServerUuid != uuid, ToolKey);
          FilterDistinct(db.tools, (t: Tool) => t.mcpServerUuid != uuid, ToolNameKey);
        }
      }
      Ok(db')
  }

  /** The candidate state of a server delete: when a row matches both uuid and
      profile it is removed with its tools; otherwise nothing changes. */
  function ServerDeleted(db: Db, profileUuid: Uuid, uuid: Uuid): (db': Db)
    ensures forall s :: s in db'.mcpServers <==> s in db.mcpServers && !Targets(s, profileUuid, uuid)
    ensures (exists s :: s in db.mcpServers && Targets(s, profileUuid, uuid)) ==>
      forall t :: t in db'.tools <==> t in db.tools && t.mcpServerUuid != uuid
    ensures (forall s :: s in db.mcpServers ==> !Targets(s, profileUuid, uuid)) ==> db' == db
    ensures db' == db.(mcpServers := db'.mcpServers, tools := db'.tools)
  {
    if exists s :: s in db.mcpServers && Targets(s, profileUuid, uuid) then
      db.(mcpServers := Filter(db.mcpServers, (s: McpServer) => !Targets(s, profileUuid, uuid)),
          tools := Filter(db.tools, (t: Tool) => t.mcpServerUuid != uuid))
    else
      FilterAll(db.mcpServers, (s: McpServer) => !Targets(s, profileUuid, uuid));
      db
  }

  /* --------------------------------------------------------------- codes */

  function InsertCode(db: Db, row: Code): (r: Result<Db>)
    ensures r.Ok? <==> !HasCode(db, row.uuid)
    ensures r.Ok? ==> r.value == db.(codes := db.codes + [row], clock := db.clock + 1)
    ensures Valid(db) && r.Ok? ==> Valid(r.value)
  {
    if HasCode(db, row.uuid) then Err(Rejected(UniqueViolation))
    else
      var db' := db.(codes := db.codes + [row], clock := db.clock + 1);
      assert Valid(db) ==> Valid(db') by {
        if Valid(db) {
          forall c | c in db'.customMcpServers ensures HasCode(db', c.codeUuid) {
            var q :| q in db.codes && q.uuid == c.codeUuid;
            assert q in db'.codes;
          }
          forall i, j | 0 <= i < j < |db'.codes|
            ensures CodeKey(db'.codes[i]) != CodeKey(db'.codes[j])
          {
            if j < |db.codes| {
              assert db'.codes[i] == db.codes[i] && db'.codes[j] == db.codes[j];
            } else {
              assert db'.codes[i] in db.codes;
            }
          }
        }
      }
      Ok(db')
  }

  /** `UPDATE codes SET file_name = fileName, code = code WHERE uuid = uuid`. */
  function RewriteCode(db: Db, uuid: Uuid, fileName: string, code: string): (db': Db)
    ensures |db'.codes| == |db.codes|
    ensures forall i :: 0 <= i < |db.codes| ==>
      db'.codes[i] ==
        if db.codes[i].uuid == uuid then db.codes[i].(fileName := fileName, code := code)
        else db.codes[i]
    ensures db' == db.(codes := db'.codes)
    ensures Valid(db) ==> Valid(db')
  {
    var codes := seq(|db.codes|, i requires 0 <= i < |db.codes| =>
      if db.codes[i].uuid == uuid then db.codes[i].(fileName := fileName, code := code)
      else db.codes[i]);
    var db' := db.(codes := codes);
    assert Valid(db) ==> Valid(db') by {
      if Valid(db) {
        forall c | c in db'.customMcpServers ensures HasCode(db', c.codeUuid) {
          var q :| q in db.codes && q.uuid == c.codeUuid;
          var i :| 0 <= i < |db.codes| && db.codes[i] == q;
          assert codes[i].uuid == q.uuid;
        }
        forall i, j | 0 <= i < j < |codes|
          ensures CodeKey(codes[i]) != CodeKey(codes[j])
        {
          assert CodeKey(db.codes[i]) != CodeKey(db.codes[j]);
        }
      }
    }
    db'
  }

  /** `DELETE FROM codes WHERE uuid = uuid`; fails while a custom server refers to the code. */
  function DeleteCodeRow(db: Db, uuid: Uuid): (r: Result<Db>)
    ensures r.Ok? <==> CodeRefsResolve(CodeDeleted(db, uuid))
    ensures r.Err? ==> r.fault == Rejected(ForeignKeyViolation)
    ensures r.Ok? ==> r.value == CodeDeleted(db, uuid)
    ensures Valid(db) && r.Ok? ==> Valid(r.value)
  {
    var db' := CodeDeleted(db, uuid);
    if !CodeRefsResolve(db') then Err(Rejected(ForeignKeyViolation))
    else
      assert Valid(db) ==> Valid(db') by {
        if Valid(db) {
          FilterDistinct(db.codes, (c: Code) => c.uuid != uuid, CodeKey);
        }
      }
      Ok(db')
  }

  function CodeDeleted(db: Db, uuid: Uuid): (db': Db)
    ensures forall c :: c in db'.codes <==> c in db.codes && c.uuid != uuid
    ensures db' == db.(codes := db'.codes)
  {
    db.(codes := Filter(db.codes, (c: Code) => c.uuid != uuid))
  }

  /* ------------------------------------------------------ custom servers */

  function InsertCustomServer(db: Db, row: CustomMcpServer): (r: Result<Db>)
    ensures r.Ok? <==>
      !HasCustomServer(db, row.uuid) && HasProfile(db, row.profileUuid) && HasCode(db, row.codeUuid)
    ensures r.Err? ==> r.fault == Rejected(
      if HasCustomServer(db, row.uuid) then UniqueViolation else ForeignKeyViolation)
    ensures r.Ok? ==> r.value == db.(customMcpServers := db.customMcpServers + [row], clock := db.clock + 1)
    ensures Valid(db) && r.Ok? ==> Valid(r.value)
  {
    if HasCustomServer(db, row.uuid) then Err(Rejected(UniqueViolation))
    else if !HasProfile(db, row.profileUuid) || !HasCode(db, row.codeUuid) then
      Err(Rejected(ForeignKeyViolation))
    else
      var db' := db.(customMcpServers := db.customMcpServers + [row], clock := db.clock + 1);
      assert Valid(db) ==> Valid(db') by {
        if Valid(db) {
          forall i, j | 0 <= i < j < |db'.customMcpServers|
            ensures CustomServerKey(db'.customMcpServers[i]) != CustomServerKey(db'.customMcpServers[j])
          {
            if j < |db.customMcpServers| {
              assert db'.customMcpServers[i] == db.customMcpServers[i];
              assert db'.customMcpServers[j] == db.customMcpServers[j];
            } else {
              assert db'.customMcpServers[i] in db.customMcpServers;
            }
          }
        }
      }
      Ok(db')
  }

  predicate TargetsCustom(c: CustomMcpServer, profileUuid: Uuid, uuid: Uuid) {
    c.uuid == uuid && c.profileUuid == profileUuid
  }

  /** Replacing custom server rows in place, keeping uuid and profile and
      pointing only at stored codes, keeps the store valid. */
  lemma CustomServersReplacedValid(db: Db, customs: seq<CustomMcpServer>)
    requires Valid(db)
    requires |customs| == |db.customMcpServers|
    requires forall i :: 0 <= i < |customs| ==>
      customs[i].uuid == db.customMcpServers[i].uuid
      && customs[i].profileUuid == db.customMcpServers[i].profileUuid
      && (customs[i].codeUuid == db.customMcpServers[i].codeUuid || HasCode(db, customs[i].codeUuid))
    ensures Valid(db.(customMcpServers := customs))
  {
    var db' := db.(customMcpServers := customs);
    assert DistinctBy(customs, CustomServerKey) by {
      forall i, j | 0 <= i < j < |customs|
        ensures CustomServerKey(customs[i]) != CustomServerKey(customs[j])
      {
        assert CustomServerKey(db.customMcpServers[i]) != CustomServerKey(db.customMcpServers[j]);
      }
    }
    assert KeysUnique(db');
    forall c | c in customs ensures HasProfile(db, c.profileUuid) && HasCode(db, c.codeUuid) {
      var i :| 0 <= i < |customs| && customs[i] == c;
      assert db.customMcpServers[i] in db.customMcpServers;
    }
    assert ProfileRefsResolve(db') && CodeRefsResolve(db');
  }

  /** The columns `updateCustomMcpServer` may set; None leaves a column alone. */
  datatype CustomServerPatch = CustomServerPatch(
    name: Option<string>, description: Option<string>, codeUuid: Option<Uuid>,
    additionalArgs: Option<seq<string>>, env: Option<map<string, string>>)

  function PatchedCustom(c: CustomMcpServer, patch: CustomServerPatch): (c': CustomMcpServer)
    ensures c'.uuid == c.uuid && c'.profileUuid == c.profileUuid
    ensures c'.status == c.status && c'.createdAt == c.createdAt
    ensures c'.codeUuid == patch.codeUuid.GetOr(c.codeUuid)
  {
    c.(name := patch.name.GetOr(c.name),
       description := if patch.description.Some? then patch.description else c.description,
       codeUuid := patch.codeUuid.GetOr(c.codeUuid),
       additionalArgs := patch.additionalArgs.GetOr(c.additionalArgs),
       env := patch.env.GetOr(c.env))
  }

  /** `UPDATE custom_mcp_servers SET ... WHERE uuid = uuid AND profile_uuid = profileUuid`,
      with `f` computing the new row from the old one. */
  function UpdateCustomServer(db: Db, profileUuid: Uuid, uuid: Uuid,
                              f: CustomMcpServer -> CustomMcpServer): (db': Db)
    requires forall c :: f(c).uuid == c.uuid && f(c).profileUuid == c.profileUuid
    requires forall c :: f(c).codeUuid == c.codeUuid || HasCode(db, f(c).codeUuid)
    ensures |db'.customMcpServers| == |db.customMcpServers|
    ensures forall i :: 0 <= i < |db.customMcpServers| ==>
      db'.customMcpServers[i] ==
        if TargetsCustom(db.customMcpServers[i], profileUuid, uuid) then f(db.customMcpServers[i])
        else db.customMcpServers[i]
    ensures db' == db.(customMcpServers := db'.customMcpServers)
    ensures Valid(db) ==> Valid(db')
  {
    var customs := seq(|db.customMcpServers|, i requires 0 <= i < |db.customMcpServers| =>
      if TargetsCustom(db.customMcpServers[i], profileUuid, uuid) then f(db.customMcpServers[i])
      else db.customMcpServers[i]);
    var db' := db.(customMcpServers := customs);
    assert Valid(db) ==> Valid(db') by {
      if Valid(db) {
        CustomServersReplacedValid(db, customs);
      }
    }
    db'
  }

  /** `DELETE FROM custom_mcp_servers WHERE uuid = uuid AND profile_uuid = profileUuid`;
      no table refers to custom servers, so it cannot fail. */
  function DeleteCustomServerRow(db: Db, profileUuid: Uuid, uuid: Uuid): (db': Db)
    ensures forall c :: c in db'.customMcpServers <==>
      c in db.customMcpServers && !TargetsCustom(c, profileUuid, uuid)
    ensures db' == db.(customMcpServers := db'.customMcpServers)
    ensures Valid(db) ==> Valid(db')
  {
    var p := (c: CustomMcpServer) => !TargetsCustom(c, profileUuid, uuid);
    var db' := db.(customMcpServers := Filter(db.customMcpServers, p));
    assert Valid(db) ==> Valid(db') by {
      if Valid(db) {
        FilterDistinct(db.customMcpServers, p, CustomServerKey);
      }
    }
    db'
  }

  /* --------------------------------------------------------------- tools */

  /** Rewriting only the status column of the tools keeps the store valid. */
  lemma StatusesReplacedValid(db: Db, tools: seq<Tool>)
    requires Valid(db)
    requires |tools| == |db.tools|
    requires forall i :: 0 <= i < |tools| ==> tools[i] == db.tools[i].(status := tools[i].status)
    ensures Valid(db.(tools := tools))
  {
    var db' := db.(tools := tools);
    forall i, j | 0 <= i < j < |tools|
      ensures ToolKey(tools[i]) != ToolKey(tools[j]) && ToolNameKey(tools[i]) != ToolNameKey(tools[j])
    {
      assert ToolKey(db.tools[i]) != ToolKey(db.tools[j]);
      assert ToolNameKey(db.tools[i]) != ToolNameKey(db.tools[j]);
    }
    assert KeysUnique(db');
    forall t | t in tools ensures HasServer(db, t.mcpServerUuid) {
      var i :| 0 <= i < |tools| && tools[i] == t;
      assert db.tools[i] in db.tools;
    }
    assert ServerRefsResolve(db');
  }

  /** `UPDATE tools SET status = status WHERE uuid = toolUuid`. */
  function SetToolStatus(db: Db, toolUuid: Uuid, status: ToggleStatus): (db': Db)
    ensures |db'.tools| == |db.tools|
    ensures forall i :: 0 <= i < |db.tools| ==>
      db'.tools[i] ==
        if db.tools[i].uuid == toolUuid then db.tools[i].(status := status) else db.tools[i]
    ensures db' == db.(tools := db'.tools)
    ensures Valid(db) ==> Valid(db')
  {
    var tools := seq(|db.tools|, i requires 0 <= i < |db.tools| =>
      if db.tools[i].uuid == toolUuid then db.tools[i].(status := status) else db.tools[i]);
    var db' := db.(tools := tools);
    assert Valid(db) ==> Valid(db') by {
      if Valid(db) {
        StatusesReplacedValid(db, tools);
      }
    }
    db'
  }

  /* ---------------------------------------------------------------- logs */

  /** `INSERT INTO tool_execution_logs`: the id comes from the serial sequence. */
  function InsertLog(db: Db, row: ToolExecutionLog): (r: Result<Db>)
    ensures r.Ok? <==> row.mcpServerUuid.Some? ==> HasServer(db, row.mcpServerUuid.value)
    ensures r.Err? ==> r.fault == Rejected(ForeignKeyViolation)
    ensures r.Ok? ==> r.value == db.(
      logs := db.logs + [row.(id := db.nextLogId)], clock := db.clock + 1, nextLogId := db.nextLogId + 1)
    ensures Valid(db) && r.Ok? ==> Valid(r.value)
  {
    if row.mcpServerUuid.Some? && !HasServer(db, row.mcpServerUuid.value) then
      Err(Rejected(ForeignKeyViolation))
    else
      var stored := row.(id := db.nextLogId);
      var db' := db.(logs := db.logs + [stored], clock := db.clock + 1, nextLogId := db.nextLogId + 1);
      assert Valid(db) ==> Valid(db') by {
        if Valid(db) {
          forall i, j | 0 <= i < j < |db'.logs|
            ensures LogKey(db'.logs[i]) != LogKey(db'.logs[j])
          {
            if j < |db.logs| {
              assert db'.logs[i] == db.logs[i] && db'.logs[j] == db.logs[j];
            } else {
              assert db'.logs[i] in db.logs;
            }
          }
        }
      }
      Ok(db')
  }

  /* ------------------------------------------- no-action references */

  /** Something other than its own cascade still points at the profile. */
  predicate ProfileReferenced(db: Db, profileUuid: Uuid) {
    || (exists p :: p in db.projects && p.activeProfileUuid == Some(profileUuid))
    || (exists s :: s in db.mcpServers && s.profileUuid == profileUuid)
    || (exists c :: c in db.customMcpServers && c.profileUuid == profileUuid)
  }

  /** On a valid store, deleting a profile is refused exactly when a project's
      active reference, a server or a custom server still points at it. */
  lemma DeleteProfileRowRefusedIffReferenced(db: Db, profileUuid: Uuid)
    requires Valid(db)
    ensures DeleteProfileRow(db, profileUuid).Err? <==> ProfileReferenced(db, profileUuid)
  {
    var db' := ProfileDeleted(db, profileUuid);
    assert forall x :: HasProfile(db', x) <==> HasProfile(db, x) && x != profileUuid;
    if ProfileReferenced(db, profileUuid) {
      assert !ProfileRefsResolve(db');
    }
  }

  /** On a valid store, deleting a server is refused exactly when it exists in
      that profile and an execution log still refers to it. */
  lemma DeleteServerRowRefusedIffLogged(db: Db, profileUuid: Uuid, uuid: Uuid)
    requires Valid(db)
    ensures DeleteServerRow(db, profileUuid, uuid).Err? <==>
      (exists s :: s in db.mcpServers && Targets(s, profileUuid, uuid))
      && (exists l :: l in db.logs && l.mcpServerUuid == Some(uuid))
  {
    var db' := ServerDeleted(db, profileUuid, uuid);
    if exists s :: s in db.mcpServers && Targets(s, profileUuid, uuid) {
      var s :| s in db.mcpServers && Targets(s, profileUuid, uuid);
      forall q | q in db.mcpServers && q.uuid == uuid ensures q == s {
        DistinctKeyUnique(db.mcpServers, ServerKey, q, s);
      }
      assert forall x :: HasServer(db', x) <==> HasServer(db, x) && x != uuid;
      if exists l :: l in db.logs && l.mcpServerUuid == Some(uuid) {
        var l :| l in db.logs && l.mcpServerUuid == Some(uuid);
        assert !HasServer(db', uuid);
      }
    }
  }

  /** On a valid store, deleting a code is refused exactly when a custom server refers to it. */
  lemma DeleteCodeRowRefusedIffUsed(db: Db, uuid: Uuid)
    requires Valid(db)
    ensures DeleteCodeRow(db, uuid).Err? <==> exists c :: c in db.customMcpServers && c.codeUuid == uuid
  {
    var db' := CodeDeleted(db, uuid);
    assert forall x :: HasCode(db', x) <==> HasCode(db, x) && x != uuid;
  }
}

=== FILE: mcp_servers.dfy ===
/** The MCP server actions of the web interface. Every query and update is
    scoped by the profile (workspace) the caller names: a server of another
    profile is neither listed, found, changed nor deleted. */
module McpServers {
  import opened Common
  import opened Seqs
  import opened Schema
  import opened Database

  /** `ORDER BY created_at DESC`: rows with the later timestamp first. */
  function NewestFirst(): (le: (McpServer, McpServer) -> bool)
    ensures TotalPreorder(le)
    ensures forall a, b :: le(a, b) == (a.createdAt >= b.createdAt)
  {
    (a: McpServer, b: McpServer) => a.createdAt >= b.createdAt
  }

  /** The statuses the management page shows: suggested and declined rows are hidden. */
  predicate Listed(s: McpServer, profileUuid: Uuid) {
    s.profileUuid == profileUuid && (s.status == Active || s.status == Inactive)
  }

  function ListedIn(profileUuid: Uuid): McpServer -> bool {
    (s: McpServer) => Listed(s, profileUuid)
  }

  /** `getMcpServers`: the profile's active and inactive servers, newest first.
      Rows created at the same instant come in an order the query leaves open. */
  function GetMcpServers(db: Db, profileUuid: Uuid): (r: seq<McpServer>)
    ensures forall s :: s in r <==>
      s in db.mcpServers && s.profileUuid == profileUuid && (s.status == Active || s.status == Inactive)
    ensures forall s :: multiset(r)[s] == if Listed(s, profileUuid) then multiset(db.mcpServers)[s] else 0
    ensures forall i, j :: 0 <= i < j < |r| ==> r[i].createdAt >= r[j].createdAt
  {
    var listed := Filter(db.mcpServers, ListedIn(profileUuid));
    FilterMultiset(db.mcpServers, ListedIn(profileUuid));
    SortSameElements(listed, NewestFirst());
    Sort(listed, NewestFirst())
  }

  function TargetedBy(profileUuid: Uuid, uuid: Uuid): McpServer -> bool {
    (s: McpServer) => Targets(s, profileUuid, uuid)
  }

  /** `getMcpServerByUuid`: the row with this uuid in this profile, or null. */
  function GetMcpServerByUuid(db: Db, profileUuid: Uuid, uuid: Uuid): (r: Option<McpServer>)
    ensures r.Some? ==> r.value in db.mcpServers && r.value.uuid == uuid && r.value.profileUuid == profileUuid
    ensures r.None? <==> forall s :: s in db.mcpServers ==> !(s.uuid == uuid && s.profileUuid == profileUuid)
  {
    match FindFirst(db.mcpServers, TargetedBy(profileUuid, uuid))
    case Some(i) => Some(db.mcpServers[i])
    case None => None
  }

  /** On a valid store the lookup returns the one row carrying the key. */
  lemma GetMcpServerByUuidUnique(db: Db, s: McpServer)
    requires Valid(db)
    requires s in db.mcpServers
    ensures GetMcpServerByUuid(db, s.profileUuid, s.uuid) == Some(s)
  {
    var found := GetMcpServerByUuid(db, s.profileUuid, s.uuid).value;
    DistinctKeyUnique(db.mcpServers, ServerKey, found, s);
  }

  /** `deleteMcpServerByUuid`: removes the profile's row and, by cascade, its
      tools; the database refuses while an execution log names the server. */
  function DeleteMcpServerByUuid(db: Db, profileUuid: Uuid, uuid: Uuid): (r: Outcome<()>)
    ensures r.result.Err? ==> r == Outcome(db, Err(Rejected(ForeignKeyViolation)))
    ensures r.result.Ok? ==>
      && (forall s :: s in r.db.mcpServers <==>
            s in db.mcpServers && !(s.uuid == uuid && s.profileUuid == profileUuid))
      && (forall s :: s in db.mcpServers && s.profileUuid != profileUuid ==> s in r.db.mcpServers)
      && r.db == db.(mcpServers := r.db.mcpServers, tools := r.db.tools)
    ensures r.result.Ok? && (exists s :: s in db.mcpServers && Targets(s, profileUuid, uuid)) ==>
      forall t :: t in r.db.tools <==> t in db.tools && t.mcpServerUuid != uuid
    ensures (forall s :: s in db.mcpServers ==> !Targets(s, profileUuid, uuid)) ==> r.db == db
    ensures Valid(db) ==>
      (r.result.Err? <==>
        (exists s :: s in db.mcpServers && s.uuid == uuid && s.profileUuid == profileUuid)
        && (exists l :: l in db.logs && l.mcpServerUuid == Some(uuid)))
    ensures Valid(db) ==> Valid(r.db)
  {
    assert Valid(db) ==>
      (DeleteServerRow(db, profileUuid, uuid).Err? <==>
        (exists s :: s in db.mcpServers && Targets(s, profileUuid, uuid))
        && (exists l :: l in db.logs && l.mcpServerUuid == Some(uuid))) by {
      if Valid(db) {
        DeleteServerRowRefusedIffLogged(db, profileUuid, uuid);
      }
    }
    match DeleteServerRow(db, profileUuid, uuid)
    case Ok(db') => Outcome(db', Ok(()))
    case Err(f) => Outcome(db, Err(f))
  }

  /** `toggleMcpServerStatus`: sets the status of the profile's row, if any. */
  function ToggleMcpServerStatus(db: Db, profileUuid: Uuid, uuid: Uuid, newStatus: ServerStatus): (r: Outcome<()>)
    ensures r.result.Ok?
    ensures |r.db.mcpServers| == |db.mcpServers|
    ensures forall i :: 0 <= i < |db.mcpServers| ==>
      && r.db.mcpServers[i] == db.mcpServers[i].(status := r.db.mcpServers[i].status)
      && (db.mcpServers[i].uuid == uuid && db.mcpServers[i].profileUuid == profileUuid ==>
            r.db.mcpServers[i].status == newStatus)
      && (db.mcpServers[i].uuid != uuid || db.mcpServers[i].profileUuid != profileUuid ==>
            r.db.mcpServers[i] == db.mcpServers[i])
    ensures r.db == db.(mcpServers := r.db.mcpServers)
    ensures Valid(db) ==> Valid(r.db)
  {
    Outcome(SetServerStatus(db, profileUuid, uuid, newStatus), Ok(()))
  }

  /** Toggling back to the previous status restores the store exactly. */
  lemma ToggleRoundTrip(db: Db, s: McpServer, newStatus: ServerStatus)
    requires Valid(db)
    requires s in db.mcpServers
    ensures var once := ToggleMcpServerStatus(db, s.profileUuid, s.uuid, newStatus).db;
      ToggleMcpServerStatus(once, s.profileUuid, s.uuid, s.status).db == db
  {
    var once := ToggleMcpServerStatus(db, s.profileUuid, s.uuid, newStatus).db;
    var twice := ToggleMcpServerStatus(once, s.profileUuid, s.uuid, s.status).db;
    forall i | 0 <= i < |db.mcpServers| ensures twice.mcpServers[i] == db.mcpServers[i] {
      if db.mcpServers[i].uuid == s.uuid && db.mcpServers[i].profileUuid == s.profileUuid {
        DistinctKeyUnique(db.mcpServers, ServerKey, db.mcpServers[i], s);
      }
    }
  }

  /** `updateMcpServer`: the fields present in the patch replace those of the
      profile's row with this uuid, and no other row changes; the CHECK
      constraint refuses a patch that breaks the row's shape. */
  function UpdateMcpServer(db: Db, profileUuid: Uuid, uuid: Uuid, patch: ServerPatch): (r: Outcome<()>)
    ensures r.result.Ok? <==>
      forall s :: s in db.mcpServers && Targets(s, profileUuid, uuid) ==> ServerShapeOk(Patched(s, patch))
    ensures r.result.Err? ==> r == Outcome(db, Err(Rejected(CheckViolation)))
    ensures r.result.Ok? ==>
      && |r.db.mcpServers| == |db.mcpServers|
      && (forall i :: 0 <= i < |db.mcpServers| ==>
            r.db.mcpServers[i] ==
              if Targets(db.mcpServers[i], profileUuid, uuid) then Patched(db.mcpServers[i], patch)
              else db.mcpServers[i])
      && (forall s :: s in db.mcpServers && s.profileUuid != profileUuid ==> s in r.db.mcpServers)
      && r.db == db.(mcpServers := r.db.mcpServers)
    ensures Valid(db) ==> Valid(r.db)
  {
    match PatchServer(db, profileUuid, uuid, patch)
    case Ok(db') =>
      assert forall s :: s in db.mcpServers && s.profileUuid != profileUuid ==> s in db'.mcpServers by {
        forall s | s in db.mcpServers && s.profileUuid != profileUuid ensures s in db'.mcpServers {
          var i :| 0 <= i < |db.mcpServers| && db.mcpServers[i] == s;
          assert db'.mcpServers[i] == s;
        }
      }
      Outcome(db', Ok(()))
    case Err(f) => Outcome(db, Err(f))
  }

  /** After a successful update the lookup returns the patched row: the patch's
      fields, and the uuid, type, url, status and creation time it had. */
  lemma UpdateThenGet(db: Db, s: McpServer, patch: ServerPatch)
    requires Valid(db)
    requires s in db.mcpServers
    requires UpdateMcpServer(db, s.profileUuid, s.uuid, patch).result.Ok?
    ensures var after := UpdateMcpServer(db, s.profileUuid, s.uuid, patch).db;
      var got := GetMcpServerByUuid(after, s.profileUuid, s.uuid);
      && got.Some?
      && got.value.name == patch.name.GetOr(s.name)
      && got.value.command == (if patch.command.Some? then patch.command else s.command)
      && got.value.args == patch.args.GetOr(s.args)
      && got.value.env == patch.env.GetOr(s.env)
      && got.value.kind == s.kind && got.value.url == s.url
      && got.value.status == s.status && got.value.createdAt == s.createdAt
  {
    var after := UpdateMcpServer(db, s.profileUuid, s.uuid, patch).db;
    var i :| 0 <= i < |db.mcpServers| && db.mcpServers[i] == s;
    assert after.mcpServers[i] == Patched(s, patch);
    assert Valid(after);
    GetMcpServerByUuidUnique(after, after.mcpServers[i]);
  }

  /** A command cannot be given to an SSE server: the CHECK constraint refuses it. */
  lemma UpdateSseCommandRefused(db: Db, s: McpServer, patch: ServerPatch)
    requires s in db.mcpServers && s.kind == Sse
    requires patch.command.Some?
    ensures UpdateMcpServer(db, s.profileUuid, s.uuid, patch) == Outcome(db, Err(Rejected(CheckViolation)))
  {
    assert !ServerShapeOk(Patched(s, patch));
  }

  /** The fields the creation form submits; `type`, `url` and `status` travel
      with them, and the profile is set by the action. */
  datatype ServerDraft = ServerDraft(
    name: string, description: Option<string>, kind: ServerType,
    command: Option<string>, args: seq<string>, env: map<string, string>,
    url: Option<string>, status: ServerStatus)

  function DraftRow(d: ServerDraft, id: Uuid, profileUuid: Uuid, clock: nat): McpServer {
    McpServer(id, d.name, d.description, d.kind, d.command, d.args, d.env, d.url, clock, profileUuid, d.status)
  }

  /** `createMcpServer`. `id` is the uuid the column default draws. */
  function CreateMcpServer(db: Db, profileUuid: Uuid, draft: ServerDraft, id: Uuid): (r: Outcome<()>)
    ensures r.result.Ok? <==>
      && (draft.kind == Stdio ==> draft.command.Some? && draft.url.None?)
      && (draft.kind == Sse ==> draft.command.None? && draft.url.Some? && UrlCheck.UrlMatches(draft.url.value))
      && !HasServer(db, id) && HasProfile(db, profileUuid)
    ensures r.result.Err? ==> r.db == db && r.result.fault.Rejected?
    ensures r.result.Ok? ==>
      r.db == db.(mcpServers := db.mcpServers + [DraftRow(draft, id, profileUuid, db.clock)], clock := db.clock + 1)
    ensures Valid(db) ==> Valid(r.db)
  {
    match InsertServer(db, DraftRow(draft, id, profileUuid, db.clock))
    case Ok(db') => Outcome(db', Ok(()))
    case Err(f) => Outcome(db, Err(f))
  }

  /** A created server is found under its uuid, and listed when its status is shown. */
  lemma CreateThenGet(db: Db, profileUuid: Uuid, draft: ServerDraft, id: Uuid)
    requires Valid(db)
    requires CreateMcpServer(db, profileUuid, draft, id).result.Ok?
    ensures var after := CreateMcpServer(db, profileUuid, draft, id).db;
      && GetMcpServerByUuid(after, profileUuid, id) == Some(DraftRow(draft, id, profileUuid, db.clock))
      && (draft.status == Active || draft.status == Inactive ==>
            DraftRow(draft, id, profileUuid, db.clock) in GetMcpServers(after, profileUuid))
  {
    var after := CreateMcpServer(db, profileUuid, draft, id).db;
    var row := DraftRow(draft, id, profileUuid, db.clock);
    assert row == after.mcpServers[|db.mcpServers|];
    GetMcpServerByUuidUnique(after, row);
  }

  /** Creating a server adds exactly its row to the profile's listing when
      its status is shown, once, and leaves the listing's other rows as they were. */
  lemma {:induction false} CreateThenListed(db: Db, profileUuid: Uuid, draft: ServerDraft, id: Uuid)
    requires CreateMcpServer(db, profileUuid, draft, id).result.Ok?
    ensures var after := CreateMcpServer(db, profileUuid, draft, id).db;
      var row := DraftRow(draft, id, profileUuid, db.clock);
      && multiset(GetMcpServers(after, profileUuid))
         == multiset(GetMcpServers(db, profileUuid)) + (if Listed(row, profileUuid) then multiset{row} else multiset{})
      && (Listed(row, profileUuid) ==> multiset(GetMcpServers(after, profileUuid))[row] == 1)
  {
    var r := CreateMcpServer(db, profileUuid, draft, id);
    var row := DraftRow(draft, id, profileUuid, db.clock);
    assert r.db.mcpServers == db.mcpServers + [row];
    assert !HasServer(db, row.uuid);
    assert row !in db.mcpServers;
    SelectionGains(db.mcpServers, row, ListedIn(profileUuid),
                   GetMcpServers(db, profileUuid), GetMcpServers(r.db, profileUuid));
  }

  /* ---------------------------------------------------------- bulk import */

  /** One entry of an imported `mcpServers` object, in `Object.entries` order. */
  datatype ImportEntry = ImportEntry(
    name: string, command: Option<string>, args: Option<seq<string>>,
    env: Option<map<string, string>>, description: Option<string>)

  /** The row one entry becomes: the description falls back to "" (both
      absent and "" give ""), args to [] and env to {}; the type is the
      column default STDIO, the status ACTIVE. */
  function ImportRow(e: ImportEntry, id: Uuid, profileUuid: Uuid, clock: nat): McpServer {
    McpServer(id, e.name, Some(e.description.GetOr("")), Stdio, e.command,
              e.args.GetOr([]), e.env.GetOr(map[]), None, clock, profileUuid, Active)
  }

  /** The rows of the first `k` entries, each inserted one instant after the last. */
  function ImportRows(entries: seq<ImportEntry>, ids: seq<Uuid>, profileUuid: Uuid, clock: nat, k: nat): seq<McpServer>
    requires k <= |entries| && |ids| == |entries|
  {
    seq(k, i requires 0 <= i < k => ImportRow(entries[i], ids[i], profileUuid, clock + i))
  }

  /** The store after the first `k` entries went in. */
  function AfterImporting(db: Db, profileUuid: Uuid, entries: seq<ImportEntry>, ids: seq<Uuid>, k: nat): Db
    requires k <= |entries| && |ids| == |entries|
  {
    db.(mcpServers := db.mcpServers + ImportRows(entries, ids, profileUuid, db.clock, k), clock := db.clock + k)
  }

  /** The loop stopped after `k` entries: all of them when it succeeded, else
      because the insert of entry `k` was refused. */
  predicate StoppedAfter(db: Db, r: Outcome<()>, profileUuid: Uuid, entries: seq<ImportEntry>, ids: seq<Uuid>, k: nat)
    requires |ids| == |entries|
  {
    && k <= |entries|
    && r.db == AfterImporting(db, profileUuid, entries, ids, k)
    && (r.result.Ok? <==> k == |entries|)
    && (r.result.Err? ==>
          k < |entries| && InsertServer(r.db, ImportRow(entries[k], ids[k], profileUuid, r.db.clock)).Err?)
  }

  /** The import loop: one INSERT per entry, no transaction. The first refused
      insert stops the loop; the rows inserted before it stay. */
  function ImportAll(db: Db, profileUuid: Uuid, entries: seq<ImportEntry>, ids: seq<Uuid>): (r: Outcome<()>)
    requires |ids| == |entries|
    ensures exists k :: StoppedAfter(db, r, profileUuid, entries, ids, k)
    ensures r.result.Err? ==> r.result.fault.Rejected?
    ensures Valid(db) ==> Valid(r.db)
    decreases |entries|
  {
    if entries == [] then
      assert StoppedAfter(db, Outcome(db, Ok(())), profileUuid, entries, ids, 0) by {
        assert AfterImporting(db, profileUuid, entries, ids, 0) == db;
      }
      Outcome(db, Ok(()))
    else
      var row := ImportRow(entries[0], ids[0], profileUuid, db.clock);
      match InsertServer(db, row)
      case Err(f) =>
        assert StoppedAfter(db, Outcome(db, Err(f)), profileUuid, entries, ids, 0) by {
          assert AfterImporting(db, profileUuid, entries, ids, 0) == db;
        }
        Outcome(db, Err(f))
      case Ok(db1) =>
        var r := ImportAll(db1, profileUuid, entries[1..], ids[1..]);
        var k :| StoppedAfter(db1, r, profileUuid, entries[1..], ids[1..], k);
        StoppedOneLater(db, db1, r, profileUuid, entries, ids, k);
        r
  }

  /** A run over the tail after a successful first insert is a run over the whole list. */
  lemma StoppedOneLater(db: Db, db1: Db, r: Outcome<()>, profileUuid: Uuid, entries: seq<ImportEntry>, ids: seq<Uuid>, k: nat)
    requires |ids| == |entries| && |entries| > 0
    requires InsertServer(db, ImportRow(entries[0], ids[0], profileUuid, db.clock)) == Ok(db1)
    requires StoppedAfter(db1, r, profileUuid, entries[1..], ids[1..], k)
    ensures StoppedAfter(db, r, profileUuid, entries, ids, k + 1)
  {
    var row := ImportRow(entries[0], ids[0], profileUuid, db.clock);
    assert [row] + ImportRows(entries[1..], ids[1..], profileUuid, db1.clock, k)
        == ImportRows(entries, ids, profileUuid, db.clock, k + 1);
    assert db.mcpServers + ImportRows(entries, ids, profileUuid, db.clock, k + 1)
        == db1.mcpServers + ImportRows(entries[1..], ids[1..], profileUuid, db1.clock, k);
  }

  /** `bulkImportMcpServers`: refuses without a workspace; otherwise inserts one
      ACTIVE STDIO server per entry and reports how many entries it was given. */
  function BulkImportMcpServers(db: Db, entries: seq<ImportEntry>, profileUuid: Option<Uuid>, ids: seq<Uuid>): (r: Outcome<nat>)
    requires |ids| == |entries|
    ensures !Truthy(profileUuid) ==> r == Outcome(db, Err(Thrown("Current workspace not found")))
    ensures r.result.Ok? ==>
      && Truthy(profileUuid)
      && r.result.value == |entries|
      && r.db == AfterImporting(db, profileUuid.value, entries, ids, |entries|)
    ensures r.result.Err? && Truthy(profileUuid) ==>
      exists k :: StoppedAfter(db, Outcome(r.db, Err(r.result.fault)), profileUuid.value, entries, ids, k)
    ensures Valid(db) ==> Valid(r.db)
  {
    if !Truthy(profileUuid) then Outcome(db, Err(Thrown("Current workspace not found")))
    else
      var r := ImportAll(db, profileUuid.value, entries, ids);
      match r.result
      case Ok(_) => Outcome(r.db, Ok(|entries|))
      case Err(f) => Outcome(r.db, Err(f))
  }

  /** After a successful import every entry is listed for the workspace as an
      ACTIVE STDIO server under its key, with the configured command. */
  lemma BulkImportListsEveryEntry(db: Db, entries: seq<ImportEntry>, profileUuid: Uuid, ids: seq<Uuid>, i: nat)
    requires |ids| == |entries|
    requires i < |entries|
    requires BulkImportMcpServers(db, entries, Some(profileUuid), ids).result.Ok?
    ensures var after := BulkImportMcpServers(db, entries, Some(profileUuid), ids).db;
      exists s :: s in GetMcpServers(after, profileUuid)
        && s.uuid == ids[i] && s.name == entries[i].name && s.command == entries[i].command
        && s.kind == Stdio && s.status == Active
  {
    var after := BulkImportMcpServers(db, entries, Some(profileUuid), ids).db;
    var s := after.mcpServers[|db.mcpServers| + i];
    assert s == ImportRow(entries[i], ids[i], profileUuid, db.clock + i);
    assert s in after.mcpServers;
  }

  /** An entry without a command stops the import there: the STDIO row it
      would become breaks the CHECK constraint. */
  lemma {:induction false} ImportStopsAtMissingCommand(db: Db, profileUuid: Uuid, entries: seq<ImportEntry>, ids: seq<Uuid>, i: nat)
    requires |ids| == |entries|
    requires i < |entries| && entries[i].command.None?
    ensures ImportAll(db, profileUuid, entries, ids).result.Err?
    decreases |entries|
  {
    var row := ImportRow(entries[0], ids[0], profileUuid, db.clock);
    match InsertServer(db, row)
    case Err(_) =>
    case Ok(db1) =>
      assert i > 0;
      ImportStopsAtMissingCommand(db1, profileUuid, entries[1..], ids[1..], i - 1);
  }

  lemma BulkImportStopsAtMissingCommand(db: Db, entries: seq<ImportEntry>, profileUuid: Uuid, ids: seq<Uuid>, i: nat)
    requires |ids| == |entries|
    requires i < |entries| && entries[i].command.None?
    requires profileUuid != ""
    ensures BulkImportMcpServers(db, entries, Some(profileUuid), ids).result.Err?
  {
    ImportStopsAtMissingCommand(db, profileUuid, entries, ids, i);
  }
}

=== FILE: mcp_servers_route.dfy ===
/** `/api/mcp-servers`: the proxy's view of the servers of the active profile
    of the project an api key belongs to. */
module McpServersRoute {
  import opened Common
  import opened Schema
  import opened Database
  import opened Auth
  import McpServers

  const FetchFailed: string := "Failed to fetch active MCP servers"
  const CreateFailed: string := "Failed to create MCP server"

  function IsActiveIn(profileUuid: Uuid): McpServer -> bool {
    (s: McpServer) => s.status == Active && s.profileUuid == profileUuid
  }

  /** GET: the ACTIVE servers of the active profile, each as often as the
      table holds it (the query has no ORDER BY). `profileId` is the uuid a
      default profile would receive. */
  function GetActiveServers(db: Db, header: Option<string>, profileId: Uuid): (r: Reply<seq<McpServer>>)
    ensures var a := Authenticate(db, header, profileId);
      && r.db == a.db
      && (a.outcome.Denied? ==> r.response == ErrorBody(401, a.outcome.message, None))
      && (a.outcome.AuthThrew? ==> r.response == ErrorBody(500, FetchFailed, None))
      && (a.outcome.Authenticated? ==>
            && r.response.Body?
            && (forall s :: s in r.response.value <==>
                  s in a.db.mcpServers && s.status == Active && s.profileUuid == a.outcome.activeProfile.uuid)
            && forall s :: multiset(r.response.value)[s] ==
                 (if s.status == Active && s.profileUuid == a.outcome.activeProfile.uuid
                  then multiset(a.db.mcpServers)[s] else 0))
    ensures Valid(db) ==> Valid(r.db)
  {
    var a := Authenticate(db, header, profileId);
    match a.outcome
    case Authenticated(_, profile) =>
      Seqs.FilterMultiset(a.db.mcpServers, IsActiveIn(profile.uuid));
      Reply(a.db, Body(Seqs.Filter(a.db.mcpServers, IsActiveIn(profile.uuid))))
    case _ => Reply(a.db, Refusal(a.outcome, FetchFailed))
  }

  /** What the proxy sees is a part of what the management page lists for
      the same profile: ACTIVE is one of the two statuses the page shows. */
  lemma ActiveServersAreListed(db: Db, header: Option<string>, profileId: Uuid, s: McpServer)
    requires Authenticate(db, header, profileId).outcome.Authenticated?
    requires GetActiveServers(db, header, profileId).response.Body?
    requires s in GetActiveServers(db, header, profileId).response.value
    ensures var a := Authenticate(db, header, profileId);
      s in McpServers.GetMcpServers(a.db, a.outcome.activeProfile.uuid)
  {
  }

  /** The JSON body of a POST; None is a field the body leaves out. The route
      reads no `type` or `url`. */
  datatype ServerBody = ServerBody(
    uuid: Option<Uuid>, name: Option<string>, description: Option<string>,
    command: Option<string>, args: Option<seq<string>>,
    env: Option<map<string, string>>, status: Option<string>)

  /** The row the INSERT builds from the body, with the column defaults for
      the fields it leaves out. An unknown status label and a missing name are
      refused before the row exists. */
  function BodyRow(body: ServerBody, profileUuid: Uuid, id: Uuid, clock: nat): (r: Result<McpServer>)
    ensures r.Ok? <==>
      body.name.Some? && (body.status.Some? ==> ParseServerStatus(body.status.value).Some?)
    ensures r.Ok? ==>
      && r.value.uuid == body.uuid.GetOr(id)
      && r.value.name == body.name.value
      && r.value.description == body.description
      && r.value.kind == Stdio && r.value.url.None? && r.value.command == body.command
      && r.value.args == body.args.GetOr([]) && r.value.env == body.env.GetOr(map[])
      && r.value.profileUuid == profileUuid && r.value.createdAt == clock
      && (body.status.None? ==> r.value.status == Active)
      && (body.status.Some? ==> r.value.status.Label() == body.status.value)
  {
    var status := if body.status.Some? then ParseServerStatus(body.status.value) else Some(Active);
    if status.None? then Err(Rejected(InvalidEnumValue))
    else if body.name.None? then Err(Rejected(NotNullViolation))
    else
      Ok(McpServer(body.uuid.GetOr(id), body.name.value, body.description, Stdio, body.command,
                   body.args.GetOr([]), body.env.GetOr(map[]), None, clock, profileUuid, status.value))
  }

  /** POST: inserts the body's server into the active profile, whatever
      profile the caller might have meant, and returns the stored row.
      `serverId` is the uuid the column default draws when the body has none. */
  function PostServer(db: Db, header: Option<string>, profileId: Uuid, serverId: Uuid, body: ServerBody): (r: Reply<McpServer>)
    ensures var a := Authenticate(db, header, profileId);
      && (a.outcome.Denied? ==> r == Reply(a.db, ErrorBody(401, a.outcome.message, None)))
      && (a.outcome.AuthThrew? ==> r == Reply(a.db, ErrorBody(500, CreateFailed, None)))
      && (a.outcome.Authenticated? ==>
            && (r.response.Body? <==>
                  && body.name.Some? && body.command.Some?
                  && (body.status.Some? ==> ParseServerStatus(body.status.value).Some?)
                  && !HasServer(a.db, body.uuid.GetOr(serverId))
                  && HasProfile(a.db, a.outcome.activeProfile.uuid))
            && (r.response.Body? ==>
                  && BodyRow(body, a.outcome.activeProfile.uuid, serverId, a.db.clock).Ok?
                  && r.response.value == BodyRow(body, a.outcome.activeProfile.uuid, serverId, a.db.clock).value
                  && r.db == a.db.(mcpServers := a.db.mcpServers + [r.response.value], clock := a.db.clock + 1))
            && (r.response.ErrorBody? ==> r == Reply(a.db, ErrorBody(500, CreateFailed, None))))
    ensures Valid(db) ==> Valid(r.db)
  {
    var a := Authenticate(db, header, profileId);
    match a.outcome
    case Authenticated(_, profile) =>
      (match BodyRow(body, profile.uuid, serverId, a.db.clock)
       case Err(_) => Reply(a.db, ErrorBody(500, CreateFailed, None))
       case Ok(row) =>
         match InsertServer(a.db, row)
         case Ok(db') => Reply(db', Body(row))
         case Err(_) => Reply(a.db, ErrorBody(500, CreateFailed, None)))
    case _ => Reply(a.db, Refusal(a.outcome, CreateFailed))
  }
}

=== FILE: profile_capabilities_route.dfy ===
/** `/api/profile-capabilities`: the capabilities enabled on the active
    profile of the api key's project. */
module ProfileCapabilitiesRoute {
  import opened Common
  import opened Seqs
  import opened Schema
  import opened Database
  import opened Auth

  const ProfileNotFound: string := "Profile not found"
  const FetchFailed: string := "Failed to fetch profile capabilities"
  const NotFound: nat := 404

  function WithUuid(uuid: Uuid): Profile -> bool {
    (p: Profile) => p.uuid == uuid
  }

  /** GET: the `enabled_capabilities` of the first profile row carrying the
      active profile's uuid, or 404 when there is none. */
  function GetCapabilities(db: Db, header: Option<string>, profileId: Uuid): (r: Reply<seq<Capability>>)
    ensures var a := Authenticate(db, header, profileId);
      && r.db == a.db
      && (!a.outcome.Authenticated? ==> r.response == Refusal(a.outcome, FetchFailed))
      && (a.outcome.Authenticated? ==>
            && (r.response == ErrorBody(NotFound, ProfileNotFound, None) <==> !HasProfile(a.db, a.outcome.activeProfile.uuid))
            && (r.response.Body? ==> exists p :: p in a.db.profiles && p.uuid == a.outcome.activeProfile.uuid
                                                && r.response.value == p.enabledCapabilities))
    ensures Valid(db) ==> Valid(r.db)
  {
    var a := Authenticate(db, header, profileId);
    match a.outcome
    case Authenticated(_, profile) =>
      (match FindFirst(a.db.profiles, WithUuid(profile.uuid))
       case None => Reply(a.db, ErrorBody(NotFound, ProfileNotFound, None))
       case Some(i) =>
         assert a.db.profiles[i] in a.db.profiles;
         Reply(a.db, Body(a.db.profiles[i].enabledCapabilities)))
    case _ => Reply(a.db, Refusal(a.outcome, FetchFailed))
  }

  /** The 404 cannot happen, since the resolver hands back a stored profile;
      on a valid store the reply is exactly that profile's capabilities. */
  lemma CapabilitiesOfActiveProfile(db: Db, header: Option<string>, profileId: Uuid)
    requires Valid(db)
    requires Authenticate(db, header, profileId).outcome.Authenticated?
    ensures var a := Authenticate(db, header, profileId);
      GetCapabilities(db, header, profileId).response == Body(a.outcome.activeProfile.enabledCapabilities)
  {
    var a := Authenticate(db, header, profileId);
    var profile := a.outcome.activeProfile;
    assert Valid(a.db);
    assert profile in a.db.profiles;
    var i := FindFirst(a.db.profiles, WithUuid(profile.uuid)).value;
    DistinctKeyUnique(a.db.profiles, ProfileKey, a.db.profiles[i], profile);
  }
}

=== FILE: profiles.dfy ===
/** The profile actions: a profile (workspace) belongs to a project, and each
    project names one profile as active. `GetProjectActiveProfile` is the
    scope resolver the API routes rely on: it repairs a missing or dangling
    active reference and creates a default profile when a project has none. */
module Profiles {
  import opened Common
  import opened Seqs
  import opened Schema
  import opened Database

  const DefaultProfileName: string := "Default Workspace"

  /** `createProfile`: one new profile for the project, no capabilities. */
  function CreateProfile(db: Db, projectUuid: Uuid, name: string, id: Uuid): (r: Outcome<Profile>)
    ensures r.result.Ok? <==> !HasProfile(db, id) && HasProject(db, projectUuid)
    ensures r.result.Ok? ==>
      && r.result.value == Profile(id, name, projectUuid, [], db.clock)
      && r.db.profiles == db.profiles + [r.result.value]
      && r.db == db.(profiles := r.db.profiles, clock := db.clock + 1)
    ensures r.result.Err? ==> r.db == db
    ensures Valid(db) ==> Valid(r.db)
  {
    var row := Profile(id, name, projectUuid, [], db.clock);
    match InsertProfile(db, row)
    case Ok(db') => Outcome(db', Ok(row))
    case Err(f) => Outcome(db, Err(f))
  }

  /** `getProfile` (and `setActiveProfile`, which performs the same lookup). */
  function GetProfile(db: Db, profileUuid: Uuid): (r: Result<Profile>)
    ensures r.Ok? <==> HasProfile(db, profileUuid)
    ensures r.Ok? ==> r.value in db.profiles && r.value.uuid == profileUuid
    ensures r.Err? ==> r.fault == Thrown("Profile not found")
  {
    match LookupProfile(db, profileUuid)
    case Some(p) => Ok(p)
    case None => Err(Thrown("Profile not found"))
  }

  function OwnedBy(projectUuid: Uuid): Profile -> bool {
    (p: Profile) => p.projectUuid == projectUuid
  }

  /** `getProfiles`: the project's profiles, each as often as the table
      holds it (the query has no ORDER BY). */
  function GetProfiles(db: Db, projectUuid: Uuid): (r: seq<Profile>)
    ensures forall p :: p in r <==> p in db.profiles && p.projectUuid == projectUuid
    ensures forall p :: multiset(r)[p] == if p.projectUuid == projectUuid then multiset(db.profiles)[p] else 0
  {
    FilterMultiset(db.profiles, OwnedBy(projectUuid));
    Filter(db.profiles, OwnedBy(projectUuid))
  }

  /** The project's active reference names a profile that exists. */
  predicate ActiveResolves(db: Db, project: Project) {
    project.activeProfileUuid.Some? && HasProfile(db, project.activeProfileUuid.value)
  }

  /** `getProjectActiveProfile`. `id` is the uuid drawn for a default profile,
      used only when the project owns no profile. The three statements are
      separate (no transaction). */
  function GetProjectActiveProfile(db: Db, projectUuid: Uuid, id: Uuid): (r: Outcome<Profile>)
    ensures !HasProject(db, projectUuid) ==> r == Outcome(db, Err(Thrown("Project not found")))
    ensures r.result.Ok? ==>
      && r.result.value in r.db.profiles
      && exists p :: p in r.db.projects && p.uuid == projectUuid && p.activeProfileUuid == Some(r.result.value.uuid)
    ensures r.db == db.(projects := r.db.projects, profiles := r.db.profiles, clock := r.db.clock)
    ensures Valid(db) ==> Valid(r.db)
  {
    match LookupProject(db, projectUuid)
    case None => Outcome(db, Err(Thrown("Project not found")))
    case Some(project) =>
      if ActiveResolves(db, project) then
        Outcome(db, Ok(LookupProfile(db, project.activeProfileUuid.value).value))
      else
        var owned := GetProfiles(db, projectUuid);
        if |owned| > 0 then
          assert owned[0] in owned;
          match SetProjectActive(db, projectUuid, owned[0].uuid)
          case Ok(db') =>
            ActivePointsAt(db, db', projectUuid, owned[0].uuid);
            Outcome(db', Ok(owned[0]))
          case Err(f) => Outcome(db, Err(f))
        else
          match CreateProfile(db, projectUuid, DefaultProfileName, id)
          case Outcome(db1, Err(f)) => Outcome(db1, Err(f))
          case Outcome(db1, Ok(profile)) =>
            assert profile in db1.profiles;
            match SetProjectActive(db1, projectUuid, profile.uuid)
            case Ok(db2) =>
              ActivePointsAt(db1, db2, projectUuid, profile.uuid);
              Outcome(db2, Ok(profile))
            case Err(f) => Outcome(db1, Err(f))
  }

  /** After a successful active-reference update the project exists and points at the profile. */
  lemma ActivePointsAt(db: Db, db': Db, projectUuid: Uuid, profileUuid: Uuid)
    requires HasProject(db, projectUuid)
    requires SetProjectActive(db, projectUuid, profileUuid) == Ok(db')
    ensures exists p :: p in db'.projects && p.uuid == projectUuid && p.activeProfileUuid == Some(profileUuid)
  {
    var q :| q in db.projects && q.uuid == projectUuid;
    var i :| 0 <= i < |db.projects| && db.projects[i] == q;
    assert db'.projects[i] in db'.projects;
  }

  /** The three ways the resolver can succeed, distinguished by the store it
      is given: an active reference that resolves is returned with nothing
      written; else the project's first profile becomes active; else a
      "Default Workspace" profile is created and becomes active. */
  lemma GetProjectActiveProfileCases(db: Db, projectUuid: Uuid, id: Uuid)
    requires Valid(db)
    requires HasProject(db, projectUuid)
    ensures var r := GetProjectActiveProfile(db, projectUuid, id);
      var project := LookupProject(db, projectUuid).value;
      var owned := GetProfiles(db, projectUuid);
      && (ActiveResolves(db, project) ==>
            r.db == db && r.result.Ok? && r.result.value.uuid == project.activeProfileUuid.value)
      && (!ActiveResolves(db, project) && |owned| > 0 ==>
            r.result == Ok(owned[0]) && r.db.profiles == db.profiles)
      && (!ActiveResolves(db, project) && |owned| == 0 ==>
            (r.result.Ok? <==> !HasProfile(db, id))
            && (r.result.Ok? ==>
                  r.result.value == Profile(id, DefaultProfileName, projectUuid, [], db.clock)
                  && r.db.profiles == db.profiles + [r.result.value]))
  {
    var project := LookupProject(db, projectUuid).value;
    var owned := GetProfiles(db, projectUuid);
    if ActiveResolves(db, project) {
    } else if |owned| > 0 {
      assert owned[0] in db.profiles;
    } else {
    }
  }

  /** Once resolved, resolving again returns the same profile and writes
      nothing, on any store that agrees on projects and profiles. */
  lemma GetProjectActiveProfileStable(db: Db, projectUuid: Uuid, id: Uuid, id2: Uuid, later: Db)
    requires Valid(db)
    requires GetProjectActiveProfile(db, projectUuid, id).result.Ok?
    requires var db1 := GetProjectActiveProfile(db, projectUuid, id).db;
      later.projects == db1.projects && later.profiles == db1.profiles
    ensures GetProjectActiveProfile(later, projectUuid, id2) == Outcome(later, GetProjectActiveProfile(db, projectUuid, id).result)
  {
    var first := GetProjectActiveProfile(db, projectUuid, id);
    var db1 := first.db;
    var profile := first.result.value;
    assert Valid(db1);
    var p :| p in db1.projects && p.uuid == projectUuid && p.activeProfileUuid == Some(profile.uuid);
    var project := LookupProject(later, projectUuid).value;
    DistinctKeyUnique(db1.projects, ProjectKey, p, project);
    var found := LookupProfile(later, profile.uuid).value;
    DistinctKeyUnique(db1.profiles, ProfileKey, found, profile);
  }

  /** Once resolved, resolving again returns the same profile and writes nothing. */
  lemma GetProjectActiveProfileIdempotent(db: Db, projectUuid: Uuid, id: Uuid, id2: Uuid)
    requires Valid(db)
    requires GetProjectActiveProfile(db, projectUuid, id).result.Ok?
    ensures var first := GetProjectActiveProfile(db, projectUuid, id);
      GetProjectActiveProfile(first.db, projectUuid, id2) == Outcome(first.db, first.result)
  {
    GetProjectActiveProfileStable(db, projectUuid, id, id2, GetProjectActiveProfile(db, projectUuid, id).db);
  }

  /** `setProfileActive`: the project's active reference becomes `profileUuid`,
      whichever project owns that profile; only the database's foreign key
      stands in the way of a profile that does not exist. */
  function SetProfileActive(db: Db, projectUuid: Uuid, profileUuid: Uuid): (r: Outcome<()>)
    ensures !HasProject(db, projectUuid) ==> r == Outcome(db, Err(Thrown("Project not found")))
    ensures HasProject(db, projectUuid) ==>
      (r.result.Ok? <==> HasProfile(db, profileUuid))
      && (r.result.Err? ==> r == Outcome(db, Err(Rejected(ForeignKeyViolation))))
    ensures r.result.Ok? ==>
      && |r.db.projects| == |db.projects|
      && (forall i :: 0 <= i < |db.projects| ==>
            r.db.projects[i] ==
              if db.projects[i].uuid == projectUuid
              then db.projects[i].(activeProfileUuid := Some(profileUuid))
              else db.projects[i])
      && r.db == db.(projects := r.db.projects)
    ensures Valid(db) ==> Valid(r.db)
  {
    if !HasProject(db, projectUuid) then Outcome(db, Err(Thrown("Project not found")))
    else
      match SetProjectActive(db, projectUuid, profileUuid)
      case Ok(db') => Outcome(db', Ok(()))
      case Err(f) => Outcome(db, Err(f))
  }

  /** `updateProfileName`: renames one profile and returns the updated row. */
  function UpdateProfileName(db: Db, profileUuid: Uuid, name: string): (r: Outcome<Profile>)
    ensures !HasProfile(db, profileUuid) ==> r == Outcome(db, Err(Thrown("Profile not found")))
    ensures HasProfile(db, profileUuid) ==>
      && r.result.Ok? && r.result.value.uuid == profileUuid && r.result.value.name == name
      && r.result.value in r.db.profiles
    ensures r.result.Ok? ==>
      && |r.db.profiles| == |db.profiles|
      && (forall i :: 0 <= i < |db.profiles| ==>
            r.db.profiles[i] == db.profiles[i].(name := r.db.profiles[i].name)
            && (db.profiles[i].uuid != profileUuid ==> r.db.profiles[i] == db.profiles[i]))
      && r.db == db.(profiles := r.db.profiles)
    ensures Valid(db) ==> Valid(r.db)
  {
    match LookupProfile(db, profileUuid)
    case None => Outcome(db, Err(Thrown("Profile not found")))
    case Some(p) =>
      var db' := RenameProfile(db, profileUuid, name);
      var i :| 0 <= i < |db.profiles| && db.profiles[i] == p;
      assert db'.profiles[i] in db'.profiles;
      Outcome(db', Ok(p.(name := name)))
  }

  /** `deleteProfile`: the last-profile guard counts the whole table, not the
      profiles of one project. */
  function DeleteProfile(db: Db, profileUuid: Uuid): (r: Outcome<()>)
    ensures !HasProfile(db, profileUuid) ==> r == Outcome(db, Err(Thrown("Profile not found")))
    ensures HasProfile(db, profileUuid) && |db.profiles| == 1 ==>
      r == Outcome(db, Err(Thrown("Cannot delete the last profile")))
    ensures HasProfile(db, profileUuid) && |db.profiles| != 1 ==>
      match DeleteProfileRow(db, profileUuid)
      case Ok(db') => r == Outcome(db', Ok(()))
      case Err(f) => r == Outcome(db, Err(f))
    ensures r.result.Ok? ==>
      forall p :: p in r.db.profiles <==> p in db.profiles && p.uuid != profileUuid
    ensures Valid(db) ==> Valid(r.db)
  {
    if !HasProfile(db, profileUuid) then Outcome(db, Err(Thrown("Profile not found")))
    else if |db.profiles| == 1 then Outcome(db, Err(Thrown("Cannot delete the last profile")))
    else
      match DeleteProfileRow(db, profileUuid)
      case Ok(db') => Outcome(db', Ok(()))
      case Err(f) => Outcome(db, Err(f))
  }

  /** Deleting a project's active profile never succeeds: the active reference
      is a no-action foreign key. */
  lemma DeleteActiveProfileRefused(db: Db, project: Project)
    requires Valid(db)
    requires project in db.projects && project.activeProfileUuid.Some?
    ensures DeleteProfile(db, project.activeProfileUuid.value).result.Err?
  {
    DeleteProfileRowRefusedIffReferenced(db, project.activeProfileUuid.value);
  }
}

=== FILE: projects.dfy ===
/** The project actions. A project is created together with its default
    profile inside one transaction; `GetProjects` guarantees a store with at
    least one project. */
module Projects {
  import opened Common
  import opened Seqs
  import opened Schema
  import opened Database
  import Profiles

  const DefaultProjectName: string := "Default Project"

  /** `createProject`: insert the project with no active profile, insert its
      "Default Workspace" profile, point the project at it. All three run in
      one transaction, so a failure leaves the store untouched, and all rows
      share the transaction's `now()`. */
  function CreateProject(db: Db, name: string, projectId: Uuid, profileId: Uuid): (r: Outcome<Project>)
    ensures r.result.Ok? <==> !HasProject(db, projectId) && !HasProfile(db, profileId)
    ensures r.result.Err? ==> r.db == db
    ensures r.result.Ok? ==>
      && r.result.value == Project(projectId, name, db.clock, Some(profileId))
      && r.db.projects == db.projects + [r.result.value]
      && r.db.profiles == db.profiles + [Profile(profileId, Profiles.DefaultProfileName, projectId, [], db.clock)]
      && r.db == db.(projects := r.db.projects, profiles := r.db.profiles, clock := db.clock + 2)
    ensures Valid(db) ==> Valid(r.db)
  {
    var project := Project(projectId, name, db.clock, None);
    var profile := Profile(profileId, Profiles.DefaultProfileName, projectId, [], db.clock);
    match InsertProject(db, project)
    case Err(f) => Outcome(db, Err(f))
    case Ok(db1) =>
      assert HasProject(db1, projectId) by { assert project in db1.projects; }
      assert HasProfile(db1, profileId) <==> HasProfile(db, profileId);
      match InsertProfile(db1, profile)
      case Err(f) => Outcome(db, Err(f))
      case Ok(db2) =>
        assert HasProfile(db2, profileId) by { assert profile in db2.profiles; }
        match SetProjectActive(db2, projectId, profileId)
        case Err(f) => Outcome(db, Err(f))
        case Ok(db3) =>
          var n := |db.projects|;
          assert db2.projects == db.projects + [project];
          forall i | 0 <= i < n ensures db3.projects[i] == db.projects[i] {
            assert db2.projects[i] == db.projects[i] && db.projects[i] in db.projects;
          }
          assert db3.projects[n] == project.(activeProfileUuid := Some(profileId));
          assert db3.projects == db.projects + [project.(activeProfileUuid := Some(profileId))];
          Outcome(db3, Ok(project.(activeProfileUuid := Some(profileId))))
  }

  /** A new project resolves to its default profile without further writes. */
  lemma CreatedProjectResolvesToDefault(db: Db, name: string, projectId: Uuid, profileId: Uuid, id: Uuid)
    requires Valid(db)
    requires CreateProject(db, name, projectId, profileId).result.Ok?
    ensures var db' := CreateProject(db, name, projectId, profileId).db;
      var r := Profiles.GetProjectActiveProfile(db', projectId, id);
      r.db == db' && r.result == Ok(Profile(profileId, Profiles.DefaultProfileName, projectId, [], db.clock))
  {
    var db' := CreateProject(db, name, projectId, profileId).db;
    var project := CreateProject(db, name, projectId, profileId).result.value;
    var profile := Profile(profileId, Profiles.DefaultProfileName, projectId, [], db.clock);
    assert project in db'.projects && profile in db'.profiles;
    var found := LookupProject(db', projectId).value;
    DistinctKeyUnique(db'.projects, ProjectKey, found, project);
    var active := LookupProfile(db', profileId).value;
    DistinctKeyUnique(db'.profiles, ProfileKey, active, profile);
  }

  /** `getProject` (and `setActiveProject`, which performs the same lookup). */
  function GetProject(db: Db, projectUuid: Uuid): (r: Result<Project>)
    ensures r.Ok? <==> HasProject(db, projectUuid)
    ensures r.Ok? ==> r.value in db.projects && r.value.uuid == projectUuid
    ensures r.Err? ==> r.fault == Thrown("Project not found")
  {
    match LookupProject(db, projectUuid)
    case Some(p) => Ok(p)
    case None => Err(Thrown("Project not found"))
  }

  /** `getProjects`: every project; an empty table first gets "Default Project". */
  function GetProjects(db: Db, projectId: Uuid, profileId: Uuid): (r: Outcome<seq<Project>>)
    ensures |db.projects| > 0 ==> r == Outcome(db, Ok(db.projects))
    ensures r.result.Ok? ==> r.result.value == r.db.projects
    ensures Valid(db) ==> Valid(r.db)
  {
    if |db.projects| > 0 then Outcome(db, Ok(db.projects))
    else
      var created := CreateProject(db, DefaultProjectName, projectId, profileId);
      match created.result
      case Ok(project) => Outcome(created.db, Ok([project]))
      case Err(f) => Outcome(created.db, Err(f))
  }

  /** On a valid store `getProjects` always succeeds with at least one project. */
  lemma GetProjectsNeverEmpty(db: Db, projectId: Uuid, profileId: Uuid)
    requires Valid(db)
    ensures GetProjects(db, projectId, profileId).result.Ok?
    ensures |GetProjects(db, projectId, profileId).result.value| > 0
  {
  }

  /** `updateProjectName`: renames one project and returns the updated row. */
  function UpdateProjectName(db: Db, projectUuid: Uuid, name: string): (r: Outcome<Project>)
    ensures !HasProject(db, projectUuid) ==> r == Outcome(db, Err(Thrown("Project not found")))
    ensures HasProject(db, projectUuid) ==>
      && r.result.Ok? && r.result.value.uuid == projectUuid && r.result.value.name == name
      && r.result.value in r.db.projects
    ensures r.result.Ok? ==>
      && |r.db.projects| == |db.projects|
      && (forall i :: 0 <= i < |db.projects| ==>
            r.db.projects[i] == db.projects[i].(name := r.db.projects[i].name)
            && (db.projects[i].uuid != projectUuid ==> r.db.projects[i] == db.projects[i]))
      && r.db == db.(projects := r.db.projects)
    ensures Valid(db) ==> Valid(r.db)
  {
    match LookupProject(db, projectUuid)
    case None => Outcome(db, Err(Thrown("Project not found")))
    case Some(p) =>
      var db' := RenameProject(db, projectUuid, name);
      var i :| 0 <= i < |db.projects| && db.projects[i] == p;
      assert db'.projects[i] in db'.projects;
      Outcome(db', Ok(p.(name := name)))
  }

  /** `deleteProject`: refuses an unknown id and the last project; the
      database then cascades to the project's profiles and api keys. */
  function DeleteProject(db: Db, projectUuid: Uuid): (r: Outcome<()>)
    ensures !HasProject(db, projectUuid) ==> r == Outcome(db, Err(Thrown("Project not found")))
    ensures HasProject(db, projectUuid) && |db.projects| == 1 ==>
      r == Outcome(db, Err(Thrown("Cannot delete the last project")))
    ensures HasProject(db, projectUuid) && |db.projects| != 1 ==>
      match DeleteProjectRow(db, projectUuid)
      case Ok(db') => r == Outcome(db', Ok(()))
      case Err(f) => r == Outcome(db, Err(f))
    ensures r.result.Ok? ==>
      && (forall p :: p in r.db.projects <==> p in db.projects && p.uuid != projectUuid)
      && (forall p :: p in r.db.profiles <==> p in db.profiles && p.projectUuid != projectUuid)
      && (forall k :: k in r.db.apiKeys <==> k in db.apiKeys && k.projectUuid != projectUuid)
    ensures Valid(db) ==> Valid(r.db)
  {
    if !HasProject(db, projectUuid) then Outcome(db, Err(Thrown("Project not found")))
    else if |db.projects| == 1 then Outcome(db, Err(Thrown("Cannot delete the last project")))
    else
      match DeleteProjectRow(db, projectUuid)
      case Ok(db') => Outcome(db', Ok(()))
      case Err(f) => Outcome(db, Err(f))
  }
}

=== FILE: refresh_sse_tools.dfy ===
/** `refreshSseTools`: asks an SSE server for its tools and upserts them into
    the catalog. The MCP client session is outside the model: the listing
    it returns, or the error it throws, is a parameter. */
module RefreshSseTools {
  import opened Common
  import opened Schema
  import opened Database
  import opened ToolCatalog

  const ServerNotFound: string := "MCP server not found"
  const NotSse: string := "MCP server is not an SSE server"
  const UrlNotSet: string := "MCP server URL is not set"

  /** One entry of the server's `tools/list` answer. */
  datatype ListedTool = ListedTool(name: string, description: Option<string>, inputSchema: Json)

  /** The catalog drafts for a listing: every tool is attached to the server. */
  function DraftsFor(listed: seq<ListedTool>, serverUuid: Uuid): (r: seq<ToolDraft>)
    ensures |r| == |listed|
    ensures forall i :: 0 <= i < |r| ==>
      r[i] == ToolDraft(listed[i].name, listed[i].description, listed[i].inputSchema, serverUuid)
  {
    seq(|listed|, i requires 0 <= i < |listed| =>
      ToolDraft(listed[i].name, listed[i].description, listed[i].inputSchema, serverUuid))
  }

  /** The server exists, speaks SSE and has a url: the guards before the
      session is opened all pass. */
  predicate SseReady(db: Db, serverUuid: Uuid) {
    HasServer(db, serverUuid) && LookupServer(db, serverUuid).value.kind == Sse
    && Truthy(LookupServer(db, serverUuid).value.url)
  }

  /** The result object: how many rows the upsert returned, and those rows. */
  datatype Refresh = Refresh(count: nat, tools: seq<Tool>)

  /** `refreshSseTools`. `discovered` is what the session's `listTools` yields
      (an error for a connection that fails); `ids` are the uuids the column
      default would draw for newly inserted tools. */
  function RefreshSse(db: Db, serverUuid: Uuid, discovered: Result<seq<ListedTool>>, ids: seq<Uuid>): (r: Outcome<Refresh>)
    requires discovered.Ok? ==> |ids| == |discovered.value|
    ensures !HasServer(db, serverUuid) ==> r == Outcome(db, Err(Thrown(ServerNotFound)))
    ensures HasServer(db, serverUuid) && LookupServer(db, serverUuid).value.kind != Sse ==>
      r == Outcome(db, Err(Thrown(NotSse)))
    ensures (HasServer(db, serverUuid) && LookupServer(db, serverUuid).value.kind == Sse
             && !Truthy(LookupServer(db, serverUuid).value.url)) ==>
      r == Outcome(db, Err(Thrown(UrlNotSet)))
    ensures SseReady(db, serverUuid) && discovered.Err? ==> r == Outcome(db, Err(discovered.fault))
    ensures (SseReady(db, serverUuid) && discovered.Ok? && |discovered.value| > 0
             && UpsertTools(db, DraftsFor(discovered.value, serverUuid), ids).Err?) ==>
      r == Outcome(db, Err(UpsertTools(db, DraftsFor(discovered.value, serverUuid), ids).fault))
    ensures r.result.Ok? <==>
      && SseReady(db, serverUuid) && discovered.Ok?
      && (|discovered.value| == 0 || UpsertTools(db, DraftsFor(discovered.value, serverUuid), ids).Ok?)
    ensures r.result.Err? ==> r.db == db
    ensures r.result.Ok? ==>
      && discovered.Ok?
      && HasServer(db, serverUuid)
      && r.result.value.count == |discovered.value| == |r.result.value.tools|
      && (|discovered.value| == 0 ==> r == Outcome(db, Ok(Refresh(0, []))))
      && (|discovered.value| > 0 ==>
            UpsertTools(db, DraftsFor(discovered.value, serverUuid), ids) == Ok((r.db, r.result.value.tools)))
    ensures Valid(db) ==> Valid(r.db)
  {
    match LookupServer(db, serverUuid)
    case None => Outcome(db, Err(Thrown(ServerNotFound)))
    case Some(server) =>
      if server.kind != Sse then Outcome(db, Err(Thrown(NotSse)))
      else if !Truthy(server.url) then Outcome(db, Err(Thrown(UrlNotSet)))
      else
        match discovered
        case Err(f) => Outcome(db, Err(f))
        case Ok(listed) =>
          if |listed| == 0 then Outcome(db, Ok(Refresh(0, [])))
          else
            match UpsertTools(db, DraftsFor(listed, serverUuid), ids)
            case Ok((db', rows)) => Outcome(db', Ok(Refresh(|rows|, rows)))
            case Err(f) => Outcome(db, Err(f))
  }

  /** On a valid store an SSE server always has a url: the CHECK constraint
      makes the url check pass, so a "MCP server URL is not set" failure can
      only be the session's own error carrying that message. */
  lemma UrlAlwaysSet(db: Db, serverUuid: Uuid, discovered: Result<seq<ListedTool>>, ids: seq<Uuid>)
    requires Valid(db)
    requires discovered.Ok? ==> |ids| == |discovered.value|
    ensures RefreshSse(db, serverUuid, discovered, ids).result == Err(Thrown(UrlNotSet)) ==>
      discovered == Err(Thrown(UrlNotSet))
  {
    var server := LookupServer(db, serverUuid);
    if server.Some? && server.value.kind == Sse {
      assert ServerShapeOk(server.value);
      var u := server.value.url.value;
      assert UrlCheck.IsScheme(u[..UrlCheck.SchemeLength(u)]);
      assert |u| >= 7;
    }
  }

  /** On a valid store a refresh of a stored SSE server succeeds whenever the
      session answers with distinct tool names and the drawn uuids are free:
      it reports one row per listed tool, and an empty listing writes nothing. */
  lemma RefreshSucceeds(db: Db, serverUuid: Uuid, listed: seq<ListedTool>, ids: seq<Uuid>)
    requires Valid(db)
    requires HasServer(db, serverUuid) && LookupServer(db, serverUuid).value.kind == Sse
    requires |ids| == |listed|
    requires forall i, j :: 0 <= i < j < |listed| ==> listed[i].name != listed[j].name
    requires IdsFresh(db.tools, DraftsFor(listed, serverUuid), ids)
    ensures var r := RefreshSse(db, serverUuid, Ok(listed), ids);
      && r.result.Ok? && r.result.value.count == |listed|
      && (|listed| == 0 ==> r == Outcome(db, Ok(Refresh(0, []))))
  {
  }

  /** A listing of distinct tool names from an SSE server refreshes the
      catalog: every listed tool ends up attached to the server. */
  lemma RefreshStoresListing(db: Db, serverUuid: Uuid, listed: seq<ListedTool>, ids: seq<Uuid>, i: nat)
    requires |ids| == |listed| && i < |listed|
    requires RefreshSse(db, serverUuid, Ok(listed), ids).result.Ok?
    ensures var r := RefreshSse(db, serverUuid, Ok(listed), ids);
      exists t :: t in r.db.tools && t.mcpServerUuid == serverUuid && t.name == listed[i].name
        && t.description == listed[i].description && t.toolSchema == listed[i].inputSchema
  {
    var drafts := DraftsFor(listed, serverUuid);
    UpsertStoresEveryDraft(db, drafts, ids, i);
  }

  /** Refreshing twice against an unchanged listing leaves the catalog as
      the first refresh left it, whatever uuids the second one draws. */
  lemma RefreshIdempotent(db: Db, serverUuid: Uuid, listed: seq<ListedTool>, ids: seq<Uuid>, ids2: seq<Uuid>)
    requires |ids| == |listed| && |ids2| == |listed|
    requires RefreshSse(db, serverUuid, Ok(listed), ids).result.Ok?
    ensures var first := RefreshSse(db, serverUuid, Ok(listed), ids);
      var second := RefreshSse(first.db, serverUuid, Ok(listed), ids2);
      second.result.Ok? && second.db.tools == first.db.tools
  {
    var first := RefreshSse(db, serverUuid, Ok(listed), ids);
    if |listed| > 0 {
      var drafts := DraftsFor(listed, serverUuid);
      UpsertIdempotent(db, drafts, ids, ids2);
      assert first.db.mcpServers == db.mcpServers;
    }
  }
}

=== FILE: schema.dfy ===
/** The relational schema: enum domains, one row datatype per table, the
    store as a value, and the integrity constraints the schema declares
    (primary keys, the tool (server, name) unique index, foreign keys, the
    `mcp_servers_url_check` CHECK) gathered into `Valid`. */
module Schema {
  import opened Common
  import opened Seqs
  import UrlCheck

  /* ---------------------------------------------------------------- enums */

  datatype ServerStatus = Active | Inactive | Suggested | Declined {
    function Label(): string {
      match this
      case Active => "ACTIVE"
      case Inactive => "INACTIVE"
      case Suggested => "SUGGESTED"
      case Declined => "DECLINED"
    }
  }

  /** The `toggle_status` enum: the two labels it shares with the server status. */
  type ToggleStatus = s: ServerStatus | s == Active || s == Inactive witness Active

  datatype ServerType = Stdio | Sse

  datatype Capability = ToolsManagement | ToolLogs

  datatype ExecutionStatus = Success | Error | Pending {
    function Label(): string {
      match this
      case Success => "SUCCESS"
      case Error => "ERROR"
      case Pending => "PENDING"
    }
  }

  /** Postgres' cast of text to `mcp_server_status`; None is error 22P02. */
  function ParseServerStatus(s: string): (r: Option<ServerStatus>)
    ensures r.Some? ==> r.value.Label() == s
  {
    if s == "ACTIVE" then Some(Active)
    else if s == "INACTIVE" then Some(Inactive)
    else if s == "SUGGESTED" then Some(Suggested)
    else if s == "DECLINED" then Some(Declined)
    else None
  }

  /** Postgres' cast of text to `toggle_status`. */
  function ParseToggleStatus(s: string): (r: Option<ToggleStatus>)
    ensures r.Some? ==> r.value.Label() == s
  {
    if s == "ACTIVE" then Some(Active)
    else if s == "INACTIVE" then Some(Inactive)
    else None
  }

  /** Postgres' cast of text to `tool_execution_status`. */
  function ParseExecutionStatus(s: string): (r: Option<ExecutionStatus>)
    ensures r.Some? ==> r.value.Label() == s
  {
    if s == "SUCCESS" then Some(Success)
    else if s == "ERROR" then Some(Error)
    else if s == "PENDING" then Some(Pending)
    else None
  }

  /** Every label is accepted and read back as the value it names. */
  lemma EnumLabelsRoundTrip(s: ServerStatus, t: ToggleStatus, e: ExecutionStatus)
    ensures ParseServerStatus(s.Label()) == Some(s)
    ensures ParseToggleStatus(t.Label()) == Some(t)
    ensures ParseExecutionStatus(e.Label()) == Some(e)
  {
  }

  /* ----------------------------------------------------------------- rows */

  datatype Project = Project(
    uuid: Uuid, name: string, createdAt: nat, activeProfileUuid: Option<Uuid>)

  datatype Profile = Profile(
    uuid: Uuid, name: string, projectUuid: Uuid,
    enabledCapabilities: seq<Capability>, createdAt: nat)

  datatype ApiKey = ApiKey(
    uuid: Uuid, projectUuid: Uuid, apiKey: string, name: string, createdAt: nat)

  datatype McpServer = McpServer(
    uuid: Uuid, name: string, description: Option<string>, kind: ServerType,
    command: Option<string>, args: seq<string>, env: map<string, string>,
    url: Option<string>, createdAt: nat, profileUuid: Uuid, status: ServerStatus)

  datatype Code = Code(uuid: Uuid, fileName: string, code: string, createdAt: nat)

  datatype CustomMcpServer = CustomMcpServer(
    uuid: Uuid, name: string, description: Option<string>, codeUuid: Uuid,
    additionalArgs: seq<string>, env: map<string, string>, createdAt: nat,
    profileUuid: Uuid, status: ServerStatus)

  datatype Tool = Tool(
    uuid: Uuid, name: string, description: Option<string>, toolSchema: Json,
    createdAt: nat, mcpServerUuid: Uuid, status: ToggleStatus)

  datatype ToolExecutionLog = ToolExecutionLog(
    id: nat, mcpServerUuid: Option<Uuid>, toolName: string, payload: Json,
    result: Option<Json>, status: ExecutionStatus, errorMessage: Option<string>,
    executionTimeMs: Option<string>, createdAt: nat)

  /** The whole database. `clock` stands for `now()`; `nextLogId` is the
      `serial` sequence of the log table. */
  datatype Db = Db(
    projects: seq<Project>, profiles: seq<Profile>, apiKeys: seq<ApiKey>,
    mcpServers: seq<McpServer>, codes: seq<Code>,
    customMcpServers: seq<CustomMcpServer>, tools: seq<Tool>,
    logs: seq<ToolExecutionLog>, clock: nat, nextLogId: nat)

  const EmptyDb: Db := Db([], [], [], [], [], [], [], [], 0, 1)

  /* ----------------------------------------------------------------- keys */

  function ProjectKey(p: Project): Uuid { p.uuid }
  function ProfileKey(p: Profile): Uuid { p.uuid }
  function ApiKeyKey(k: ApiKey): Uuid { k.uuid }
  function ServerKey(s: McpServer): Uuid { s.uuid }
  function CodeKey(c: Code): Uuid { c.uuid }
  function CustomServerKey(c: CustomMcpServer): Uuid { c.uuid }
  function ToolKey(t: Tool): Uuid { t.uuid }
  function LogKey(l: ToolExecutionLog): nat { l.id }

  /** The `tools_unique_tool_name_per_server_idx` key. */
  function ToolNameKey(t: Tool): (Uuid, string) { (t.mcpServerUuid, t.name) }

  predicate HasProject(db: Db, id: Uuid) { exists p :: p in db.projects && p.uuid == id }
  predicate HasProfile(db: Db, id: Uuid) { exists p :: p in db.profiles && p.uuid == id }
  predicate HasApiKey(db: Db, id: Uuid) { exists k :: k in db.apiKeys && k.uuid == id }
  predicate HasServer(db: Db, id: Uuid) { exists s :: s in db.mcpServers && s.uuid == id }
  predicate HasCode(db: Db, id: Uuid) { exists c :: c in db.codes && c.uuid == id }
  predicate HasCustomServer(db: Db, id: Uuid) { exists c :: c in db.customMcpServers && c.uuid == id }
  predicate HasTool(db: Db, id: Uuid) { exists t :: t in db.tools && t.uuid == id }

  /* ---------------------------------------------------------- constraints */

  /** The `mcp_servers_url_check` constraint: an SSE row has a url matching the
      pattern and no command; a STDIO row has a command and no url. */
  predicate ServerShapeOk(s: McpServer) {
    || (s.kind == Sse && s.url.Some? && s.command.None? && UrlCheck.UrlMatches(s.url.value))
    || (s.kind == Stdio && s.url.None? && s.command.Some?)
  }

  ghost predicate KeysUnique(db: Db) {
    && DistinctBy(db.projects, ProjectKey)
    && DistinctBy(db.profiles, ProfileKey)
    && DistinctBy(db.apiKeys, ApiKeyKey)
    && DistinctBy(db.mcpServers, ServerKey)
    && DistinctBy(db.codes, CodeKey)
    && DistinctBy(db.customMcpServers, CustomServerKey)
    && DistinctBy(db.tools, ToolKey)
    && DistinctBy(db.tools, ToolNameKey)
    && DistinctBy(db.logs, LogKey)
  }

  /** References into `projects` (cascading from profiles and api keys). */
  predicate ProjectRefsResolve(db: Db) {
    && (forall p :: p in db.profiles ==> HasProject(db, p.projectUuid))
    && (forall k :: k in db.apiKeys ==> HasProject(db, k.projectUuid))
  }

  /** References into `profiles` (no action: a referenced profile cannot go). */
  predicate ProfileRefsResolve(db: Db) {
    && (forall p :: p in db.projects && p.activeProfileUuid.Some? ==> HasProfile(db, p.activeProfileUuid.value))
    && (forall s :: s in db.mcpServers ==> HasProfile(db, s.profileUuid))
    && (forall c :: c in db.customMcpServers ==> HasProfile(db, c.profileUuid))
  }

  /** References into `mcp_servers`: cascading from tools, no action from logs. */
  predicate ServerRefsResolve(db: Db) {
    && (forall t :: t in db.tools ==> HasServer(db, t.mcpServerUuid))
    && (forall l :: l in db.logs && l.mcpServerUuid.Some? ==> HasServer(db, l.mcpServerUuid.value))
  }

  /** References into `codes` (no action from custom servers). */
  predicate CodeRefsResolve(db: Db) {
    forall c :: c in db.customMcpServers ==> HasCode(db, c.codeUuid)
  }

  ghost predicate Valid(db: Db) {
    && KeysUnique(db)
    && ProjectRefsResolve(db)
    && ProfileRefsResolve(db)
    && ServerRefsResolve(db)
    && CodeRefsResolve(db)
    && (forall s :: s in db.mcpServers ==> ServerShapeOk(s))
    && (forall l :: l in db.logs ==> l.id < db.nextLogId)
  }

  lemma EmptyDbValid()
    ensures Valid(EmptyDb)
  {
  }
}

=== FILE: selection.dfy ===
/** The browser-side choice of the current project and profile. Local
    storage is a value passed in and out; the reads, writes and page reload
    around it are not part of the model. */
module Selection {
  import opened Common
  import opened Schema
  import opened Seqs

  /** The row of `rows` whose uuid is `saved`, first match, as `find` returns it. */
  function FindSaved<T(!new)>(rows: seq<T>, uuidOf: T -> Uuid, saved: Uuid): (r: Option<T>)
    ensures r.Some? ==>
      exists k :: 0 <= k < |rows| && rows[k] == r.value && uuidOf(r.value) == saved
                  && forall j :: 0 <= j < k ==> uuidOf(rows[j]) != saved
    ensures r.Some? ==> r.value in rows
    ensures r.None? <==> forall x :: x in rows ==> uuidOf(x) != saved
  {
    match FindFirst(rows, (x: T) => uuidOf(x) == saved)
    case Some(k) => Some(rows[k])
    case None => None
  }

  function ProjectUuid(p: Project): Uuid { p.uuid }
  function ProfileUuid(p: Profile): Uuid { p.uuid }

  /** The effect in `useProjects`: with projects loaded, the saved project if
      it is among them, else the first; with none loaded, no change. */
  function SelectProject(current: Option<Project>, data: Option<seq<Project>>, saved: Option<Uuid>): (r: Option<Project>)
    ensures data.None? || data.value == [] ==> r == current
    ensures data.Some? && data.value != [] ==> r.Some? && r.value in data.value
    ensures data.Some? && Truthy(saved) && (exists p :: p in data.value && p.uuid == saved.value) ==>
      r.Some? && r.value.uuid == saved.value
    ensures data.Some? && data.value != [] && (!Truthy(saved) || forall p :: p in data.value ==> p.uuid != saved.value) ==>
      r == Some(data.value[0])
  {
    if data.None? || data.value == [] then current
    else if Truthy(saved) && FindSaved(data.value, ProjectUuid, saved.value).Some? then
      FindSaved(data.value, ProjectUuid, saved.value)
    else Some(data.value[0])
  }

  /** The effect in `useProfiles`: with profiles loaded, the saved profile if
      it is among them, else the project's active profile when it has loaded,
      else the first; with none loaded, no change. */
  function SelectProfile(current: Option<Profile>, profiles: Option<seq<Profile>>, active: Option<Profile>,
                         saved: Option<Uuid>): (r: Option<Profile>)
    ensures profiles.None? || profiles.value == [] ==> r == current
    ensures profiles.Some? && profiles.value != [] ==> r.Some?
    ensures profiles.Some? && Truthy(saved) && (exists p :: p in profiles.value && p.uuid == saved.value) ==>
      r.Some? && r.value in profiles.value && r.value.uuid == saved.value
    ensures profiles.Some? && profiles.value != [] && (!Truthy(saved) || forall p :: p in profiles.value ==> p.uuid != saved.value) ==>
      r == Some(active.GetOr(profiles.value[0]))
  {
    if profiles.None? || profiles.value == [] then current
    else if Truthy(saved) && FindSaved(profiles.value, ProfileUuid, saved.value).Some? then
      FindSaved(profiles.value, ProfileUuid, saved.value)
    else Some(active.GetOr(profiles.value[0]))
  }

  /** `handleSetCurrentProject` / `handleSetCurrentProfile`: the new current
      choice, and what local storage holds afterwards. */
  datatype Chosen<T> = Chosen(current: Option<T>, stored: Option<Uuid>)

  function Choose<T>(p: Option<T>, uuidOf: T -> Uuid): (r: Chosen<T>)
    ensures r.current == p
    ensures r.stored.Some? <==> p.Some?
    ensures p.Some? ==> r.stored.value == uuidOf(p.value)
  {
    Chosen(p, if p.Some? then Some(uuidOf(p.value)) else None)
  }

  /** What a reload gives back: a project chosen and stored is selected again
      from any list that still holds it, since uuids are unique among projects. */
  lemma ChosenProjectSurvivesReload(p: Project, projects: seq<Project>, current: Option<Project>)
    requires p in projects
    requires p.uuid != ""
    requires forall a, b :: a in projects && b in projects && a.uuid == b.uuid ==> a == b
    ensures SelectProject(current, Some(projects), Choose(Some(p), ProjectUuid).stored) == Some(p)
  {
  }

  /** The same round trip for profiles; the active profile does not override it. */
  lemma ChosenProfileSurvivesReload(p: Profile, profiles: seq<Profile>, active: Option<Profile>, current: Option<Profile>)
    requires p in profiles
    requires p.uuid != ""
    requires forall a, b :: a in profiles && b in profiles && a.uuid == b.uuid ==> a == b
    ensures SelectProfile(current, Some(profiles), active, Choose(Some(p), ProfileUuid).stored) == Some(p)
  {
  }

  /** Clearing the choice falls back, on reload, to the first project. */
  lemma ClearedProjectFallsBack(projects: seq<Project>, current: Option<Project>)
    requires projects != []
    ensures SelectProject(current, Some(projects), Choose(None, ProjectUuid).stored) == Some(projects[0])
  {
  }

  /** What `useProfiles` returns besides the selection: the list (empty until
      loaded), whether either request is loading, and the first error. */
  datatype ProfilesState<E> = ProfilesState(profiles: seq<Profile>, isLoading: bool, error: Option<E>)

  function ProfilesView<E>(profiles: Option<seq<Profile>>, profilesLoading: bool, activeLoading: bool,
                           profilesError: Option<E>, activeError: Option<E>): (r: ProfilesState<E>)
    ensures profiles.Some? ==> r.profiles == profiles.value
    ensures profiles.None? ==> r.profiles == []
    ensures r.isLoading <==> profilesLoading || activeLoading
    ensures r.error.None? <==> profilesError.None? && activeError.None?
    ensures profilesError.Some? ==> r.error == profilesError
  {
    ProfilesState(profiles.GetOr([]), profilesLoading || activeLoading,
                  if profilesError.Some? then profilesError else activeError)
  }

  /** `useProjects` returns the loaded projects, or none until they load. */
  function ProjectsView(data: Option<seq<Project>>): (r: seq<Project>)
    ensures data.Some? ==> r == data.value
    ensures data.None? ==> r == []
  {
    data.GetOr([])
  }

  /** The selected project, once projects have loaded, is one the hook lists. */
  lemma SelectedProjectIsListed(current: Option<Project>, data: Option<seq<Project>>, saved: Option<Uuid>)
    requires ProjectsView(data) != []
    ensures SelectProject(current, data, saved).Some?
    ensures SelectProject(current, data, saved).value in ProjectsView(data)
  {
  }
}

=== FILE: seqs.dfy ===
/** Sequence operations behind the SQL the actions issue: WHERE (Filter),
    LIMIT 1 / findFirst (FindFirst), ORDER BY (Sort), SELECT DISTINCT
    (Squash) and LIMIT/OFFSET (Page), with the string order of ORDER BY
    on text columns (LexLe). */
module Seqs {
  import opened Common

  /** The rows of `xs` that satisfy `p`, in their original order. */
  function Filter<T(!new)>(xs: seq<T>, p: T -> bool): (r: seq<T>)
    ensures |r| <= |xs|
    ensures forall x :: x in r <==> x in xs && p(x)
    ensures forall i :: 0 <= i < |r| ==> p(r[i])
  {
    if xs == [] then []
    else if p(xs[0]) then [xs[0]] + Filter(xs[1..], p)
    else Filter(xs[1..], p)
  }

  lemma {:induction false} FilterAll<T(!new)>(xs: seq<T>, p: T -> bool)
    requires forall x :: x in xs ==> p(x)
    ensures Filter(xs, p) == xs
  {
    if xs != [] {
      FilterAll(xs[1..], p);
    }
  }

  lemma {:induction false} FilterAppend<T(!new)>(xs: seq<T>, ys: seq<T>, p: T -> bool)
    ensures Filter(xs + ys, p) == Filter(xs, p) + Filter(ys, p)
  {
    if xs == [] {
      assert xs + ys == ys;
    } else {
      assert (xs + ys)[1..] == xs[1..] + ys;
      FilterAppend(xs[1..], ys, p);
    }
  }

  /** A filter keeps every selected element as often as it occurs, and no other. */
  lemma {:induction false} FilterMultiset<T(!new)>(xs: seq<T>, p: T -> bool)
    ensures forall x :: multiset(Filter(xs, p))[x] == if p(x) then multiset(xs)[x] else 0
  {
    if xs != [] {
      FilterMultiset(xs[1..], p);
      assert xs == [xs[0]] + xs[1..];
      assert multiset(xs) == multiset{xs[0]} + multiset(xs[1..]);
    }
  }

  /** A selection from a table that gains one new element gains that element
      once, if it is selected, and nothing else. */
  lemma SelectionGains<T(!new)>(table: seq<T>, x: T, p: T -> bool, was: seq<T>, now: seq<T>)
    requires x !in table
    requires forall y :: multiset(was)[y] == if p(y) then multiset(table)[y] else 0
    requires forall y :: multiset(now)[y] == if p(y) then multiset(table + [x])[y] else 0
    ensures multiset(now) == multiset(was) + (if p(x) then multiset{x} else multiset{})
    ensures p(x) ==> multiset(now)[x] == 1
  {
  }

  /** Filters by predicates that agree on every row select the same rows. */
  lemma {:induction false} FilterSame<T(!new)>(xs: seq<T>, p: T -> bool, q: T -> bool)
    requires forall x :: x in xs ==> p(x) == q(x)
    ensures Filter(xs, p) == Filter(xs, q)
  {
    if xs != [] {
      FilterSame(xs[1..], p, q);
    }
  }

  /** A filter no row passes selects nothing. */
  lemma {:induction false} FilterNone<T(!new)>(xs: seq<T>, p: T -> bool)
    requires forall x :: x in xs ==> !p(x)
    ensures Filter(xs, p) == []
  {
    if xs != [] {
      FilterNone(xs[1..], p);
    }
  }

  /** A filter and its complement split the rows between them. */
  lemma {:induction false} FilterSplitsCount<T(!new)>(xs: seq<T>, p: T -> bool, q: T -> bool)
    requires forall x :: q(x) == !p(x)
    ensures |Filter(xs, p)| + |Filter(xs, q)| == |xs|
  {
    if xs != [] {
      FilterSplitsCount(xs[1..], p, q);
    }
  }

  /** The index of the first element satisfying `p`, as `LIMIT 1` without ORDER BY reads it. */
  function FindFirst<T(!new)>(xs: seq<T>, p: T -> bool): (r: Option<nat>)
    ensures r.Some? ==> r.value < |xs| && p(xs[r.value])
    ensures r.Some? ==> forall j :: 0 <= j < r.value ==> !p(xs[j])
    ensures r.None? <==> forall x :: x in xs ==> !p(x)
  {
    if xs == [] then None
    else if p(xs[0]) then Some(0)
    else match FindFirst(xs[1..], p)
      case None => None
      case Some(k) => Some(k + 1)
  }

  lemma {:induction false} FindFirstIsFilterHead<T(!new)>(xs: seq<T>, p: T -> bool)
    requires FindFirst(xs, p).Some?
    ensures |Filter(xs, p)| > 0
    ensures Filter(xs, p)[0] == xs[FindFirst(xs, p).value]
  {
    if !p(xs[0]) {
      FindFirstIsFilterHead(xs[1..], p);
    }
  }

  /** No two elements of `xs` share a key (a primary key or a unique index). */
  ghost predicate DistinctBy<T, K>(xs: seq<T>, key: T -> K) {
    forall i, j :: 0 <= i < j < |xs| ==> key(xs[i]) != key(xs[j])
  }

  lemma {:induction false} FilterDistinct<T(!new), K>(xs: seq<T>, p: T -> bool, key: T -> K)
    requires DistinctBy(xs, key)
    ensures DistinctBy(Filter(xs, p), key)
  {
    if xs != [] {
      var rest := Filter(xs[1..], p);
      FilterDistinct(xs[1..], p, key);
      if p(xs[0]) {
        forall j | 0 <= j < |rest|
          ensures key(xs[0]) != key(rest[j])
        {
          assert rest[j] in xs[1..];
          var k :| 0 <= k < |xs[1..]| && xs[1..][k] == rest[j];
          assert xs[k + 1] == rest[j];
        }
        var r := [xs[0]] + rest;
        forall i, j | 0 <= i < j < |r|
          ensures key(r[i]) != key(r[j])
        {
          if i > 0 {
            assert r[i] == rest[i - 1] && r[j] == rest[j - 1];
          } else {
            assert r[j] == rest[j - 1];
          }
        }
      }
    }
  }

  /** Keys of a distinct sequence identify elements: equal keys mean the same element. */
  lemma DistinctKeyUnique<T, K>(xs: seq<T>, key: T -> K, a: T, b: T)
    requires DistinctBy(xs, key)
    requires a in xs && b in xs && key(a) == key(b)
    ensures a == b
  {
    var i :| 0 <= i < |xs| && xs[i] == a;
    var j :| 0 <= j < |xs| && xs[j] == b;
    assert key(xs[i]) == key(xs[j]);
  }

  /* ---------------------------------------------------------------- order */

  ghost predicate TotalPreorder<T(!new)>(le: (T, T) -> bool) {
    && (forall a, b :: le(a, b) || le(b, a))
    && (forall a, b, c :: le(a, b) && le(b, c) ==> le(a, c))
  }

  ghost predicate SortedBy<T>(xs: seq<T>, le: (T, T) -> bool) {
    forall i, j :: 0 <= i < j < |xs| ==> le(xs[i], xs[j])
  }

  /** An element below `x` and below every element of `tail` is below every
      element of any rearrangement of `tail` with `x` added. */
  lemma {:induction false} BelowAll<T>(h: T, x: T, tail: seq<T>, rest: seq<T>, le: (T, T) -> bool)
    requires multiset(rest) == multiset(tail) + multiset{x}
    requires le(h, x)
    requires forall j :: 0 <= j < |tail| ==> le(h, tail[j])
    ensures forall j :: 0 <= j < |rest| ==> le(h, rest[j])
  {
    forall j | 0 <= j < |rest|
      ensures le(h, rest[j])
    {
      assert rest[j] in multiset(rest);
      if rest[j] != x {
        assert rest[j] in multiset(tail);
        var k :| 0 <= k < |tail| && tail[k] == rest[j];
      }
    }
  }

  /** A sorted sequence stays sorted under a head below all its elements. */
  lemma {:induction false} PrependSorted<T>(h: T, rest: seq<T>, le: (T, T) -> bool)
    requires SortedBy(rest, le)
    requires forall j :: 0 <= j < |rest| ==> le(h, rest[j])
    ensures SortedBy([h] + rest, le)
  {
    var r := [h] + rest;
    forall i, j | 0 <= i < j < |r|
      ensures le(r[i], r[j])
    {
      if i == 0 {
        assert r[j] == rest[j - 1];
      } else {
        assert r[i] == rest[i - 1] && r[j] == rest[j - 1];
      }
    }
  }

  /** Inserts `x` into the sorted `s` before the first element it does not follow. */
  function Insert<T(!new)>(x: T, s: seq<T>, le: (T, T) -> bool): (r: seq<T>)
    requires TotalPreorder(le)
    requires SortedBy(s, le)
    ensures multiset(r) == multiset(s) + multiset{x}
    ensures SortedBy(r, le)
  {
    if s == [] then [x]
    else if le(x, s[0]) then
      assert forall j :: 0 <= j < |s| ==> le(x, s[j]);
      PrependSorted(x, s, le);
      [x] + s
    else
      var tail := s[1..];
      var rest := Insert(x, tail, le);
      assert s == [s[0]] + tail;
      assert forall j :: 0 <= j < |tail| ==> le(s[0], tail[j]) by {
        forall j | 0 <= j < |tail|
          ensures le(s[0], tail[j])
        {
          assert tail[j] == s[j + 1];
        }
      }
      BelowAll(s[0], x, tail, rest, le);
      PrependSorted(s[0], rest, le);
      [s[0]] + rest
  }

  /** ORDER BY: a permutation of `xs` sorted by the total preorder `le`. */
  function Sort<T(!new)>(xs: seq<T>, le: (T, T) -> bool): (r: seq<T>)
    requires TotalPreorder(le)
    ensures multiset(r) == multiset(xs)
    ensures SortedBy(r, le)
  {
    if xs == [] then []
    else
      assert xs == [xs[0]] + xs[1..];
      Insert(xs[0], Sort(xs[1..], le), le)
  }

  lemma SortSameElements<T(!new)>(xs: seq<T>, le: (T, T) -> bool)
    requires TotalPreorder(le)
    ensures |Sort(xs, le)| == |xs|
    ensures forall x :: x in Sort(xs, le) <==> x in xs
  {
    var r := Sort(xs, le);
    assert |multiset(r)| == |multiset(xs)|;
    forall x
      ensures x in r <==> x in xs
    {
      assert x in multiset(r) <==> x in multiset(xs);
    }
  }

  /* ------------------------------------------------------ strings (text) */

  /** Code-point lexicographic order on text: a prefix comes first. */
  predicate LexLe(a: string, b: string)
    decreases |a|
  {
    if |a| == 0 then true
    else if |b| == 0 then false
    else if a[0] != b[0] then a[0] < b[0]
    else LexLe(a[1..], b[1..])
  }

  lemma {:induction false} LexTotal(a: string, b: string)
    ensures LexLe(a, b) || LexLe(b, a)
    decreases |a|
  {
    if |a| > 0 && |b| > 0 && a[0] == b[0] {
      LexTotal(a[1..], b[1..]);
    }
  }

  lemma {:induction false} LexTransitive(a: string, b: string, c: string)
    requires LexLe(a, b) && LexLe(b, c)
    ensures LexLe(a, c)
    decreases |a|
  {
    if |a| > 0 && |b| > 0 && |c| > 0 && a[0] == b[0] && b[0] == c[0] {
      LexTransitive(a[1..], b[1..], c[1..]);
    }
  }

  lemma {:induction false} LexAntisymmetric(a: string, b: string)
    ensures LexLe(a, b) && LexLe(b, a) ==> a == b
    decreases |a|
  {
    if |a| > 0 && |b| > 0 {
      LexAntisymmetric(a[1..], b[1..]);
      assert a == [a[0]] + a[1..] && b == [b[0]] + b[1..];
    }
  }

  function StringLe(): (le: (string, string) -> bool)
    ensures TotalPreorder(le)
    ensures forall a, b :: le(a, b) == LexLe(a, b)
  {
    var le := (a: string, b: string) => LexLe(a, b);
    assert forall a, b :: le(a, b) || le(b, a) by {
      forall a, b ensures LexLe(a, b) || LexLe(b, a) { LexTotal(a, b); }
    }
    assert forall a, b, c :: le(a, b) && le(b, c) ==> le(a, c) by {
      forall a, b, c | LexLe(a, b) && LexLe(b, c) ensures LexLe(a, c) {
        LexTransitive(a, b, c);
      }
    }
    le
  }

  /** A tail of a sorted sequence is sorted. */
  lemma {:induction false} SortedTail(s: seq<string>)
    requires |s| > 0
    requires SortedBy(s, StringLe())
    ensures SortedBy(s[1..], StringLe())
  {
    forall i, j | 0 <= i < j < |s[1..]| ensures LexLe(s[1..][i], s[1..][j]) {
      assert s[1..][i] == s[i + 1] && s[1..][j] == s[j + 1];
    }
  }

  /** In a sorted sequence whose first two elements differ, every later
      element is strictly above the first. */
  lemma {:induction false} AboveHead(s: seq<string>, rest: seq<string>)
    requires |s| >= 2 && s[0] != s[1]
    requires SortedBy(s, StringLe())
    requires forall x :: x in rest ==> x in s[1..]
    ensures forall x :: x in rest ==> LexLe(s[0], x) && x != s[0]
  {
    LexAntisymmetric(s[0], s[1]);
    forall x | x in rest ensures LexLe(s[0], x) && x != s[0] {
      var k :| 0 <= k < |s[1..]| && s[1..][k] == x;
      assert s[k + 1] == x;
      assert k == 0 || LexLe(s[1], s[k + 1]);
    }
  }

  /** A strictly ascending sequence stays so under a head strictly below it. */
  lemma {:induction false} PrependStrict(h: string, rest: seq<string>)
    requires forall i, j :: 0 <= i < j < |rest| ==> LexLe(rest[i], rest[j]) && rest[i] != rest[j]
    requires forall x :: x in rest ==> LexLe(h, x) && x != h
    ensures var r := [h] + rest;
      forall i, j :: 0 <= i < j < |r| ==> LexLe(r[i], r[j]) && r[i] != r[j]
  {
    var r := [h] + rest;
    forall i, j | 0 <= i < j < |r| ensures LexLe(r[i], r[j]) && r[i] != r[j] {
      if i == 0 {
        assert r[j] == rest[j - 1] && r[j] in rest;
      } else {
        assert r[i] == rest[i - 1] && r[j] == rest[j - 1];
      }
    }
  }

  /** SELECT DISTINCT over a sorted column: drops adjacent repeats. */
  function Squash(s: seq<string>): (r: seq<string>)
    requires SortedBy(s, StringLe())
    ensures forall x :: x in r <==> x in s
    ensures forall i, j :: 0 <= i < j < |r| ==> LexLe(r[i], r[j]) && r[i] != r[j]
  {
    if |s| <= 1 then s
    else
      SortedTail(s);
      var rest := Squash(s[1..]);
      assert s == [s[0]] + s[1..];
      if s[0] == s[1] then
        assert s[0] in s[1..];
        rest
      else
        AboveHead(s, rest);
        PrependStrict(s[0], rest);
        [s[0]] + rest
  }

  /** LIMIT `limit` OFFSET `offset`. */
  function Page<T>(xs: seq<T>, offset: nat, limit: nat): (r: seq<T>)
    ensures |r| == if |xs| <= offset then 0 else if |xs| - offset < limit then |xs| - offset else limit
    ensures forall i :: 0 <= i < |r| ==> offset + i < |xs| && r[i] == xs[offset + i]
  {
    if offset >= |xs| then []
    else if |xs| - offset <= limit then xs[offset..]
    else xs[offset..offset + limit]
  }
}

=== FILE: tool_catalog.dfy ===
/** The tool catalog upsert shared by the SSE refresh and the batch tools
    endpoint: `INSERT INTO tools ... ON CONFLICT (mcp_server_uuid, name)
    DO UPDATE SET description = excluded.description, tool_schema =
    excluded.tool_schema RETURNING *`. A tool already in the catalog keeps
    its uuid, status and creation time; only its description and input
    schema follow the new listing. */
module ToolCatalog {
  import opened Common
  import opened Seqs
  import opened Schema

  /** A tool as listed by a server or posted to the API, before it is stored. */
  datatype ToolDraft = ToolDraft(
    name: string, description: Option<string>, toolSchema: Json, mcpServerUuid: Uuid)

  function DraftKey(d: ToolDraft): (Uuid, string) { (d.mcpServerUuid, d.name) }

  /** The row a draft becomes when nothing in the catalog has its key:
      `status` takes its column default ACTIVE and all rows of one statement
      share one `now()`. */
  function NewTool(clock: nat, d: ToolDraft, id: Uuid): Tool {
    Tool(id, d.name, d.description, d.toolSchema, clock, d.mcpServerUuid, Active)
  }

  /** No catalog row has the draft's (server, name) key. */
  predicate IsNew(tools: seq<Tool>, d: ToolDraft) {
    forall t :: t in tools ==> ToolNameKey(t) != DraftKey(d)
  }

  /** The ON CONFLICT clause may touch each row once: the batch holds no key twice. */
  predicate DraftKeysDistinct(drafts: seq<ToolDraft>) {
    forall i, j :: 0 <= i < j < |drafts| ==> DraftKey(drafts[i]) != DraftKey(drafts[j])
  }

  /** The uuids drawn for the rows that will be inserted clash neither with
      the catalog nor with each other. */
  predicate IdsFresh(tools: seq<Tool>, drafts: seq<ToolDraft>, ids: seq<Uuid>)
    requires |ids| == |drafts|
  {
    && (forall i :: 0 <= i < |drafts| && IsNew(tools, drafts[i]) ==>
          forall t :: t in tools ==> t.uuid != ids[i])
    && (forall i, j :: 0 <= i < j < |drafts| && IsNew(tools, drafts[i]) && IsNew(tools, drafts[j]) ==>
          ids[i] != ids[j])
  }

  /** The first draft carrying `key`. */
  function DraftFor(drafts: seq<ToolDraft>, key: (Uuid, string)): (r: Option<ToolDraft>)
    ensures r.Some? ==> r.value in drafts && DraftKey(r.value) == key
    ensures r.None? <==> forall d :: d in drafts ==> DraftKey(d) != key
  {
    if drafts == [] then None
    else if DraftKey(drafts[0]) == key then Some(drafts[0])
    else DraftFor(drafts[1..], key)
  }

  /** With distinct keys, the draft found for a key is the one holding it. */
  lemma {:induction false} DraftForUnique(drafts: seq<ToolDraft>, i: nat)
    requires DraftKeysDistinct(drafts)
    requires i < |drafts|
    ensures DraftFor(drafts, DraftKey(drafts[i])) == Some(drafts[i])
  {
    if i > 0 {
      assert DraftKey(drafts[0]) != DraftKey(drafts[i]);
      assert drafts[1..][i - 1] == drafts[i];
      assert DraftKeysDistinct(drafts[1..]) by {
        forall a, b | 0 <= a < b < |drafts[1..]|
          ensures DraftKey(drafts[1..][a]) != DraftKey(drafts[1..][b])
        {
          assert drafts[1..][a] == drafts[a + 1] && drafts[1..][b] == drafts[b + 1];
        }
      }
      DraftForUnique(drafts[1..], i - 1);
    }
  }

  /** An existing row after the upsert: the draft with its key, if any,
      overwrites description and schema and nothing else. */
  function Refreshed(t: Tool, drafts: seq<ToolDraft>): (t': Tool)
    ensures t' == t.(description := t'.description, toolSchema := t'.toolSchema)
    ensures DraftFor(drafts, ToolNameKey(t)).Some? ==>
      t'.description == DraftFor(drafts, ToolNameKey(t)).value.description
      && t'.toolSchema == DraftFor(drafts, ToolNameKey(t)).value.toolSchema
    ensures DraftFor(drafts, ToolNameKey(t)).None? ==> t' == t
  {
    match DraftFor(drafts, ToolNameKey(t))
    case None => t
    case Some(d) => t.(description := d.description, toolSchema := d.toolSchema)
  }

  /** The rows the statement inserts, in batch order. */
  function Fresh(tools: seq<Tool>, clock: nat, drafts: seq<ToolDraft>, ids: seq<Uuid>): (r: seq<Tool>)
    requires |ids| == |drafts|
    ensures |r| <= |drafts|
  {
    if drafts == [] then []
    else
      var rest := Fresh(tools, clock, drafts[1..], ids[1..]);
      if IsNew(tools, drafts[0]) then [NewTool(clock, drafts[0], ids[0])] + rest else rest
  }

  /** Every inserted row is the new row of a draft whose key was not in the catalog. */
  lemma {:induction false} FreshMember(tools: seq<Tool>, clock: nat, drafts: seq<ToolDraft>, ids: seq<Uuid>, t: Tool)
    requires |ids| == |drafts|
    requires t in Fresh(tools, clock, drafts, ids)
    ensures exists i :: 0 <= i < |drafts| && IsNew(tools, drafts[i]) && t == NewTool(clock, drafts[i], ids[i])
  {
    if !(IsNew(tools, drafts[0]) && t == NewTool(clock, drafts[0], ids[0])) {
      FreshMember(tools, clock, drafts[1..], ids[1..], t);
      var i :| 0 <= i < |drafts[1..]| && IsNew(tools, drafts[1..][i]) && t == NewTool(clock, drafts[1..][i], ids[1..][i]);
      assert drafts[1..][i] == drafts[i + 1] && ids[1..][i] == ids[i + 1];
    }
  }

  /** When every key of the batch is already in the catalog nothing is inserted. */
  lemma {:induction false} FreshEmpty(tools: seq<Tool>, clock: nat, drafts: seq<ToolDraft>, ids: seq<Uuid>)
    requires |ids| == |drafts|
    requires forall i :: 0 <= i < |drafts| ==> !IsNew(tools, drafts[i])
    ensures Fresh(tools, clock, drafts, ids) == []
  {
    if drafts != [] {
      assert forall i :: 0 <= i < |drafts[1..]| ==> drafts[1..][i] == drafts[i + 1];
      FreshEmpty(tools, clock, drafts[1..], ids[1..]);
    }
  }

  /** Every draft whose key was not in the catalog is inserted. */
  lemma {:induction false} FreshComplete(tools: seq<Tool>, clock: nat, drafts: seq<ToolDraft>, ids: seq<Uuid>, i: nat)
    requires |ids| == |drafts| && i < |drafts|
    requires IsNew(tools, drafts[i])
    ensures NewTool(clock, drafts[i], ids[i]) in Fresh(tools, clock, drafts, ids)
  {
    if i > 0 {
      assert drafts[1..][i - 1] == drafts[i] && ids[1..][i - 1] == ids[i];
      FreshComplete(tools, clock, drafts[1..], ids[1..], i - 1);
    }
  }

  /** Inserted rows have pairwise distinct (server, name) keys when the batch does. */
  lemma {:induction false} FreshNamesDistinct(tools: seq<Tool>, clock: nat, drafts: seq<ToolDraft>, ids: seq<Uuid>)
    requires |ids| == |drafts|
    requires DraftKeysDistinct(drafts)
    ensures DistinctBy(Fresh(tools, clock, drafts, ids), ToolNameKey)
  {
    if drafts != [] {
      var rest := Fresh(tools, clock, drafts[1..], ids[1..]);
      assert DraftKeysDistinct(drafts[1..]) by {
        forall a, b | 0 <= a < b < |drafts[1..]|
          ensures DraftKey(drafts[1..][a]) != DraftKey(drafts[1..][b])
        {
          assert drafts[1..][a] == drafts[a + 1] && drafts[1..][b] == drafts[b + 1];
        }
      }
      FreshNamesDistinct(tools, clock, drafts[1..], ids[1..]);
      if IsNew(tools, drafts[0]) {
        var r := [NewTool(clock, drafts[0], ids[0])] + rest;
        forall k, l | 0 <= k < l < |r| ensures ToolNameKey(r[k]) != ToolNameKey(r[l]) {
          if k == 0 {
            assert r[l] == rest[l - 1];
            FreshMember(tools, clock, drafts[1..], ids[1..], rest[l - 1]);
            var i :| 0 <= i < |drafts[1..]| && IsNew(tools, drafts[1..][i])
              && rest[l - 1] == NewTool(clock, drafts[1..][i], ids[1..][i]);
            assert drafts[1..][i] == drafts[i + 1];
          } else {
            assert r[k] == rest[k - 1] && r[l] == rest[l - 1];
          }
        }
      }
    }
  }

  /** Inserted rows have pairwise distinct uuids when the drawn ids are fresh. */
  lemma {:induction false} FreshIdsDistinct(tools: seq<Tool>, clock: nat, drafts: seq<ToolDraft>, ids: seq<Uuid>)
    requires |ids| == |drafts|
    requires IdsFresh(tools, drafts, ids)
    ensures DistinctBy(Fresh(tools, clock, drafts, ids), ToolKey)
  {
    if drafts != [] {
      var rest := Fresh(tools, clock, drafts[1..], ids[1..]);
      assert IdsFresh(tools, drafts[1..], ids[1..]) by {
        forall a | 0 <= a < |drafts[1..]| ensures drafts[1..][a] == drafts[a + 1] && ids[1..][a] == ids[a + 1] {
        }
      }
      FreshIdsDistinct(tools, clock, drafts[1..], ids[1..]);
      if IsNew(tools, drafts[0]) {
        var r := [NewTool(clock, drafts[0], ids[0])] + rest;
        forall k, l | 0 <= k < l < |r| ensures ToolKey(r[k]) != ToolKey(r[l]) {
          if k == 0 {
            assert r[l] == rest[l - 1];
            FreshMember(tools, clock, drafts[1..], ids[1..], rest[l - 1]);
            var i :| 0 <= i < |drafts[1..]| && IsNew(tools, drafts[1..][i])
              && rest[l - 1] == NewTool(clock, drafts[1..][i], ids[1..][i]);
            assert drafts[1..][i] == drafts[i + 1] && ids[1..][i] == ids[i + 1];
          } else {
            assert r[k] == rest[k - 1] && r[l] == rest[l - 1];
          }
        }
      }
    }
  }

  /** The row the upsert leaves for one draft, which RETURNING reports. */
  function Stored(tools: seq<Tool>, clock: nat, d: ToolDraft, id: Uuid, drafts: seq<ToolDraft>): Tool {
    var old_ := FindFirst(tools, (t: Tool) => ToolNameKey(t) == DraftKey(d));
    if old_.Some? then Refreshed(tools[old_.value], drafts) else NewTool(clock, d, id)
  }

  /** The catalog after the statement: existing rows refreshed in place,
      inserted rows appended. */
  function UpsertedTools(tools: seq<Tool>, clock: nat, drafts: seq<ToolDraft>, ids: seq<Uuid>): (r: seq<Tool>)
    requires |ids| == |drafts|
    ensures |r| >= |tools|
    ensures forall i :: 0 <= i < |tools| ==> r[i] == Refreshed(tools[i], drafts)
    ensures r[|tools|..] == Fresh(tools, clock, drafts, ids)
  {
    seq(|tools|, i requires 0 <= i < |tools| => Refreshed(tools[i], drafts)) + Fresh(tools, clock, drafts, ids)
  }

  /** The upsert statement. On success it yields the new store and the
      RETURNING rows, one per draft in batch order. Errors: a key twice in the
      batch (21000), a drawn uuid already taken (23505), a server that does
      not exist (23503, checked at the end of the statement). */
  function UpsertTools(db: Db, drafts: seq<ToolDraft>, ids: seq<Uuid>): (r: Result<(Db, seq<Tool>)>)
    requires |ids| == |drafts|
    ensures r.Ok? <==>
      && DraftKeysDistinct(drafts)
      && IdsFresh(db.tools, drafts, ids)
      && forall d :: d in drafts ==> HasServer(db, d.mcpServerUuid)
    ensures r.Err? ==> r.fault == Rejected(
      if !DraftKeysDistinct(drafts) then CardinalityViolation
      else if !IdsFresh(db.tools, drafts, ids) then UniqueViolation
      else ForeignKeyViolation)
    ensures r.Ok? ==> r.value.0 == db.(tools := UpsertedTools(db.tools, db.clock, drafts, ids), clock := db.clock + 1)
    ensures r.Ok? ==> |r.value.1| == |drafts|
    ensures r.Ok? ==> forall i :: 0 <= i < |drafts| ==>
      r.value.1[i] == Stored(db.tools, db.clock, drafts[i], ids[i], drafts)
    ensures Valid(db) && r.Ok? ==> Valid(r.value.0)
  {
    if !DraftKeysDistinct(drafts) then Err(Rejected(CardinalityViolation))
    else if !IdsFresh(db.tools, drafts, ids) then Err(Rejected(UniqueViolation))
    else if exists d :: d in drafts && !HasServer(db, d.mcpServerUuid) then Err(Rejected(ForeignKeyViolation))
    else
      var tools := UpsertedTools(db.tools, db.clock, drafts, ids);
      var db' := db.(tools := tools, clock := db.clock + 1);
      assert Valid(db) ==> Valid(db') by {
        if Valid(db) {
          UpsertedValid(db, drafts, ids);
        }
      }
      Ok((db', Returned(db.tools, db.clock, drafts, ids)))
  }

  /** The RETURNING rows: the stored row of each draft, in batch order. */
  function Returned(tools: seq<Tool>, clock: nat, drafts: seq<ToolDraft>, ids: seq<Uuid>): (r: seq<Tool>)
    requires |ids| == |drafts|
    ensures |r| == |drafts|
    ensures forall i :: 0 <= i < |drafts| ==> r[i] == Stored(tools, clock, drafts[i], ids[i], drafts)
  {
    seq(|drafts|, i requires 0 <= i < |drafts| => Stored(tools, clock, drafts[i], ids[i], drafts))
  }

  lemma UpsertedValid(db: Db, drafts: seq<ToolDraft>, ids: seq<Uuid>)
    requires Valid(db)
    requires |ids| == |drafts|
    requires DraftKeysDistinct(drafts) && IdsFresh(db.tools, drafts, ids)
    requires forall d :: d in drafts ==> HasServer(db, d.mcpServerUuid)
    ensures Valid(db.(tools := UpsertedTools(db.tools, db.clock, drafts, ids), clock := db.clock + 1))
  {
    var tools := UpsertedTools(db.tools, db.clock, drafts, ids);
    UpsertedIdsDistinct(db.tools, db.clock, drafts, ids);
    UpsertedNamesDistinct(db.tools, db.clock, drafts, ids);
    UpsertedServersExist(db, drafts, ids);
    var db' := db.(tools := tools, clock := db.clock + 1);
    forall t | t in tools ensures HasServer(db', t.mcpServerUuid) {
      assert HasServer(db, t.mcpServerUuid);
    }
  }

  /** Position `k` of the appended part of the upserted catalog. */
  lemma UpsertedTail(tools: seq<Tool>, clock: nat, drafts: seq<ToolDraft>, ids: seq<Uuid>, k: nat)
    requires |ids| == |drafts|
    requires |tools| <= k < |UpsertedTools(tools, clock, drafts, ids)|
    ensures var r := UpsertedTools(tools, clock, drafts, ids);
      r[k] == Fresh(tools, clock, drafts, ids)[k - |tools|]
      && exists i :: 0 <= i < |drafts| && IsNew(tools, drafts[i]) && r[k] == NewTool(clock, drafts[i], ids[i])
  {
    var r := UpsertedTools(tools, clock, drafts, ids);
    assert r[|tools|..][k - |tools|] == r[k];
    FreshMember(tools, clock, drafts, ids, r[k]);
  }

  lemma UpsertedIdsDistinct(tools: seq<Tool>, clock: nat, drafts: seq<ToolDraft>, ids: seq<Uuid>)
    requires |ids| == |drafts|
    requires DistinctBy(tools, ToolKey) && IdsFresh(tools, drafts, ids)
    ensures DistinctBy(UpsertedTools(tools, clock, drafts, ids), ToolKey)
  {
    var r := UpsertedTools(tools, clock, drafts, ids);
    var added := Fresh(tools, clock, drafts, ids);
    var n := |tools|;
    FreshIdsDistinct(tools, clock, drafts, ids);
    forall k, l | 0 <= k < l < |r| ensures ToolKey(r[k]) != ToolKey(r[l]) {
      if l < n {
        assert ToolKey(tools[k]) != ToolKey(tools[l]);
      } else if k < n {
        assert tools[k] in tools;
        UpsertedTail(tools, clock, drafts, ids, l);
      } else {
        UpsertedTail(tools, clock, drafts, ids, k);
        UpsertedTail(tools, clock, drafts, ids, l);
        assert ToolKey(added[k - n]) != ToolKey(added[l - n]);
      }
    }
  }

  lemma UpsertedNamesDistinct(tools: seq<Tool>, clock: nat, drafts: seq<ToolDraft>, ids: seq<Uuid>)
    requires |ids| == |drafts|
    requires DistinctBy(tools, ToolNameKey) && DraftKeysDistinct(drafts)
    ensures DistinctBy(UpsertedTools(tools, clock, drafts, ids), ToolNameKey)
  {
    var r := UpsertedTools(tools, clock, drafts, ids);
    var added := Fresh(tools, clock, drafts, ids);
    var n := |tools|;
    FreshNamesDistinct(tools, clock, drafts, ids);
    forall k, l | 0 <= k < l < |r| ensures ToolNameKey(r[k]) != ToolNameKey(r[l]) {
      if l < n {
        assert ToolNameKey(tools[k]) != ToolNameKey(tools[l]);
      } else if k < n {
        assert tools[k] in tools;
        UpsertedTail(tools, clock, drafts, ids, l);
      } else {
        UpsertedTail(tools, clock, drafts, ids, k);
        UpsertedTail(tools, clock, drafts, ids, l);
        assert ToolNameKey(added[k - n]) != ToolNameKey(added[l - n]);
      }
    }
  }

  lemma UpsertedServersExist(db: Db, drafts: seq<ToolDraft>, ids: seq<Uuid>)
    requires |ids| == |drafts|
    requires ServerRefsResolve(db)
    requires forall d :: d in drafts ==> HasServer(db, d.mcpServerUuid)
    ensures forall t :: t in UpsertedTools(db.tools, db.clock, drafts, ids) ==> HasServer(db, t.mcpServerUuid)
  {
    var r := UpsertedTools(db.tools, db.clock, drafts, ids);
    forall t | t in r ensures HasServer(db, t.mcpServerUuid) {
      var k :| 0 <= k < |r| && r[k] == t;
      if k < |db.tools| {
        assert db.tools[k] in db.tools;
      } else {
        UpsertedTail(db.tools, db.clock, drafts, ids, k);
        var i :| 0 <= i < |drafts| && IsNew(db.tools, drafts[i]) && r[k] == NewTool(db.clock, drafts[i], ids[i]);
        assert drafts[i] in drafts;
      }
    }
  }

  /* ------------------------------------------------------------ properties */

  /** An operator's choices survive re-discovery: every row already in the
      catalog keeps its place, uuid, name, server, status and creation time;
      only description and schema may change. */
  lemma UpsertKeepsOperatorStatus(db: Db, drafts: seq<ToolDraft>, ids: seq<Uuid>)
    requires |ids| == |drafts|
    requires UpsertTools(db, drafts, ids).Ok?
    ensures var tools' := UpsertTools(db, drafts, ids).value.0.tools;
      |tools'| >= |db.tools|
      && forall i :: 0 <= i < |db.tools| ==>
        tools'[i] == db.tools[i].(description := tools'[i].description, toolSchema := tools'[i].toolSchema)
  {
  }

  /** A draft whose key was new is inserted as an ACTIVE row with its drawn uuid. */
  lemma StoresNewDraft(tools: seq<Tool>, clock: nat, drafts: seq<ToolDraft>, ids: seq<Uuid>, i: nat)
    requires |ids| == |drafts| && i < |drafts|
    requires IsNew(tools, drafts[i])
    ensures NewTool(clock, drafts[i], ids[i]) in UpsertedTools(tools, clock, drafts, ids)
  {
    var tools' := UpsertedTools(tools, clock, drafts, ids);
    var t := NewTool(clock, drafts[i], ids[i]);
    FreshComplete(tools, clock, drafts, ids, i);
    var k :| 0 <= k < |tools'[|tools|..]| && tools'[|tools|..][k] == t;
    assert tools'[|tools| + k] == t;
  }

  /** A draft whose key was already taken refreshes the row holding it. */
  lemma StoresKnownDraft(tools: seq<Tool>, clock: nat, drafts: seq<ToolDraft>, ids: seq<Uuid>, t: Tool)
    requires |ids| == |drafts|
    requires t in tools
    ensures Refreshed(t, drafts) in UpsertedTools(tools, clock, drafts, ids)
  {
    var tools' := UpsertedTools(tools, clock, drafts, ids);
    var k :| 0 <= k < |tools| && tools[k] == t;
    assert tools'[k] == Refreshed(t, drafts);
  }

  /** After a successful upsert every draft is in the catalog under its key,
      carrying the draft's description and schema; inserted rows are ACTIVE. */
  lemma {:induction false} UpsertStoresEveryDraft(db: Db, drafts: seq<ToolDraft>, ids: seq<Uuid>, i: nat)
    requires |ids| == |drafts| && i < |drafts|
    requires UpsertTools(db, drafts, ids).Ok?
    ensures var tools' := UpsertTools(db, drafts, ids).value.0.tools;
      exists t :: t in tools' && ToolNameKey(t) == DraftKey(drafts[i])
        && t.description == drafts[i].description && t.toolSchema == drafts[i].toolSchema
        && (IsNew(db.tools, drafts[i]) ==> t.status == Active && t.uuid == ids[i])
  {
    var tools' := UpsertedTools(db.tools, db.clock, drafts, ids);
    assert UpsertTools(db, drafts, ids).value.0.tools == tools';
    var d := drafts[i];
    DraftForUnique(drafts, i);
    if IsNew(db.tools, d) {
      StoresNewDraft(db.tools, db.clock, drafts, ids, i);
      var t := NewTool(db.clock, d, ids[i]);
      assert t in tools' && ToolNameKey(t) == DraftKey(d);
    } else {
      var t :| t in db.tools && ToolNameKey(t) == DraftKey(d);
      StoresKnownDraft(db.tools, db.clock, drafts, ids, t);
      assert Refreshed(t, drafts) in tools';
    }
  }

  /** RETURNING yields, for each draft in batch order, the catalog row now
      holding its key; the count a caller reports is the batch size. */
  lemma UpsertReturnsStoredRows(db: Db, drafts: seq<ToolDraft>, ids: seq<Uuid>, i: nat)
    requires |ids| == |drafts| && i < |drafts|
    requires UpsertTools(db, drafts, ids).Ok?
    ensures var (db', rows) := UpsertTools(db, drafts, ids).value;
      |rows| == |drafts| && rows[i] in db'.tools && ToolNameKey(rows[i]) == DraftKey(drafts[i])
  {
    var tools' := UpsertedTools(db.tools, db.clock, drafts, ids);
    var d := drafts[i];
    var f := FindFirst(db.tools, (t: Tool) => ToolNameKey(t) == DraftKey(d));
    DraftForUnique(drafts, i);
    if f.Some? {
      assert tools'[f.value] == Refreshed(db.tools[f.value], drafts);
      assert tools'[f.value] in tools';
    } else {
      assert IsNew(db.tools, d);
      FreshComplete(db.tools, db.clock, drafts, ids, i);
      var t := NewTool(db.clock, d, ids[i]);
      var k :| 0 <= k < |tools'[|db.tools|..]| && tools'[|db.tools|..][k] == t;
      assert tools'[|db.tools| + k] == t;
    }
  }

  /** Upserting the same listing twice leaves the catalog exactly as after
      the first time, whatever uuids the second statement draws. */
  lemma UpsertIdempotent(db: Db, drafts: seq<ToolDraft>, ids: seq<Uuid>, ids2: seq<Uuid>)
    requires |ids| == |drafts| && |ids2| == |drafts|
    requires UpsertTools(db, drafts, ids).Ok?
    ensures var db1 := UpsertTools(db, drafts, ids).value.0;
      UpsertTools(db1, drafts, ids2).Ok?
      && UpsertTools(db1, drafts, ids2).value.0.tools == db1.tools
  {
    var db1 := UpsertTools(db, drafts, ids).value.0;
    var tools1 := db1.tools;
    forall i | 0 <= i < |drafts| ensures !IsNew(tools1, drafts[i]) {
      UpsertStoresEveryDraft(db, drafts, ids, i);
    }
    assert IdsFresh(tools1, drafts, ids2);
    forall d | d in drafts ensures HasServer(db1, d.mcpServerUuid) {
    }
    FreshEmpty(tools1, db1.clock, drafts, ids2);
    var tools2 := UpsertedTools(tools1, db1.clock, drafts, ids2);
    forall k | 0 <= k < |tools1| ensures tools2[k] == tools1[k] {
      RefreshedTwice(db, drafts, ids, k);
    }
  }

  /** Refreshing a row a second time with the same listing changes nothing. */
  lemma RefreshedIdempotent(t: Tool, drafts: seq<ToolDraft>)
    ensures Refreshed(Refreshed(t, drafts), drafts) == Refreshed(t, drafts)
  {
    assert ToolNameKey(Refreshed(t, drafts)) == ToolNameKey(t);
  }

  /** A row inserted for a draft is already refreshed by its listing. */
  lemma NewToolRefreshed(clock: nat, drafts: seq<ToolDraft>, ids: seq<Uuid>, i: nat)
    requires |ids| == |drafts| && i < |drafts|
    requires DraftKeysDistinct(drafts)
    ensures Refreshed(NewTool(clock, drafts[i], ids[i]), drafts) == NewTool(clock, drafts[i], ids[i])
  {
    DraftForUnique(drafts, i);
    assert ToolNameKey(NewTool(clock, drafts[i], ids[i])) == DraftKey(drafts[i]);
  }

  /** A row of the refreshed catalog is a fixed point of refreshing with the same listing. */
  lemma RefreshedTwice(db: Db, drafts: seq<ToolDraft>, ids: seq<Uuid>, k: nat)
    requires |ids| == |drafts|
    requires UpsertTools(db, drafts, ids).Ok?
    requires k < |UpsertTools(db, drafts, ids).value.0.tools|
    ensures var t := UpsertTools(db, drafts, ids).value.0.tools[k]; Refreshed(t, drafts) == t
  {
    var tools1 := UpsertedTools(db.tools, db.clock, drafts, ids);
    assert UpsertTools(db, drafts, ids).value.0.tools == tools1;
    var n := |db.tools|;
    if k < n {
      RefreshedIdempotent(db.tools[k], drafts);
    } else {
      assert tools1[n..][k - n] == tools1[k];
      FreshMember(db.tools, db.clock, drafts, ids, tools1[k]);
      var i :| 0 <= i < |drafts| && IsNew(db.tools, drafts[i]) && tools1[k] == NewTool(db.clock, drafts[i], ids[i]);
      NewToolRefreshed(db.clock, drafts, ids, i);
    }
  }
}

=== FILE: tool_execution_logs.dfy ===
/** The execution log viewer: a filtered, paginated, newest-first page of
    the tool execution logs of one profile, and the distinct tool names that
    profile's logs mention. */
module ToolExecutionLogs {
  import opened Common
  import opened Seqs
  import opened Schema

  const UnknownServer: string := "Unknown Server"
  const DefaultLimit: nat := 50
  const DefaultOffset: nat := 0

  /** The options object; None is an option left out. */
  datatype LogQuery = LogQuery(
    limit: Option<nat>, offset: Option<nat>,
    mcpServerUuids: Option<seq<Uuid>>, toolNames: Option<seq<string>>,
    statuses: Option<seq<ExecutionStatus>>, currentProfileUuid: string)

  /** A log row with the name of its server from the left join. */
  datatype LogView = LogView(log: ToolExecutionLog, serverName: string)

  datatype LogPage = LogPage(logs: seq<LogView>, total: nat)

  /** The uuids of the profile's servers, in table order. */
  function AllowedServers(db: Db, profileUuid: Uuid): (r: seq<Uuid>)
    ensures forall u :: u in r <==> exists s :: s in db.mcpServers && s.profileUuid == profileUuid && s.uuid == u
    ensures (forall s :: s in db.mcpServers ==> s.profileUuid != profileUuid) ==> r == []
  {
    var own := Filter(db.mcpServers, (s: McpServer) => s.profileUuid == profileUuid);
    assert (forall s :: s in db.mcpServers ==> s.profileUuid != profileUuid) ==> own == [] by {
      if forall s :: s in db.mcpServers ==> s.profileUuid != profileUuid {
        FilterNone(db.mcpServers, (s: McpServer) => s.profileUuid == profileUuid);
      }
    }
    ServerUuids(own)
  }

  /** The uuids of the given servers, in order. */
  function ServerUuids(servers: seq<McpServer>): (r: seq<Uuid>)
    ensures |r| == |servers|
    ensures forall u :: u in r <==> exists s :: s in servers && s.uuid == u
  {
    var r := seq(|servers|, i requires 0 <= i < |servers| => servers[i].uuid);
    assert forall u :: (exists s :: s in servers && s.uuid == u) ==> u in r by {
      forall u | exists s :: s in servers && s.uuid == u ensures u in r {
        var s :| s in servers && s.uuid == u;
        var i :| 0 <= i < |servers| && servers[i] == s;
        assert r[i] == u;
      }
    }
    assert forall u :: u in r ==> exists s :: s in servers && s.uuid == u by {
      forall u | u in r ensures exists s :: s in servers && s.uuid == u {
        var i :| 0 <= i < |r| && r[i] == u;
        assert servers[i] in servers;
      }
    }
    r
  }

  /** `column IN (...)`: a NULL server uuid is in no list. */
  predicate ServerIn(l: ToolExecutionLog, uuids: seq<Uuid>) {
    l.mcpServerUuid.Some? && l.mcpServerUuid.value in uuids
  }

  /** A filter given as a non-empty list restricts; absent or empty, it does not. */
  predicate Restricts<T>(list: Option<seq<T>>) {
    list.Some? && |list.value| > 0
  }

  /** The caller's own filters (servers, tool names, statuses). */
  predicate MatchesFilters(q: LogQuery, l: ToolExecutionLog) {
    && (Restricts(q.mcpServerUuids) ==> ServerIn(l, q.mcpServerUuids.value))
    && (Restricts(q.toolNames) ==> l.toolName in q.toolNames.value)
    && (Restricts(q.statuses) ==> l.status in q.statuses.value)
  }

  /** The WHERE clause as written: the profile's servers restrict the rows
      only when there is at least one of them. */
  predicate SelectedAsWritten(allowed: seq<Uuid>, q: LogQuery, l: ToolExecutionLog) {
    (|allowed| > 0 ==> ServerIn(l, allowed)) && MatchesFilters(q, l)
  }

  /** `ORDER BY id DESC`. */
  function NewestIdFirst(): (le: (ToolExecutionLog, ToolExecutionLog) -> bool)
    ensures TotalPreorder(le)
    ensures forall a, b :: le(a, b) == (a.id >= b.id)
  {
    (a: ToolExecutionLog, b: ToolExecutionLog) => a.id >= b.id
  }

  /** The left join's server name, with "Unknown Server" for a log without a
      server and for an empty name. */
  function ServerName(db: Db, l: ToolExecutionLog): (r: string)
    ensures r != ""
    ensures r != UnknownServer ==>
      exists s :: s in db.mcpServers && Some(s.uuid) == l.mcpServerUuid && s.name == r
  {
    if l.mcpServerUuid.None? then UnknownServer
    else
      match FindFirst(db.mcpServers, (s: McpServer) => s.uuid == l.mcpServerUuid.value)
      case None => UnknownServer
      case Some(i) => if db.mcpServers[i].name == "" then UnknownServer else db.mcpServers[i].name
  }

  function Views(db: Db, rows: seq<ToolExecutionLog>): (r: seq<LogView>)
    ensures |r| == |rows|
    ensures forall i :: 0 <= i < |r| ==> r[i].log == rows[i] && r[i].serverName == ServerName(db, rows[i])
  {
    seq(|rows|, i requires 0 <= i < |rows| => LogView(rows[i], ServerName(db, rows[i])))
  }

  /** The selected rows in `ORDER BY id DESC` order. */
  function Ranked(db: Db, selected: ToolExecutionLog -> bool): (r: seq<ToolExecutionLog>)
    ensures |r| == |Filter(db.logs, selected)|
  {
    var rows := Filter(db.logs, selected);
    SortSameElements(rows, NewestIdFirst());
    Sort(rows, NewestIdFirst())
  }

  /** The ranked rows are the selected rows, each as often, newest first. */
  lemma RankedRows(db: Db, selected: ToolExecutionLog -> bool)
    ensures multiset(Ranked(db, selected)) == multiset(Filter(db.logs, selected))
    ensures forall i, j :: 0 <= i < j < |Ranked(db, selected)| ==> Ranked(db, selected)[i].id >= Ranked(db, selected)[j].id
  {
  }

  /** The window OFFSET `offset` LIMIT `limit` of `ranked`, each row shown
      with the name of its server. */
  ghost predicate ShowsWindow(db: Db, ranked: seq<ToolExecutionLog>, offset: nat, limit: nat, logs: seq<LogView>) {
    && |logs| == (if |ranked| <= offset then 0 else if |ranked| - offset < limit then |ranked| - offset else limit)
    && forall i :: 0 <= i < |logs| ==>
         offset + i < |ranked| && logs[i] == LogView(ranked[offset + i], ServerName(db, ranked[offset + i]))
  }

  /** What a page answers: the count of every selected row, and the window
      of the ranked rows that the query's offset and limit ask for. */
  ghost predicate IsPageOf(db: Db, q: LogQuery, selected: ToolExecutionLog -> bool, r: LogPage) {
    var ranked := Ranked(db, selected);
    && r.total == |ranked|
    && ShowsWindow(db, ranked, q.offset.GetOr(DefaultOffset), q.limit.GetOr(DefaultLimit), r.logs)
  }

  /** Every ranked row is a selected log. */
  lemma RankedMember(db: Db, selected: ToolExecutionLog -> bool, k: nat)
    requires k < |Ranked(db, selected)|
    ensures Ranked(db, selected)[k] in db.logs && selected(Ranked(db, selected)[k])
  {
    var ranked := Ranked(db, selected);
    var l := ranked[k];
    RankedRows(db, selected);
    assert l in multiset(ranked);
    assert l in multiset(Filter(db.logs, selected));
    assert l in Filter(db.logs, selected);
  }

  /** Consecutive windows tile: `a` rows at `o` followed by `b` rows at
      `o + a` are the `a + b` rows at `o`, none skipped or repeated. */
  lemma WindowsTile(db: Db, ranked: seq<ToolExecutionLog>, o: nat, a: nat, b: nat,
                    first: seq<LogView>, next: seq<LogView>, both: seq<LogView>)
    requires ShowsWindow(db, ranked, o, a, first)
    requires ShowsWindow(db, ranked, o + a, b, next)
    requires ShowsWindow(db, ranked, o, a + b, both)
    ensures first + next == both
  {
    forall i | 0 <= i < |both| ensures (first + next)[i] == both[i] {
      if i >= |first| {
        assert |first| == a;
        assert next[i - a] == LogView(ranked[o + a + (i - a)], ServerName(db, ranked[o + a + (i - a)]));
      }
    }
  }

  /** A window of selected rows shows only selected logs, each with its
      server's name. */
  lemma WindowSelected(db: Db, ranked: seq<ToolExecutionLog>, offset: nat, limit: nat, logs: seq<LogView>,
                       selected: ToolExecutionLog -> bool)
    requires ShowsWindow(db, ranked, offset, limit, logs)
    requires forall k :: 0 <= k < |ranked| ==> ranked[k] in db.logs && selected(ranked[k])
    ensures forall v :: v in logs ==> v.log in db.logs && selected(v.log) && v.serverName == ServerName(db, v.log)
  {
    forall i | 0 <= i < |logs|
      ensures logs[i].log in db.logs && selected(logs[i].log) && logs[i].serverName == ServerName(db, logs[i].log)
    {
      assert logs[i] == LogView(ranked[offset + i], ServerName(db, ranked[offset + i]));
    }
  }

  /** A window of newest-first rows is newest first. */
  lemma WindowOrdered(db: Db, ranked: seq<ToolExecutionLog>, offset: nat, limit: nat, logs: seq<LogView>)
    requires ShowsWindow(db, ranked, offset, limit, logs)
    requires forall i, j :: 0 <= i < j < |ranked| ==> ranked[i].id >= ranked[j].id
    ensures forall i, j :: 0 <= i < j < |logs| ==> logs[i].log.id >= logs[j].log.id
  {
    forall i, j | 0 <= i < j < |logs| ensures logs[i].log.id >= logs[j].log.id {
      assert logs[i].log == ranked[offset + i];
      assert logs[j].log == ranked[offset + j];
    }
  }

  /** A page holds at most `limit` rows. */
  lemma PageBounded(db: Db, q: LogQuery, selected: ToolExecutionLog -> bool, r: LogPage)
    requires IsPageOf(db, q, selected, r)
    ensures |r.logs| <= q.limit.GetOr(DefaultLimit)
  {
  }

  /** Every row of a page is a selected log with its server's name. */
  lemma PageSelected(db: Db, q: LogQuery, selected: ToolExecutionLog -> bool, r: LogPage)
    requires IsPageOf(db, q, selected, r)
    ensures forall v :: v in r.logs ==> v.log in db.logs && selected(v.log) && v.serverName == ServerName(db, v.log)
  {
    var ranked := Ranked(db, selected);
    forall k | 0 <= k < |ranked| ensures ranked[k] in db.logs && selected(ranked[k]) {
      RankedMember(db, selected, k);
    }
    WindowSelected(db, ranked, q.offset.GetOr(DefaultOffset), q.limit.GetOr(DefaultLimit), r.logs, selected);
  }

  /** A page is newest first. */
  lemma PageOrdered(db: Db, q: LogQuery, selected: ToolExecutionLog -> bool, r: LogPage)
    requires IsPageOf(db, q, selected, r)
    ensures forall i, j :: 0 <= i < j < |r.logs| ==> r.logs[i].log.id >= r.logs[j].log.id
  {
    RankedRows(db, selected);
    WindowOrdered(db, Ranked(db, selected), q.offset.GetOr(DefaultOffset), q.limit.GetOr(DefaultLimit), r.logs);
  }

  /** The count, and one page of the selected rows, newest first. */
  function Query(db: Db, q: LogQuery, selected: ToolExecutionLog -> bool): (r: LogPage)
    ensures r.total == |Filter(db.logs, selected)|
    ensures |r.logs| <= q.limit.GetOr(DefaultLimit)
    ensures forall v :: v in r.logs ==> v.log in db.logs && selected(v.log) && v.serverName == ServerName(db, v.log)
    ensures forall i, j :: 0 <= i < j < |r.logs| ==> r.logs[i].log.id >= r.logs[j].log.id
  {
    var ranked := Ranked(db, selected);
    var r := LogPage(Page(Views(db, ranked), q.offset.GetOr(DefaultOffset), q.limit.GetOr(DefaultLimit)), |ranked|);
    assert IsPageOf(db, q, selected, r);
    PageBounded(db, q, selected, r);
    PageSelected(db, q, selected, r);
    PageOrdered(db, q, selected, r);
    r
  }

  /** A query answers with the count of every selected row and the window
      of the ranked rows its offset and limit ask for. */
  lemma QueryAnswers(db: Db, q: LogQuery, selected: ToolExecutionLog -> bool)
    ensures IsPageOf(db, q, selected, Query(db, q, selected))
  {
  }

  /** `getToolExecutionLogs` as written. */
  function GetToolExecutionLogs(db: Db, q: LogQuery): (r: LogPage)
    ensures q.currentProfileUuid == "" ==> r == LogPage([], 0)
    ensures q.currentProfileUuid != "" ==>
      var allowed := AllowedServers(db, q.currentProfileUuid);
      && r.total == |Filter(db.logs, (l: ToolExecutionLog) => SelectedAsWritten(allowed, q, l))|
      && (forall v :: v in r.logs ==> v.log in db.logs && SelectedAsWritten(allowed, q, v.log))
      && IsPageOf(db, q, (l: ToolExecutionLog) => SelectedAsWritten(allowed, q, l), r)
    ensures |r.logs| <= q.limit.GetOr(DefaultLimit)
    ensures forall i, j :: 0 <= i < j < |r.logs| ==> r.logs[i].log.id >= r.logs[j].log.id
  {
    if q.currentProfileUuid == "" then LogPage([], 0)
    else
      var allowed := AllowedServers(db, q.currentProfileUuid);
      QueryAnswers(db, q, (l: ToolExecutionLog) => SelectedAsWritten(allowed, q, l));
      Query(db, q, (l: ToolExecutionLog) => SelectedAsWritten(allowed, q, l))
  }

  /** A profile without servers is shown every log that passes the caller's
      filters, whatever server wrote it: with no filters the count is the
      size of the whole table. */
  lemma AsWrittenLeaksWithoutServers(db: Db, q: LogQuery)
    requires q.currentProfileUuid != ""
    requires forall s :: s in db.mcpServers ==> s.profileUuid != q.currentProfileUuid
    requires !Restricts(q.mcpServerUuids) && !Restricts(q.toolNames) && !Restricts(q.statuses)
    ensures GetToolExecutionLogs(db, q).total == |db.logs|
  {
    var allowed := AllowedServers(db, q.currentProfileUuid);
    assert |allowed| == 0;
    FilterAll(db.logs, (l: ToolExecutionLog) => SelectedAsWritten(allowed, q, l));
  }

  /** A concrete store with two profiles: "p1" owns server "s1", which wrote
      one log; "p2" owns nothing. The as-written query shows "p2" that log. */
  lemma AsWrittenLeakExample()
    ensures var server := McpServer("s1", "time", None, Stdio, Some("uvx"), [], map[], None, 0, "p1", Active);
      var log := ToolExecutionLog(1, Some("s1"), "now", EmptyObject, None, Success, None, None, 1);
      var db := EmptyDb.(mcpServers := [server], logs := [log]);
      var q := LogQuery(None, None, None, None, None, "p2");
      GetToolExecutionLogs(db, q) == LogPage([LogView(log, "time")], 1)
  {
    var server := McpServer("s1", "time", None, Stdio, Some("uvx"), [], map[], None, 0, "p1", Active);
    var log := ToolExecutionLog(1, Some("s1"), "now", EmptyObject, None, Success, None, None, 1);
    var db := EmptyDb.(mcpServers := [server], logs := [log]);
    var q := LogQuery(None, None, None, None, None, "p2");
    AsWrittenLeaksWithoutServers(db, q);
    var r := GetToolExecutionLogs(db, q);
    assert |r.logs| <= 1;
    var allowed := AllowedServers(db, "p2");
    assert allowed == [];
    var sel := (l: ToolExecutionLog) => SelectedAsWritten(allowed, q, l);
    FilterAll(db.logs, sel);
    assert Sort([log], NewestIdFirst()) == [log];
    assert ServerName(db, log) == "time";
  }

  /** The condition the comment above the clause describes: only logs of the
      profile's own servers, even when it has none. */
  predicate SelectedScoped(allowed: seq<Uuid>, q: LogQuery, l: ToolExecutionLog) {
    ServerIn(l, allowed) && MatchesFilters(q, l)
  }

  /** `getToolExecutionLogs` with the scoping applied unconditionally, as
      `getToolNames` already does. */
  function GetToolExecutionLogsScoped(db: Db, q: LogQuery): (r: LogPage)
    ensures q.currentProfileUuid == "" ==> r == LogPage([], 0)
    ensures q.currentProfileUuid != "" ==>
      var allowed := AllowedServers(db, q.currentProfileUuid);
      && r.total == |Filter(db.logs, (l: ToolExecutionLog) => SelectedScoped(allowed, q, l))|
      && IsPageOf(db, q, (l: ToolExecutionLog) => SelectedScoped(allowed, q, l), r)
    ensures |r.logs| <= q.limit.GetOr(DefaultLimit)
    ensures forall i, j :: 0 <= i < j < |r.logs| ==> r.logs[i].log.id >= r.logs[j].log.id
    ensures forall v :: v in r.logs ==> v.log in db.logs && MatchesFilters(q, v.log)
  {
    if q.currentProfileUuid == "" then LogPage([], 0)
    else
      var allowed := AllowedServers(db, q.currentProfileUuid);
      QueryAnswers(db, q, (l: ToolExecutionLog) => SelectedScoped(allowed, q, l));
      Query(db, q, (l: ToolExecutionLog) => SelectedScoped(allowed, q, l))
  }

  /** Isolation: every log on a scoped page was written by a server of the
      profile, and a profile with no servers sees nothing. */
  lemma ScopedLogsIsolated(db: Db, q: LogQuery)
    ensures forall v :: v in GetToolExecutionLogsScoped(db, q).logs ==>
      exists s :: s in db.mcpServers && s.profileUuid == q.currentProfileUuid && Some(s.uuid) == v.log.mcpServerUuid
    ensures (forall s :: s in db.mcpServers ==> s.profileUuid != q.currentProfileUuid) ==>
      GetToolExecutionLogsScoped(db, q) == LogPage([], 0)
  {
    var r := GetToolExecutionLogsScoped(db, q);
    if q.currentProfileUuid != "" {
      var allowed := AllowedServers(db, q.currentProfileUuid);
      var sel := (l: ToolExecutionLog) => SelectedScoped(allowed, q, l);
      forall v | v in r.logs
        ensures exists s :: s in db.mcpServers && s.profileUuid == q.currentProfileUuid && Some(s.uuid) == v.log.mcpServerUuid
      {
        assert sel(v.log);
      }
      if forall s :: s in db.mcpServers ==> s.profileUuid != q.currentProfileUuid {
        assert allowed == [];
        FilterNone(db.logs, sel);
        assert |r.logs| == 0;
      }
    }
  }

  /** A profile that owns a server sees the same page either way: the two
      queries differ only for profiles without servers. */
  lemma ScopedAgreesWhenServersExist(db: Db, q: LogQuery)
    requires exists s :: s in db.mcpServers && s.profileUuid == q.currentProfileUuid
    ensures GetToolExecutionLogsScoped(db, q) == GetToolExecutionLogs(db, q)
  {
    if q.currentProfileUuid != "" {
      var allowed := AllowedServers(db, q.currentProfileUuid);
      var s :| s in db.mcpServers && s.profileUuid == q.currentProfileUuid;
      assert s.uuid in allowed;
      var a := (l: ToolExecutionLog) => SelectedAsWritten(allowed, q, l);
      var b := (l: ToolExecutionLog) => SelectedScoped(allowed, q, l);
      FilterSame(db.logs, a, b);
    }
  }

  /* ------------------------------------------------------------ tool names */

  function ToolNamesOf(logs: seq<ToolExecutionLog>): (r: seq<string>)
    ensures |r| == |logs|
    ensures forall i :: 0 <= i < |r| ==> r[i] == logs[i].toolName
    ensures forall x :: x in r <==> exists l :: l in logs && l.toolName == x
  {
    var r := seq(|logs|, i requires 0 <= i < |logs| => logs[i].toolName);
    assert forall x :: x in r <==> exists l :: l in logs && l.toolName == x by {
      forall x ensures x in r <==> exists l :: l in logs && l.toolName == x {
        if x in r {
          var i :| 0 <= i < |r| && r[i] == x;
          assert logs[i] in logs;
        }
        if exists l :: l in logs && l.toolName == x {
          var l :| l in logs && l.toolName == x;
          var i :| 0 <= i < |logs| && logs[i] == l;
          assert r[i] == x;
        }
      }
    }
    r
  }

  /** `getToolNames`: the distinct tool names in the logs of the profile's
      servers, ascending; nothing for an empty profile id or a profile
      without servers. */
  function GetToolNames(db: Db, profileUuid: Uuid): (r: seq<string>)
    ensures forall x :: x in r <==>
      profileUuid != "" &&
      exists l :: l in db.logs && l.toolName == x &&
        exists s :: s in db.mcpServers && s.profileUuid == profileUuid && Some(s.uuid) == l.mcpServerUuid
    ensures forall i, j :: 0 <= i < j < |r| ==> LexLe(r[i], r[j]) && r[i] != r[j]
  {
    if profileUuid == "" then []
    else
      var allowed := AllowedServers(db, profileUuid);
      var rows := Filter(db.logs, (l: ToolExecutionLog) => ServerIn(l, allowed));
      var names := ToolNamesOf(rows);
      var sorted := Sort(names, StringLe());
      SortSameElements(names, StringLe());
      Squash(sorted)
  }
}

=== FILE: tool_execution_logs_route.dfy ===
/** `/api/tool-execution-logs`: the proxy reports one tool call, which is
    stored as a log row of the active profile. */
module ToolExecutionLogsRoute {
  import opened Common
  import opened Seqs
  import opened Schema
  import opened Database
  import opened Auth
  import opened ToolExecutionLogs

  const NameRequired: string := "Tool name is required"
  const ServerNotOwned: string := "MCP server not found or does not belong to your profile"
  const CreateFailed: string := "Failed to create tool execution log"

  /** The JSON body; None is a field the body leaves out or sets to null.
      `payload` and `result` are JSON values kept as text. */
  datatype LogBody = LogBody(
    mcpServerUuid: Option<Uuid>, toolName: Option<string>, payload: Option<Json>,
    result: Option<Json>, status: Option<string>, errorMessage: Option<string>,
    executionTimeMs: Option<string>)

  /** `x || null` on a text field: an empty string is stored as NULL. */
  function OrNull(s: Option<string>): (r: Option<string>)
    ensures r.Some? <==> Truthy(s)
    ensures r.Some? ==> r == s
  {
    if Truthy(s) then s else None
  }

  /** A server of the given profile with this uuid exists. */
  predicate OwnsServer(db: Db, profileUuid: Uuid, serverUuid: Uuid) {
    exists s :: s in db.mcpServers && s.uuid == serverUuid && s.profileUuid == profileUuid
  }

  function OwnedBy(profileUuid: Uuid, serverUuid: Uuid): McpServer -> bool {
    (s: McpServer) => s.uuid == serverUuid && s.profileUuid == profileUuid
  }

  /** The row the INSERT builds: the `||` defaults, then the status label
      cast to the enum. The id is drawn by the serial sequence on insert. */
  function LogRow(body: LogBody, clock: nat): (r: Result<ToolExecutionLog>)
    requires Truthy(body.toolName)
    ensures r.Ok? <==> !Truthy(body.status) || ParseExecutionStatus(body.status.value).Some?
    ensures r.Err? ==> r.fault == Rejected(InvalidEnumValue)
    ensures r.Ok? ==>
      && r.value.toolName == body.toolName.value
      && r.value.mcpServerUuid == OrNull(body.mcpServerUuid)
      && r.value.payload == body.payload.GetOr(EmptyObject)
      && r.value.result == body.result
      && (Truthy(body.status) ==> r.value.status.Label() == body.status.value)
      && (!Truthy(body.status) ==> r.value.status == Pending)
      && r.value.errorMessage == OrNull(body.errorMessage)
      && r.value.executionTimeMs == OrNull(body.executionTimeMs)
      && r.value.createdAt == clock
  {
    var status := if Truthy(body.status) then ParseExecutionStatus(body.status.value) else Some(Pending);
    if status.None? then Err(Rejected(InvalidEnumValue))
    else
      Ok(ToolExecutionLog(0, OrNull(body.mcpServerUuid), body.toolName.value,
                          body.payload.GetOr(EmptyObject), body.result, status.value,
                          OrNull(body.errorMessage), OrNull(body.executionTimeMs), clock))
  }

  /** The handler after authentication: the stored row, or 400 without a
      tool name, 404 for a server the profile does not own, 500 for a status
      label the enum refuses. */
  function StoreLog(db: Db, profileUuid: Uuid, body: LogBody): (r: Reply<ToolExecutionLog>)
    ensures !Truthy(body.toolName) ==> r == Reply(db, ErrorBody(400, NameRequired, None))
    ensures Truthy(body.toolName) && Truthy(body.mcpServerUuid) && !OwnsServer(db, profileUuid, body.mcpServerUuid.value) ==>
      r == Reply(db, ErrorBody(404, ServerNotOwned, None))
    ensures r.response.Body? <==>
      && Truthy(body.toolName)
      && (Truthy(body.mcpServerUuid) ==> OwnsServer(db, profileUuid, body.mcpServerUuid.value))
      && (Truthy(body.status) ==> ParseExecutionStatus(body.status.value).Some?)
    ensures r.response.Body? ==>
      && r.response.value.id == db.nextLogId
      && r.response.value.toolName == body.toolName.value
      && r.response.value.mcpServerUuid == OrNull(body.mcpServerUuid)
      && r.db == db.(logs := db.logs + [r.response.value], clock := db.clock + 1, nextLogId := db.nextLogId + 1)
    ensures r.response.Body? ==>
      && Truthy(body.toolName) && LogRow(body, db.clock).Ok?
      && r.response.value == LogRow(body, db.clock).value.(id := db.nextLogId)
    ensures (&& Truthy(body.toolName)
             && (Truthy(body.mcpServerUuid) ==> OwnsServer(db, profileUuid, body.mcpServerUuid.value))
             && LogRow(body, db.clock).Err?) ==>
      r == Reply(db, ErrorBody(500, CreateFailed, None))
    ensures r.response.ErrorBody? ==> r.db == db
    ensures Valid(db) ==> Valid(r.db)
  {
    if !Truthy(body.toolName) then Reply(db, ErrorBody(400, NameRequired, None))
    else if Truthy(body.mcpServerUuid) && FindFirst(db.mcpServers, OwnedBy(profileUuid, body.mcpServerUuid.value)).None? then
      Reply(db, ErrorBody(404, ServerNotOwned, None))
    else
      assert Truthy(body.mcpServerUuid) ==> OwnsServer(db, profileUuid, body.mcpServerUuid.value) by {
        if Truthy(body.mcpServerUuid) {
          var i := FindFirst(db.mcpServers, OwnedBy(profileUuid, body.mcpServerUuid.value)).value;
          assert db.mcpServers[i] in db.mcpServers;
        }
      }
      match LogRow(body, db.clock)
      case Err(_) => Reply(db, ErrorBody(500, CreateFailed, None))
      case Ok(row) =>
        assert row.mcpServerUuid.Some? ==> HasServer(db, row.mcpServerUuid.value) by {
          if row.mcpServerUuid.Some? {
            var s :| s in db.mcpServers && s.uuid == row.mcpServerUuid.value && s.profileUuid == profileUuid;
          }
        }
        // The ownership check above finds the server, so the foreign key holds.
        Reply(InsertLog(db, row).value, Body(row.(id := db.nextLogId)))
  }

  /** POST: authenticates, then stores the log for the active profile. */
  function PostLog(db: Db, header: Option<string>, profileId: Uuid, body: LogBody): (r: Reply<ToolExecutionLog>)
    ensures var a := Authenticate(db, header, profileId);
      && (!a.outcome.Authenticated? ==> r == Reply(a.db, Refusal(a.outcome, CreateFailed)))
      && (a.outcome.Authenticated? ==> r == StoreLog(a.db, a.outcome.activeProfile.uuid, body))
    ensures Valid(db) ==> Valid(r.db)
  {
    var a := Authenticate(db, header, profileId);
    match a.outcome
    case Authenticated(_, profile) => StoreLog(a.db, profile.uuid, body)
    case _ => Reply(a.db, Refusal(a.outcome, CreateFailed))
  }

  /** A stored log of a server of the profile raises the profile's
      unfiltered log count by one. */
  lemma StoredLogIsCounted(db: Db, profileUuid: Uuid, body: LogBody, q: LogQuery)
    requires Truthy(body.mcpServerUuid)
    requires StoreLog(db, profileUuid, body).response.Body?
    requires q.currentProfileUuid == profileUuid && profileUuid != ""
    requires !Restricts(q.mcpServerUuids) && !Restricts(q.toolNames) && !Restricts(q.statuses)
    ensures GetToolExecutionLogs(StoreLog(db, profileUuid, body).db, q).total
      == GetToolExecutionLogs(db, q).total + 1
  {
    var r := StoreLog(db, profileUuid, body);
    var row := r.response.value;
    assert r.db.logs == db.logs + [row] && r.db.mcpServers == db.mcpServers;
    var allowed := AllowedServers(db, profileUuid);
    assert AllowedServers(r.db, profileUuid) == allowed;
    var sel := (l: ToolExecutionLog) => SelectedAsWritten(allowed, q, l);
    var s :| s in db.mcpServers && s.uuid == body.mcpServerUuid.value && s.profileUuid == profileUuid;
    assert s.uuid in allowed;
    FilterAppend(db.logs, [row], sel);
    assert sel(row);
  }

  /** A call reported for a server of the profile shows up in the log viewer:
      the unfiltered count of the profile's logs grows by one. */
  lemma PostedLogIsCounted(db: Db, header: Option<string>, profileId: Uuid, body: LogBody, q: LogQuery)
    requires Truthy(body.mcpServerUuid)
    requires PostLog(db, header, profileId, body).response.Body?
    requires q.currentProfileUuid == Authenticate(db, header, profileId).outcome.activeProfile.uuid
    requires q.currentProfileUuid != ""
    requires !Restricts(q.mcpServerUuids) && !Restricts(q.toolNames) && !Restricts(q.statuses)
    ensures var a := Authenticate(db, header, profileId);
      GetToolExecutionLogs(PostLog(db, header, profileId, body).db, q).total
        == GetToolExecutionLogs(a.db, q).total + 1
  {
    var a := Authenticate(db, header, profileId);
    assert a.outcome.Authenticated?;
    StoredLogIsCounted(a.db, a.outcome.activeProfile.uuid, body, q);
  }
}

=== FILE: tools.dfy ===
/** The tool actions of the management page: a server's tools by name, and
    the operator's ACTIVE/INACTIVE switch on one tool. */
module Tools {
  import opened Common
  import opened Seqs
  import opened Schema
  import opened Database

  /** `ORDER BY name` (code-point order). */
  function ByName(): (le: (Tool, Tool) -> bool)
    ensures TotalPreorder(le)
    ensures forall a, b :: le(a, b) == LexLe(a.name, b.name)
  {
    var le := (a: Tool, b: Tool) => LexLe(a.name, b.name);
    assert forall a, b :: le(a, b) || le(b, a) by {
      forall a: Tool, b: Tool ensures LexLe(a.name, b.name) || LexLe(b.name, a.name) {
        LexTotal(a.name, b.name);
      }
    }
    assert forall a, b, c :: le(a, b) && le(b, c) ==> le(a, c) by {
      forall a: Tool, b: Tool, c: Tool | LexLe(a.name, b.name) && LexLe(b.name, c.name)
        ensures LexLe(a.name, c.name)
      {
        LexTransitive(a.name, b.name, c.name);
      }
    }
    le
  }

  function OfServer(serverUuid: Uuid): Tool -> bool {
    (t: Tool) => t.mcpServerUuid == serverUuid
  }

  /** `getToolsByMcpServerUuid`: the server's tools sorted by name. */
  function GetToolsByMcpServerUuid(db: Db, serverUuid: Uuid): (r: seq<Tool>)
    ensures forall t :: t in r <==> t in db.tools && t.mcpServerUuid == serverUuid
    ensures forall i, j :: 0 <= i < j < |r| ==> LexLe(r[i].name, r[j].name)
    ensures multiset(r) == multiset(Filter(db.tools, OfServer(serverUuid)))
  {
    var own := Filter(db.tools, OfServer(serverUuid));
    SortSameElements(own, ByName());
    Sort(own, ByName())
  }

  /** On a valid store the listing has no name twice (the per-server unique
      index), so the names ascend strictly. */
  lemma ToolNamesStrictlyAscend(db: Db, serverUuid: Uuid)
    requires Valid(db)
    ensures var r := GetToolsByMcpServerUuid(db, serverUuid);
      forall i, j :: 0 <= i < j < |r| ==> r[i].name != r[j].name
  {
    var r := GetToolsByMcpServerUuid(db, serverUuid);
    var own := Filter(db.tools, OfServer(serverUuid));
    FilterDistinct(db.tools, OfServer(serverUuid), ToolKey);
    forall i, j | 0 <= i < j < |r| ensures r[i].name != r[j].name {
      if r[i].name == r[j].name {
        assert ToolNameKey(r[i]) == ToolNameKey(r[j]);
        DistinctKeyUnique(db.tools, ToolNameKey, r[i], r[j]);
        MultisetTwice(r, i, j);
        assert multiset(own)[r[i]] >= 2;
        DistinctCountsOnce(own, ToolKey, r[i]);
      }
    }
  }

  /** An element at two positions occurs at least twice. */
  lemma MultisetTwice<T>(s: seq<T>, i: nat, j: nat)
    requires i < j < |s| && s[i] == s[j]
    ensures multiset(s)[s[i]] >= 2
  {
    assert s == s[..i] + [s[i]] + s[i + 1..j] + [s[j]] + s[j + 1..];
  }

  /** In a sequence with distinct keys every element occurs once. */
  lemma {:induction false} DistinctCountsOnce<T, K>(s: seq<T>, key: T -> K, x: T)
    requires DistinctBy(s, key)
    ensures multiset(s)[x] <= 1
  {
    if s != [] {
      assert DistinctBy(s[1..], key) by {
        forall a, b | 0 <= a < b < |s[1..]| ensures key(s[1..][a]) != key(s[1..][b]) {
          assert s[1..][a] == s[a + 1] && s[1..][b] == s[b + 1];
        }
      }
      DistinctCountsOnce(s[1..], key, x);
      assert s == [s[0]] + s[1..];
    }
  }

  /** `toggleToolStatus`: sets one tool's status, whichever server it has. */
  function ToggleToolStatus(db: Db, toolUuid: Uuid, status: ToggleStatus): (r: Outcome<()>)
    ensures r.result.Ok?
    ensures |r.db.tools| == |db.tools|
    ensures forall i :: 0 <= i < |db.tools| ==>
      && r.db.tools[i] == db.tools[i].(status := r.db.tools[i].status)
      && (db.tools[i].uuid == toolUuid ==> r.db.tools[i].status == status)
      && (db.tools[i].uuid != toolUuid ==> r.db.tools[i] == db.tools[i])
    ensures r.db == db.(tools := r.db.tools)
    ensures Valid(db) ==> Valid(r.db)
  {
    Outcome(SetToolStatus(db, toolUuid, status), Ok(()))
  }

  /** With tool uuids unique, setting a tool's status and setting it back
      to the old value is the identity. */
  lemma StatusSetBack(db: Db, t: Tool, status: ToggleStatus)
    requires DistinctBy(db.tools, ToolKey)
    requires t in db.tools
    ensures SetToolStatus(SetToolStatus(db, t.uuid, status), t.uuid, t.status) == db
  {
    var once := SetToolStatus(db, t.uuid, status);
    var twice := SetToolStatus(once, t.uuid, t.status);
    forall i | 0 <= i < |db.tools| ensures twice.tools[i] == db.tools[i] {
      if db.tools[i].uuid == t.uuid {
        DistinctKeyUnique(db.tools, ToolKey, db.tools[i], t);
      }
    }
    assert twice.tools == db.tools;
  }

  /** Switching a tool and switching it back restores the store. */
  lemma ToggleToolRoundTrip(db: Db, t: Tool, status: ToggleStatus)
    requires Valid(db)
    requires t in db.tools
    ensures var once := ToggleToolStatus(db, t.uuid, status).db;
      ToggleToolStatus(once, t.uuid, t.status).db == db
  {
    StatusSetBack(db, t, status);
  }
}

=== FILE: tools_route.dfy ===
/** `/api/tools`: the proxy reports the tools it discovered (POST) and asks
    which tools of the active profile are switched on (GET). */
module ToolsRoute {
  import opened Common
  import opened Seqs
  import opened Schema
  import opened Database
  import opened ToolCatalog
  import opened Auth

  const NotAnArray: string := "Request must include a non-empty array of tools"
  const ProcessFailed: string := "Failed to process tools request"
  const MissingFields: string := "Missing required fields: name, toolSchema, or mcp_server_uuid"
  const ServersNotFound: string := "One or more MCP servers not found or not associated with the active profile"
  const DatabaseError: string := "Database error occurred"
  const FetchFailed: string := "Failed to fetch tools"

  /** One element of the posted `tools` array; None is an absent or null field. */
  datatype ToolItem = ToolItem(
    name: Option<string>, description: Option<string>, toolSchema: Option<Json>,
    mcpServerUuid: Option<Uuid>)

  /** The per-item check: name, schema and server uuid all truthy. */
  predicate Complete(item: ToolItem) {
    Truthy(item.name) && item.toolSchema.Some? && Truthy(item.mcpServerUuid)
  }

  function IsComplete(): ToolItem -> bool { (item: ToolItem) => Complete(item) }
  function IsIncomplete(): ToolItem -> bool { (item: ToolItem) => !Complete(item) }

  function ToDraft(item: ToolItem): ToolDraft
    requires Complete(item)
  {
    ToolDraft(item.name.value, item.description, item.toolSchema.value, item.mcpServerUuid.value)
  }

  /** The items that pass the check, as drafts, in the order they were posted. */
  function Drafts(items: seq<ToolItem>): (r: seq<ToolDraft>)
    ensures |r| == |Filter(items, IsComplete())|
    ensures forall i :: 0 <= i < |r| ==>
      Complete(Filter(items, IsComplete())[i]) && r[i] == ToDraft(Filter(items, IsComplete())[i])
    ensures forall d :: d in r <==> exists item :: item in items && Complete(item) && ToDraft(item) == d
  {
    var ok := Filter(items, IsComplete());
    var r := seq(|ok|, i requires 0 <= i < |ok| => ToDraft(ok[i]));
    assert forall d :: d in r ==> exists item :: item in items && Complete(item) && ToDraft(item) == d by {
      forall d | d in r ensures exists item :: item in items && Complete(item) && ToDraft(item) == d {
        var i :| 0 <= i < |r| && r[i] == d;
        assert ok[i] in ok;
      }
    }
    assert forall item :: item in items && Complete(item) ==> ToDraft(item) in r by {
      forall item | item in items && Complete(item) ensures ToDraft(item) in r {
        var i :| 0 <= i < |ok| && ok[i] == item;
        assert r[i] == ToDraft(item);
      }
    }
    r
  }

  /** The drafts follow the posted order: a complete item becomes one
      draft, an incomplete one none, and a concatenation of postings gives
      the concatenation of their drafts. */
  lemma DraftsPostedOrder(a: seq<ToolItem>, b: seq<ToolItem>, x: ToolItem)
    ensures Drafts(a + b) == Drafts(a) + Drafts(b)
    ensures Drafts([x]) == if Complete(x) then [ToDraft(x)] else []
  {
    FilterAppend(a, b, IsComplete());
    assert Filter([x], IsComplete()) == if Complete(x) then [x] else [] by {
      assert [x][1..] == [];
    }
  }

  /** An entry of the reply's `errors` list: the refused item and why. */
  datatype Rejection = Rejection(tool: ToolItem, error: string)

  /** The refused items, in the order they were posted. */
  function Rejections(items: seq<ToolItem>): (r: seq<Rejection>)
    ensures |r| == |Filter(items, IsIncomplete())|
    ensures forall i :: 0 <= i < |r| ==> r[i] == Rejection(Filter(items, IsIncomplete())[i], MissingFields)
    ensures forall i :: 0 <= i < |r| ==>
      r[i].error == MissingFields && r[i].tool in items && !Complete(r[i].tool)
  {
    var refused := Filter(items, IsIncomplete());
    seq(|refused|, i requires 0 <= i < |refused| => Rejection(refused[i], MissingFields))
  }

  /** The rejections follow the posted order: an incomplete item gives one
      entry, a complete one none, and a concatenation of postings gives the
      concatenation of their rejections. */
  lemma RejectionsPostedOrder(a: seq<ToolItem>, b: seq<ToolItem>, x: ToolItem)
    ensures Rejections(a + b) == Rejections(a) + Rejections(b)
    ensures Rejections([x]) == if Complete(x) then [] else [Rejection(x, MissingFields)]
  {
    FilterAppend(a, b, IsIncomplete());
    var ra, rb, rab := Rejections(a), Rejections(b), Rejections(a + b);
    var fa := Filter(a, IsIncomplete());
    assert |rab| == |ra| + |rb|;
    forall i | 0 <= i < |rab| ensures rab[i] == (ra + rb)[i] {
      if i < |ra| {
        assert Filter(a + b, IsIncomplete())[i] == fa[i];
      } else {
        assert Filter(a + b, IsIncomplete())[i] == Filter(b, IsIncomplete())[i - |fa|];
      }
    }
    assert Filter([x], IsIncomplete()) == if Complete(x) then [] else [x] by {
      assert [x][1..] == [];
    }
  }

  /** The reply body of a POST that got as far as the upsert. */
  datatype ToolsReport = ToolsReport(
    results: seq<Tool>, errors: seq<Rejection>, success: bool, failureCount: nat, successCount: nat)

  function Report(rows: seq<Tool>, errors: seq<Rejection>): ToolsReport {
    ToolsReport(rows, errors, |rows| > 0, |errors|, |rows|)
  }

  /** What the POST handler does once the key is authenticated, as written:
      the active profile plays no part. `ids` are the uuids drawn for the
      rows the upsert inserts. */
  function ProcessTools(db: Db, profile: Profile, tools: Option<seq<ToolItem>>, ids: seq<Uuid>): (r: Reply<ToolsReport>)
    requires tools.Some? ==> |ids| == |Drafts(tools.value)|
    ensures tools.None? || tools == Some([]) ==> r == Reply(db, ErrorBody(400, NotAnArray, None))
    ensures r.response.Body? ==>
      && tools.Some?
      && r.response.value.errors == Rejections(tools.value)
      && r.response.value.failureCount == |r.response.value.errors|
      && r.response.value.successCount == |r.response.value.results|
      && r.response.value.success == (|r.response.value.results| > 0)
      && r.response.value.failureCount + r.response.value.successCount == |tools.value|
      && (|Drafts(tools.value)| == 0 ==> r.response.value.results == [])
      && (|Drafts(tools.value)| > 0 ==>
            UpsertTools(db, Drafts(tools.value), ids).Ok?
            && r.response.value.results == UpsertTools(db, Drafts(tools.value), ids).value.1)
    ensures r.response.ErrorBody? && r.response.status == 500 ==>
      && r.db == db
      && r.response.error == ProcessFailed
      && tools.Some? && |Drafts(tools.value)| > 0
      && var u := UpsertTools(db, Drafts(tools.value), ids);
         u.Err? && r.response.details == Some(if u.fault == Rejected(ForeignKeyViolation) then ServersNotFound else DatabaseError)
    ensures tools.Some? && |tools.value| > 0 && |Drafts(tools.value)| > 0 ==>
      (r.response.Body? <==> UpsertTools(db, Drafts(tools.value), ids).Ok?)
    ensures r.db == (if tools.Some? && |tools.value| > 0 && |Drafts(tools.value)| > 0
                        && UpsertTools(db, Drafts(tools.value), ids).Ok?
                     then UpsertTools(db, Drafts(tools.value), ids).value.0 else db)
    ensures Valid(db) ==> Valid(r.db)
  {
    if tools.None? || |tools.value| == 0 then Reply(db, ErrorBody(400, NotAnArray, None))
    else
      var items := tools.value;
      var valid := Drafts(items);
      var errors := Rejections(items);
      FilterSplitsCount(items, IsComplete(), IsIncomplete());
      if |valid| == 0 then Reply(db, Body(Report([], errors)))
      else
        match UpsertTools(db, valid, ids)
        case Ok((db', rows)) => Reply(db', Body(Report(rows, errors)))
        case Err(f) =>
          Reply(db, ErrorBody(500, ProcessFailed,
            Some(if f == Rejected(ForeignKeyViolation) then ServersNotFound else DatabaseError)))
  }

  /** POST. `profileId` is the uuid a default profile would receive. */
  function PostTools(db: Db, header: Option<string>, profileId: Uuid, tools: Option<seq<ToolItem>>, ids: seq<Uuid>): (r: Reply<ToolsReport>)
    requires tools.Some? ==> |ids| == |Drafts(tools.value)|
    ensures var a := Authenticate(db, header, profileId);
      && (a.outcome.Denied? ==> r == Reply(a.db, ErrorBody(401, a.outcome.message, None)))
      && (a.outcome.AuthThrew? ==> r == Reply(a.db, ErrorBody(500, ProcessFailed, None)))
      && (a.outcome.Authenticated? ==> r == ProcessTools(a.db, a.outcome.activeProfile, tools, ids))
    ensures Valid(db) ==> Valid(r.db)
  {
    var a := Authenticate(db, header, profileId);
    match a.outcome
    case Authenticated(_, profile) => ProcessTools(a.db, profile, tools, ids)
    case _ => Reply(a.db, Refusal(a.outcome, ProcessFailed))
  }

  /* -------------------------------------------- scoping the POST (corrected) */

  /** The server `serverUuid` belongs to the profile. */
  predicate OwnedServer(db: Db, serverUuid: Uuid, profileUuid: Uuid) {
    exists s :: s in db.mcpServers && s.uuid == serverUuid && s.profileUuid == profileUuid
  }

  /** A POST that names a server outside the active profile still writes the
      tool onto that server and reports success: the reply's own wording for
      a foreign key failure ("not associated with the active profile")
      promises a check the handler never makes. */
  lemma ProcessToolsWritesForeignServer(db: Db, profile: Profile, s: McpServer, name: string, schema: Json, id: Uuid)
    requires Valid(db)
    requires s in db.mcpServers && s.profileUuid != profile.uuid
    requires name != "" && s.uuid != ""
    requires forall t :: t in db.tools ==> t.uuid != id && ToolNameKey(t) != (s.uuid, name)
    ensures var item := ToolItem(Some(name), None, Some(schema), Some(s.uuid));
      var r := ProcessTools(db, profile, Some([item]), [id]);
      && r.response.Body? && r.response.value.success
      && Tool(id, name, None, schema, db.clock, s.uuid, Active) in r.db.tools
      && !OwnedServer(r.db, s.uuid, profile.uuid)
  {
    var item := ToolItem(Some(name), None, Some(schema), Some(s.uuid));
    var d := ToDraft(item);
    assert Filter([item], IsComplete()) == [item] by {
      FilterAll([item], IsComplete());
    }
    assert Drafts([item]) == [d];
    assert IsNew(db.tools, d) && HasServer(db, s.uuid);
    assert UpsertTools(db, [d], [id]).Ok?;
    StoresNewDraft(db.tools, db.clock, [d], [id], 0);
    var r := ProcessTools(db, profile, Some([item]), [id]);
    assert r.db == UpsertTools(db, [d], [id]).value.0;
    assert r.db.mcpServers == db.mcpServers;
    forall q | q in r.db.mcpServers && q.uuid == s.uuid ensures q.profileUuid != profile.uuid {
      DistinctKeyUnique(db.mcpServers, ServerKey, q, s);
    }
  }

  /** The check the reply's wording describes: every draft's server must
      belong to the active profile, else the request fails as a foreign key
      failure does. Everything else is as in `ProcessTools`. */
  function ProcessToolsScoped(db: Db, profile: Profile, tools: Option<seq<ToolItem>>, ids: seq<Uuid>): (r: Reply<ToolsReport>)
    requires tools.Some? ==> |ids| == |Drafts(tools.value)|
    ensures tools.None? || tools == Some([]) ==> r == Reply(db, ErrorBody(400, NotAnArray, None))
    ensures tools.Some? && (exists d :: d in Drafts(tools.value) && !OwnedServer(db, d.mcpServerUuid, profile.uuid)) ==>
      r.db == db && r.response.ErrorBody?
    ensures (tools.Some? && forall d :: d in Drafts(tools.value) ==> OwnedServer(db, d.mcpServerUuid, profile.uuid)) ==>
      r == ProcessTools(db, profile, tools, ids)
    ensures Valid(db) ==> Valid(r.db)
  {
    if tools.None? || |tools.value| == 0 then Reply(db, ErrorBody(400, NotAnArray, None))
    else if exists d :: d in Drafts(tools.value) && !OwnedServer(db, d.mcpServerUuid, profile.uuid) then
      Reply(db, ErrorBody(500, ProcessFailed, Some(ServersNotFound)))
    else ProcessTools(db, profile, tools, ids)
  }

  /** An upsert whose drafts all name servers of one profile touches no tool
      of a server outside it, and adds tools only to that profile's servers. */
  lemma UpsertStaysInProfile(db: Db, drafts: seq<ToolDraft>, ids: seq<Uuid>, profileUuid: Uuid)
    requires Valid(db)
    requires |ids| == |drafts|
    requires forall d :: d in drafts ==> OwnedServer(db, d.mcpServerUuid, profileUuid)
    ensures var tools := UpsertedTools(db.tools, db.clock, drafts, ids);
      && (forall i :: 0 <= i < |db.tools| && !OwnedServer(db, db.tools[i].mcpServerUuid, profileUuid) ==>
            tools[i] == db.tools[i])
      && (forall i :: |db.tools| <= i < |tools| ==> OwnedServer(db, tools[i].mcpServerUuid, profileUuid))
  {
    var tools := UpsertedTools(db.tools, db.clock, drafts, ids);
    forall i | 0 <= i < |db.tools| && !OwnedServer(db, db.tools[i].mcpServerUuid, profileUuid)
      ensures tools[i] == db.tools[i]
    {
      var t := db.tools[i];
      forall d | d in drafts ensures DraftKey(d) != ToolNameKey(t) {
        var q :| q in db.mcpServers && q.uuid == d.mcpServerUuid && q.profileUuid == profileUuid;
        assert q.uuid != t.mcpServerUuid;
      }
      assert DraftFor(drafts, ToolNameKey(t)).None?;
    }
    var added := Fresh(db.tools, db.clock, drafts, ids);
    forall i | |db.tools| <= i < |tools| ensures OwnedServer(db, tools[i].mcpServerUuid, profileUuid) {
      assert tools[i] == added[i - |db.tools|];
      FreshMember(db.tools, db.clock, drafts, ids, tools[i]);
    }
  }

  /** The corrected POST writes only inside the active profile: a tool of a
      server of any other profile is left exactly as it was, and every tool it
      adds hangs off a server of the active profile. */
  lemma ScopedPostIsolated(db: Db, profile: Profile, tools: Option<seq<ToolItem>>, ids: seq<Uuid>)
    requires Valid(db)
    requires tools.Some? ==> |ids| == |Drafts(tools.value)|
    ensures var r := ProcessToolsScoped(db, profile, tools, ids);
      && |r.db.tools| >= |db.tools|
      && (forall i :: 0 <= i < |db.tools| && !OwnedServer(db, db.tools[i].mcpServerUuid, profile.uuid) ==>
            r.db.tools[i] == db.tools[i])
      && (forall i :: |db.tools| <= i < |r.db.tools| ==> OwnedServer(db, r.db.tools[i].mcpServerUuid, profile.uuid))
  {
    var r := ProcessToolsScoped(db, profile, tools, ids);
    if r.db != db {
      var drafts := Drafts(tools.value);
      assert r.db == UpsertTools(db, drafts, ids).value.0;
      UpsertStaysInProfile(db, drafts, ids, profile.uuid);
    }
  }

  /* ------------------------------------------------------------------ GET */

  /** The WHERE clause of the GET: the tool's server is in the profile and,
      when a status is asked for, the tool has it. */
  predicate Shown(db: Db, t: Tool, profileUuid: Uuid, status: Option<string>) {
    OwnedServer(db, t.mcpServerUuid, profileUuid) && (Truthy(status) ==> t.status.Label() == status.value)
  }

  function ShownIn(db: Db, profileUuid: Uuid, status: Option<string>): Tool -> bool {
    (t: Tool) => Shown(db, t, profileUuid, status)
  }

  /** One row of the GET reply. */
  datatype ToolSummary = ToolSummary(mcpServerUuid: Uuid, name: string, status: ToggleStatus)

  function Summary(t: Tool): ToolSummary {
    ToolSummary(t.mcpServerUuid, t.name, t.status)
  }

  /** The rows of the reply, one per tool, in order. */
  function Summaries(rows: seq<Tool>): (r: seq<ToolSummary>)
    ensures |r| == |rows|
    ensures forall x :: x in r <==> exists t :: t in rows && Summary(t) == x
  {
    var r := seq(|rows|, i requires 0 <= i < |rows| => Summary(rows[i]));
    assert forall t :: t in rows ==> Summary(t) in r by {
      forall t | t in rows ensures Summary(t) in r {
        var i :| 0 <= i < |rows| && rows[i] == t;
        assert r[i] == Summary(t);
      }
    }
    assert forall x :: x in r ==> exists t :: t in rows && Summary(t) == x by {
      forall x | x in r ensures exists t :: t in rows && Summary(t) == x {
        var i :| 0 <= i < |r| && r[i] == x;
        assert rows[i] in rows;
      }
    }
    r
  }

  /** The WHERE clause with the status parameter already cast to the enum. */
  function Selects(db: Db, profileUuid: Uuid, wanted: Option<ToggleStatus>): Tool -> bool {
    (t: Tool) => OwnedServer(db, t.mcpServerUuid, profileUuid) && (wanted.Some? ==> t.status == wanted.value)
  }

  /** Comparing the cast parameter with the enum is comparing the labels. */
  lemma SelectsShown(db: Db, profileUuid: Uuid, status: Option<string>, t: Tool)
    requires Truthy(status) ==> ParseToggleStatus(status.value).Some?
    ensures var wanted := if Truthy(status) then ParseToggleStatus(status.value) else None;
      Selects(db, profileUuid, wanted)(t) == Shown(db, t, profileUuid, status)
  {
    if Truthy(status) {
      EnumLabelsRoundTrip(Active, t.status, Success);
    }
  }

  /** The tools whose server belongs to the profile, optionally of one status:
      the join with `mcp_servers` and the WHERE clause. A status parameter
      that is not a `toggle_status` label fails the query. */
  function ListTools(db: Db, profileUuid: Uuid, status: Option<string>): (r: Result<seq<ToolSummary>>)
    ensures r.Err? <==> Truthy(status) && ParseToggleStatus(status.value).None?
    ensures r.Err? ==> r.fault == Rejected(InvalidEnumValue)
    ensures r.Ok? ==> forall t :: t in db.tools && Shown(db, t, profileUuid, status) ==> Summary(t) in r.value
    ensures r.Ok? ==> forall x :: x in r.value ==>
      exists t :: t in db.tools && Summary(t) == x && Shown(db, t, profileUuid, status)
    ensures r.Ok? ==> |r.value| == |Filter(db.tools, ShownIn(db, profileUuid, status))|
  {
    var wanted := if Truthy(status) then ParseToggleStatus(status.value) else None;
    if Truthy(status) && wanted.None? then Err(Rejected(InvalidEnumValue))
    else
      var sel := Selects(db, profileUuid, wanted);
      assert forall t :: sel(t) == Shown(db, t, profileUuid, status) by {
        forall t ensures sel(t) == Shown(db, t, profileUuid, status) {
          SelectsShown(db, profileUuid, status, t);
        }
      }
      FilterSame(db.tools, sel, ShownIn(db, profileUuid, status));
      Ok(Summaries(Filter(db.tools, sel)))
  }

  /** GET. */
  function GetTools(db: Db, header: Option<string>, profileId: Uuid, status: Option<string>): (r: Reply<seq<ToolSummary>>)
    ensures var a := Authenticate(db, header, profileId);
      && r.db == a.db
      && (a.outcome.Denied? ==> r.response == ErrorBody(401, a.outcome.message, None))
      && (a.outcome.AuthThrew? ==> r.response == ErrorBody(500, FetchFailed, None))
      && (a.outcome.Authenticated? ==>
            match ListTools(a.db, a.outcome.activeProfile.uuid, status)
            case Ok(rows) => r.response == Body(rows)
            case Err(_) => r.response == ErrorBody(500, FetchFailed, None))
    ensures Valid(db) ==> Valid(r.db)
  {
    var a := Authenticate(db, header, profileId);
    match a.outcome
    case Authenticated(_, profile) =>
      (match ListTools(a.db, profile.uuid, status)
       case Ok(rows) => Reply(a.db, Body(rows))
       case Err(_) => Reply(a.db, ErrorBody(500, FetchFailed, None)))
    case _ => Reply(a.db, Refusal(a.outcome, FetchFailed))
  }

  /** After a scoped POST succeeds, GET lists every tool it reported. */
  lemma PostedToolsAreListed(db: Db, profile: Profile, items: seq<ToolItem>, ids: seq<Uuid>, i: nat)
    requires |ids| == |Drafts(items)|
    requires i < |Drafts(items)|
    requires ProcessToolsScoped(db, profile, Some(items), ids).response.Body?
    ensures var r := ProcessToolsScoped(db, profile, Some(items), ids);
      var d := Drafts(items)[i];
      exists x :: x in ListTools(r.db, profile.uuid, None).value && x.mcpServerUuid == d.mcpServerUuid && x.name == d.name
  {
    var drafts := Drafts(items);
    var r := ProcessToolsScoped(db, profile, Some(items), ids);
    assert drafts[i] in drafts;
    assert OwnedServer(db, drafts[i].mcpServerUuid, profile.uuid);
    assert r.db == UpsertTools(db, drafts, ids).value.0;
    UpsertStoresEveryDraft(db, drafts, ids, i);
    var t :| t in r.db.tools && ToolNameKey(t) == DraftKey(drafts[i]);
    assert Shown(r.db, t, profile.uuid, None);
    assert Summary(t) in ListTools(r.db, profile.uuid, None).value;
  }
}

=== FILE: url_check.dfy ===
/** The `mcp_servers_url_check` pattern of the schema:
      ^https?://[a-zA-Z0-9-]+(\.[a-zA-Z0-9-]+)*(:[0-9]+)?(/[<path chars>]*)?$
    read as four consecutive parts: scheme, dotted host, optional port,
    optional path. `UrlMatches` is a left-to-right scanner; `MatchesPattern`
    is the declarative reading; `UrlMatchesIsPattern` proves them equal. */
module UrlCheck {

  predicate IsLabelChar(c: char) {
    ('a' <= c <= 'z') || ('A' <= c <= 'Z') || ('0' <= c <= '9') || c == '-'
  }

  predicate IsHostChar(c: char) {
    IsLabelChar(c) || c == '.'
  }

  predicate IsDigit(c: char) {
    '0' <= c <= '9'
  }

  /** The bracket expression of the path; `''` in the SQL literal is one quote. */
  predicate IsPathChar(c: char) {
    IsLabelChar(c) || c in "._~:/?#[]@!$&'()*+,;="
  }

  /* ---------------------------------------------------- declarative parts */

  predicate IsScheme(s: string) {
    s == "http://" || s == "https://"
  }

  /** One or more non-empty labels joined by single dots. */
  predicate IsHost(h: string) {
    && |h| > 0
    && (forall i :: 0 <= i < |h| ==> IsHostChar(h[i]))
    && h[0] != '.'
    && h[|h| - 1] != '.'
    && (forall i :: 0 <= i < |h| - 1 ==> !(h[i] == '.' && h[i + 1] == '.'))
  }

  /** Empty, or a colon followed by one or more digits. */
  predicate IsPort(p: string) {
    p == [] || (|p| >= 2 && p[0] == ':' && forall i :: 1 <= i < |p| ==> IsDigit(p[i]))
  }

  /** Empty, or a slash followed by path characters. */
  predicate IsPath(p: string) {
    p == [] || (p[0] == '/' && forall i :: 1 <= i < |p| ==> IsPathChar(p[i]))
  }

  /** `s` is `s[..i]` scheme, `s[i..j]` host, `s[j..k]` port, `s[k..]` path. */
  predicate Split(s: string, i: int, j: int, k: int) {
    && 0 <= i <= j <= k <= |s|
    && IsScheme(s[..i]) && IsHost(s[i..j]) && IsPort(s[j..k]) && IsPath(s[k..])
  }

  /** The whole string is scheme, host, port and path, in that order. */
  ghost predicate MatchesPattern(s: string) {
    exists i, j, k :: Split(s, i, j, k)
  }

  /* ------------------------------------------------------------- scanner */

  /** Length of the longest prefix of `t` whose characters all satisfy `p`. */
  function Span(t: string, p: char -> bool): (n: nat)
    ensures n <= |t|
    ensures forall i :: 0 <= i < n ==> p(t[i])
    ensures n < |t| ==> !p(t[n])
  {
    if |t| == 0 || !p(t[0]) then 0 else 1 + Span(t[1..], p)
  }

  function SchemeLength(s: string): (n: nat)
    ensures n <= |s|
    ensures n > 0 ==> IsScheme(s[..n])
  {
    if |s| >= 8 && s[..8] == "https://" then 8
    else if |s| >= 7 && s[..7] == "http://" then 7
    else 0
  }

  function PortLength(t: string): (n: nat)
    ensures n <= |t|
  {
    if |t| > 0 && t[0] == ':' then 1 + Span(t[1..], IsDigit) else 0
  }

  /** Whether `url` satisfies the pattern, taking each part as long as it can go. */
  predicate UrlMatches(url: string) {
    var i := SchemeLength(url);
    var j := i + Span(url[i..], IsHostChar);
    var k := j + PortLength(url[j..]);
    Split(url, i, j, k)
  }

  /** A span is determined by where its run of matching characters stops. */
  lemma {:induction false} SpanExact(t: string, p: char -> bool, n: nat)
    requires n <= |t|
    requires forall i :: 0 <= i < n ==> p(t[i])
    requires n < |t| ==> !p(t[n])
    ensures Span(t, p) == n
  {
    if n > 0 {
      SpanExact(t[1..], p, n - 1);
    }
  }

  /** In any split the scheme length is forced: `http://` and `https://` differ at index 4. */
  lemma SchemeForced(s: string, i: int, j: int, k: int)
    requires Split(s, i, j, k)
    ensures i == SchemeLength(s)
  {
    if s[..i] == "https://" {
      assert s[..8] == "https://";
    } else {
      assert s[..7] == "http://";
      assert s[4] == ':';
    }
  }

  /** The host ends at the first character that is not a host character. */
  lemma HostForced(s: string, i: int, j: int, k: int)
    requires Split(s, i, j, k)
    ensures j == i + Span(s[i..], IsHostChar)
  {
    var t := s[i..];
    forall m | 0 <= m < j - i ensures IsHostChar(t[m]) {
      assert t[m] == s[i..j][m];
    }
    if j < |s| {
      if j < k {
        assert s[j] == s[j..k][0];
      } else {
        assert s[j] == s[k..][0];
      }
      assert t[j - i] == s[j];
    }
    SpanExact(t, IsHostChar, j - i);
  }

  /** The port, when present, runs to the first non-digit. */
  lemma PortForced(s: string, i: int, j: int, k: int)
    requires Split(s, i, j, k)
    ensures k == j + PortLength(s[j..])
  {
    var t := s[j..];
    if j < k {
      assert t[0] == s[j..k][0];
      var d := t[1..];
      forall m | 0 <= m < k - j - 1 ensures IsDigit(d[m]) {
        assert d[m] == s[j..k][m + 1];
      }
      if k < |s| {
        assert s[k] == s[k..][0];
        assert d[k - j - 1] == s[k];
      }
      SpanExact(d, IsDigit, k - j - 1);
    } else if j < |s| {
      assert s[j] == s[k..][0];
      assert t[0] == s[j];
    }
  }

  lemma UrlMatchesSound(url: string)
    requires UrlMatches(url)
    ensures MatchesPattern(url)
  {
    var i := SchemeLength(url);
    var j := i + Span(url[i..], IsHostChar);
    var k := j + PortLength(url[j..]);
    assert Split(url, i, j, k);
  }

  lemma UrlMatchesComplete(url: string, i: int, j: int, k: int)
    requires Split(url, i, j, k)
    ensures UrlMatches(url)
  {
    SchemeForced(url, i, j, k);
    HostForced(url, i, j, k);
    PortForced(url, i, j, k);
  }

  /** The scanner accepts exactly the strings the pattern describes. */
  lemma UrlMatchesIsPattern(url: string)
    ensures UrlMatches(url) <==> MatchesPattern(url)
  {
    if UrlMatches(url) {
      UrlMatchesSound(url);
    }
    if MatchesPattern(url) {
      var i, j, k :| Split(url, i, j, k);
      UrlMatchesComplete(url, i, j, k);
    }
  }

  /** A string with no scheme prefix is refused. */
  lemma RejectsOtherScheme()
    ensures !MatchesPattern("ftp://example.com")
  {
    var u := "ftp://example.com";
    assert u[..8] != "https://" by { assert u[0] == 'f'; }
    assert u[..7] != "http://" by { assert u[0] == 'f'; }
    UrlMatchesIsPattern(u);
  }

  /** The host needs at least one label. */
  lemma RejectsEmptyHost()
    ensures !MatchesPattern("http://")
  {
    var u := "http://";
    assert u[..7] == "http://";
    UrlMatchesIsPattern(u);
  }

  /** Two dots in a row leave an empty label. */
  lemma RejectsEmptyLabel()
    ensures !MatchesPattern("http://a..b")
  {
    var u := "http://a..b";
    assert u[..8] != "https://" by { assert u[4] == ':'; }
    assert u[..7] == "http://";
    var t := u[7..];
    assert t == "a..b";
    SpanExact(t, IsHostChar, 4);
    assert u[7..11] == t;
    assert t[1] == '.' && t[2] == '.';
    UrlMatchesIsPattern(u);
  }

  /** A colon after the host must be followed by digits. */
  lemma RejectsEmptyPort()
    ensures !MatchesPattern("http://a:/sse")
  {
    var u := "http://a:/sse";
    assert u[..8] != "https://" by { assert u[4] == ':'; }
    assert u[..7] == "http://";
    var t := u[7..];
    assert t[0] == 'a' && t[1] == ':';
    SpanExact(t, IsHostChar, 1);
    var d := u[8..][1..];
    assert d[0] == '/';
    SpanExact(d, IsDigit, 0);
    assert u[8..9] == ":";
    UrlMatchesIsPattern(u);
  }

  /** An https endpoint with a path is accepted. */
  lemma AcceptsSseEndpoint()
    ensures MatchesPattern("https://example.com/sse")
  {
    var e := "https://example.com/sse";
    assert Split(e, 8, 19, 19) by {
      assert e[..8] == "https://";
      assert e[8..19] == "example.com";
      assert e[19..19] == [];
      assert e[19..] == "/sse";
    }
  }
}
